=== FILE: README.md ===
# node-chakracore core, modelled in Dafny

This project models the decision logic and data structures at the centre of
node-chakracore. That is Node.js running on the ChakraCore JavaScript engine
through the "chakrashim" V8 compatibility layer. It also proves properties of
that model. The model covers:

- **The time-travel-debugging (TTD) event log** of ChakraCore:
  - the block-chained event list `TTEventList` (module `EventList`);
  - the mode stack and the per-context flags derived from it (module `ModeStack`);
  - the snapshot retention and log-time queries (module `EventLog`);
  - the call-stack shadow counters and the last-return location
    `TTLastReturnLocationInfo` (module `CallShadow`).
- **The out-of-process JIT server**:
  - the registry of thread and script contexts kept by `ServerContextManager`
    (module `JitRegistry`);
  - the `ServerCallWrapper` exception-to-HRESULT table and the argument checks
    of the `Server*` entry points (module `JitServer`).
- **JSRT decision functions** (module `Jsrt`):
  - the error priority of `CheckContext`;
  - the runtime-attribute mask of `JsCreateRuntime`;
  - value-type classification;
  - typed-array type codes and element sizes;
  - argument validation of the typed-array, external-buffer, call and
    construct APIs;
  - the tagged-number prologue of `JsAddRef` / `JsRelease`.
- **chakrashim helpers**:
  - the bounds and terminator arithmetic of `String::WriteRaw`/`WriteUtf8`,
    `Utils::NewString` and `NewFromOneByte` (module `V8String`);
  - the property-descriptor, property-id, array-search and external-data
    helpers of `jsrtutils.cc` (module `JsrtUtils`).
- **The WebAssembly environment**: a bounds-checked, set-once slot array, plus
  global cells (module `WasmEnv`).
- **The `ch` test host** (module `ChHost`):
  - the bytecode-header text written by `CreateLibraryByteCodeHeader`, including
    the hex dump;
  - the `GetSerializedBuffer` result protocol;
  - path lower-casing.
- **`WScriptJsrt::ConvertErrorCodeToMessage`** (module `WScript`).

Modules `Wrappers` (Option/Result) and `Ascii` (C-locale `tolower` on bytes)
are shared helpers.

How things are represented:

- Engine objects that the source only passes along are abstract values:
  property ids, JSRT values, engine results and exception kinds.
- Calls into engine code the model cannot see are parameters (oracles):
  `JsSetProperty`'s error per field, the comparison callback of
  `IsValueInArray`, and the two `JsSerializeScriptUtf8` replies.
- HRESULTs are unsigned 32-bit bit patterns.
- 32- and 64-bit counters wrap explicitly where the source's width matters.
- Fatal asserts (`TTDAssert`, `AssertOrFailFast`) are modelled as error
  results, never as preconditions. An error result is the path the source
  takes when the condition fails.
- Debug-only asserts (`Assert`, `AssertMsg`) are compiled out of release
  builds, and the release path is what is modelled. A `debugBuild` flag
  exists only for the two checks whose failure changes what the release
  path would do to the state: the set-once check on the WebAssembly slots
  and global cells, and the closed-context check of
  `ServerCleanupScriptContext`. There, a debug build gives an error result
  and a release build takes the unchecked path. Every other debug-only
  assert whose failure would lead the release build down a different path
  is listed under "Left out"; the rest (result-marshalling checks and
  reply-size checks, for example) change nothing a release build does.

## Model

| member | source | states |
|---|---|---|
| EventList.Empty | deps/chakrashim/core/lib/Runtime/Debug/TTEventLog.cpp:153-157 | a new event list holds no entries and has size 0 |
| EventList.Append | deps/chakrashim/core/lib/Runtime/Debug/TTEventLog.cpp:115-134 | GetNextAvailableEntry appends exactly one entry at the back and keeps the block invariant; it links a new block only when there is no head block or the head block is full; otherwise it fills the head block; earlier blocks are untouched |
| EventList.DeleteFirstEntry | deps/chakrashim/core/lib/Runtime/Debug/TTEventLog.cpp:208-225 | fails exactly when the entry is not its block's front or would drain a block that is not the first; on success the size drops by one, the invariant holds, and a block is unlinked exactly when it is drained |
| EventList.DeleteFirstEntryRemoves | deps/chakrashim/core/lib/Runtime/Debug/TTEventLog.cpp:135-152 | a successful delete removes exactly the entry at that block's front position; every other entry keeps its order; deleting from the first block removes the oldest entry |
| EventList.SizeIsLength | deps/chakrashim/core/lib/Runtime/Debug/TTEventLog.cpp:231-242 | the sum of the live counts of the blocks, which Count walks, equals the number of entries |
| EventList.IsEmpty | deps/chakrashim/core/lib/Runtime/Debug/TTEventLog.cpp:226-229 | a list with no head block has no entries; on a chain whose blocks each hold a live entry, IsEmpty holds exactly when there are no entries |
| EventList.Count | deps/chakrashim/core/lib/Runtime/Debug/TTEventLog.cpp:231-242 | Count walks every block and returns the number of entries, reduced modulo 2^32 as the source's uint32 counter is |
| EventList.CurrentIsElement | deps/chakrashim/core/lib/Runtime/Debug/TTEventLog.cpp:262-278 | a valid iterator designates an entry of the list, at a position below the size |
| EventList.MoveNextSteps | deps/chakrashim/core/lib/Runtime/Debug/TTEventLog.cpp:279-291 | `MoveNext` advances to the next entry by insertion order, or becomes invalid after the newest entry |
| EventList.MovePreviousSteps | deps/chakrashim/core/lib/Runtime/Debug/TTEventLog.cpp:292-304 | `MovePrevious` steps back one entry, or becomes invalid before the oldest entry |
| EventList.FirstIterator | deps/chakrashim/core/lib/Runtime/Debug/TTEventLog.cpp:305-322 | the iterator `GetIteratorAtFirst` gives is valid exactly when the list is non-empty, and it designates the oldest entry |
| EventList.LastIterator | deps/chakrashim/core/lib/Runtime/Debug/TTEventLog.cpp:323-336 | the iterator `GetIteratorAtLast` gives is valid exactly when the list is non-empty, and it designates the newest entry |
| EventList.WalkForward | deps/chakrashim/core/lib/Runtime/Debug/TTEventLog.cpp:305-322 | iterating from the first entry with MoveNext until the iterator is invalid visits every entry once, in insertion order |
| EventList.WalkBackward | deps/chakrashim/core/lib/Runtime/Debug/TTEventLog.cpp:323-336 | iterating from the last entry with MovePrevious visits every entry once, newest first |
| EventList.UnloadEventList | deps/chakrashim/core/lib/Runtime/Debug/TTEventLog.cpp:159-194 | unloading visits every live entry in order, once, and leaves the list with no blocks |
| ModeStack.Init | deps/chakrashim/core/lib/Runtime/Debug/TTEventLog.cpp:600-620 | a new log starts with an Invalid placeholder at the base of the mode stack, so no mode is active yet |
| ModeStack.ComputeModeIsUnion | deps/chakrashim/core/lib/Runtime/Debug/TTEventLog.cpp:379-419 | `ComputeMode` gives a mode exactly when index 0 holds a global mode and every other entry is a modifier; it is then the union of every mode on the stack |
| ModeStack.SetGlobalMode | deps/chakrashim/core/lib/Runtime/Debug/TTEventLog.cpp:688-695 | only Record, Replay or Debugger may be set, and only at index 0; the rest of the stack is kept |
| ModeStack.PushMode | deps/chakrashim/core/lib/Runtime/Debug/TTEventLog.cpp:707-715 | only a modifier may be pushed, onto a well-formed stack; it goes on top |
| ModeStack.PopMode | deps/chakrashim/core/lib/Runtime/Debug/TTEventLog.cpp:716-725 | pop succeeds exactly when the top is the given modifier, and then removes only it |
| ModeStack.PushPopRoundTrip | deps/chakrashim/core/lib/Runtime/Debug/TTEventLog.cpp:707-725 | popping a mode just pushed restores the previous state, computed mode included |
| ModeStack.FlagsFromMask | deps/chakrashim/core/lib/Runtime/Debug/TTEventLog.cpp:726-741 | in `SetModeFlagsOnContext`, each of the five context flags holds exactly when its mode bit is set, together with CurrentlyEnabled for the action flags, and no excluded-execution bit is set |
| ModeStack.FlagsFromStack | deps/chakrashim/core/lib/Runtime/Debug/TTEventLog.cpp:379-419 | the same flags stated over the mode stack: record/replay/debugger is the base mode, with no excluding modifier pushed and with CurrentlyEnabled pushed for the action flags |
| ModeStack.GlobalModeUnique | deps/chakrashim/core/lib/Runtime/Debug/TTEventLog.cpp:386-404 | a well-formed stack holds exactly one global mode, the one at index 0 |
| CallShadow.GetLocation | deps/chakrashim/core/lib/Runtime/Debug/TTEventLog.cpp:66-86 | a return location can be read exactly when one is defined, and reading gives the recorded frame |
| CallShadow.SetReturnLocation | deps/chakrashim/core/lib/Runtime/Debug/TTEventLog.cpp:54-58 | after setting, the location is a normal-return location that reads back as the frame |
| CallShadow.SetExceptionLocation | deps/chakrashim/core/lib/Runtime/Debug/TTEventLog.cpp:60-64 | after setting, the location is an exception location that reads back as the frame |
| CallShadow.Clear | deps/chakrashim/core/lib/Runtime/Debug/TTEventLog.cpp:88-95 | no location is defined afterwards |
| CallShadow.ClearReturnOnly | deps/chakrashim/core/lib/Runtime/Debug/TTEventLog.cpp:97-103 | clears a normal-return location and never an exception location |
| CallShadow.ClearExceptionOnly | deps/chakrashim/core/lib/Runtime/Debug/TTEventLog.cpp:105-111 | clears an exception location and never a normal-return location |
| CallShadow.PushCallEvent | deps/chakrashim/core/lib/Runtime/Debug/TTEventLog.cpp:1149-1228 | pushes one frame for the callee, with statement indices -1 and loop time 0, stamped with the incremented function time; the frames below are unchanged; a normal-return location is cleared and an exception location is kept; a pending break-on-first-user-code request is consumed and, when the callee's first statement has a source position, makes that position (as uint32, with no pinned times) the active breakpoint; otherwise the active breakpoint is unchanged |
| CallShadow.PopCallEvent | deps/chakrashim/core/lib/Runtime/Debug/TTEventLog.cpp:1229-1240 | pops the top frame, increments the function time and records the popped frame as the return location |
| CallShadow.PopCallEventException | deps/chakrashim/core/lib/Runtime/Debug/TTEventLog.cpp:1241-1258 | pops the top frame and increments the function time; the popped frame becomes the exception location unless one is already recorded, which is kept |
| CallShadow.ClearExceptionFrames | deps/chakrashim/core/lib/Runtime/Debug/TTEventLog.cpp:1259-1263 | clears the last-return location and leaves the stack and counters alone |
| CallShadow.PushThenPop | deps/chakrashim/core/lib/Runtime/Debug/TTEventLog.cpp:1149-1240 | a push then a pop restores the stack, advances the function time by two and records the pushed frame as the return location |
| CallShadow.ExceptionKeepsRaisingFrame | deps/chakrashim/core/lib/Runtime/Debug/TTEventLog.cpp:1241-1258 | when an exception unwinds two frames, the innermost (raising) frame stays the exception location |
| CallShadow.UpdateLoopCountInfo | deps/chakrashim/core/lib/Runtime/Debug/TTEventLog.cpp:1527-1532 | only the top frame's loop time changes, by one (64-bit wrap) |
| CallShadow.GetTopCallCounter | deps/chakrashim/core/lib/Runtime/Debug/TTEventLog.cpp:344-350 | fails exactly on an empty call stack; otherwise it gives the top frame |
| CallShadow.TryGetTopCallCallerCounter | deps/chakrashim/core/lib/Runtime/Debug/TTEventLog.cpp:351-362 | gives the caller's frame exactly when at least two frames exist |
| CallShadow.UpdateCurrentStatementInfo | deps/chakrashim/core/lib/Runtime/Debug/TTEventLog.cpp:1533-1573 | fails on an empty call stack; an offset inside the current statement's span changes nothing; outside it, a missing statement mapping is the fatal NoStatementMapping and happens in no other case; the state changes exactly when the offset enters another statement whose span holds it, and then only the top frame changes: the current statement and its loop time become the last ones, and the new statement is entered at the frame's loop time with its span |
| CallShadow.StatementUpdateIdempotent | deps/chakrashim/core/lib/Runtime/Debug/TTEventLog.cpp:1533-1573 | updating again at the same offset changes nothing |
| CallShadow.StatementUpdateEnters | deps/chakrashim/core/lib/Runtime/Debug/TTEventLog.cpp:1549-1562 | when the top frame changes, it enters the enclosing statement: the old current index becomes the last index, the loop time is captured, and the offset lies in the new statement's bytecode span |
| CallShadow.ResetCallStackForTopLevelCall | deps/chakrashim/core/lib/Runtime/Debug/TTEventLog.cpp:1751-1761 | allowed only on an empty call stack; it zeroes the function time, records the callback time, resets the host callback id and clears the last-return location |
| CallShadow.GetPreviousTimeAndPositionForDebugger | deps/chakrashim/core/lib/Runtime/Debug/TTEventLog.cpp:1600-1654 | fails on an empty call stack; it reports "first statement of the top-level call" exactly when one frame exists and it has no last statement, and then gives that frame's current statement; a top frame with a last statement gives that statement with the frame's function time and the last statement's loop time; at a call's first statement with a caller, the caller's current statement with the caller's function time and current-statement loop time; every position carries the top-level callback's event time |
| CallShadow.ProcessBPInfoPreBreak | deps/chakrashim/core/lib/Runtime/Debug/TTEventLog.cpp:1340-1379 | outside debugger actions it always breaks; with breakpoints suppressed it never breaks and logs only if logging is on; with no active breakpoint it breaks; with an active breakpoint it fails exactly on an empty call stack, and otherwise breaks exactly when line and column agree as uint32 and each pinned time equals the top frame's counter |
| CallShadow.PinnedBreakpointSingleCall | deps/chakrashim/core/lib/Runtime/Debug/TTEventLog.cpp:1365-1377 | a breakpoint pinned to a function time breaks only in frames with that same function time |
| CallShadow.FirstUserCodeBreaks | deps/chakrashim/core/lib/Runtime/Debug/TTEventLog.cpp:1182-1219 | after a break-on-first-user-code request, the callee breaks when its current statement maps to its first statement's position, whatever its times |
| EventLog.FirstRootIsFirstTime | deps/chakrashim/core/lib/Runtime/Debug/TTEventLog.cpp:1706-1718 | `GetFirstEventTimeInLog` gives the time of the oldest top-level call event, or -1 if there is none |
| EventLog.LastRootIsLastTime | deps/chakrashim/core/lib/Runtime/Debug/TTEventLog.cpp:1719-1731 | `GetLastEventTimeInLog` gives the time of the newest top-level call event, or -1 |
| EventLog.KthEventTime | deps/chakrashim/core/lib/Runtime/Debug/TTEventLog.cpp:1732-1750 | `GetKthEventTimeInLog`, for 0 < k < 2^32, gives the time of the k-th top-level call event, or -1 when there are fewer than k; for k = 0 the uint32 counter matches only after wrapping, at the 2^32-th top-level call, so the result is -1 for any shorter log |
| EventLog.FindSnapTimeForEventTime | deps/chakrashim/core/lib/Runtime/Debug/TTEventLog.cpp:1845-1886 | an end time is reported exactly when one was asked for; a found start is at or before the target; the end is -1 when no snapshot in the log is restored after the start, and otherwise a snapshot's restore time later than the start |
| EventLog.FindSnapTimeIsNewest | deps/chakrashim/core/lib/Runtime/Debug/TTEventLog.cpp:1853-1866 | the start time found is that of the newest valid snapshot at or before the target; a valid snapshot is a snapshot event or a top-level call carrying a snapshot |
| EventLog.FindSnapTimeNone | deps/chakrashim/core/lib/Runtime/Debug/TTEventLog.cpp:1853-1866 | with no valid snapshot at or before the target, the start time is -1 |
| EventLog.FindSnapEndIsOldestLater | deps/chakrashim/core/lib/Runtime/Debug/TTEventLog.cpp:1868-1882 | the end time is the restore time of the oldest snapshot later than the start |
| EventLog.GetSnapShotBoundInterval | deps/chakrashim/core/lib/Runtime/Debug/TTEventLog.cpp:1887-1927 | a found end bound lies strictly after both the start bound and the target; a missing start means no end, or a snapshot with restore time -1 exists |
| EventLog.SnapShotBoundIsTight | deps/chakrashim/core/lib/Runtime/Debug/TTEventLog.cpp:1893-1908 | the start bound is at or before the target, and every snapshot at or before the target is at or before the snapshot chosen |
| EventLog.SnapShotBoundEnd | deps/chakrashim/core/lib/Runtime/Debug/TTEventLog.cpp:1893-1926 | with the newest snapshot at or before the target at a given position, the start is its restore time and the end is the restore time of the next snapshot in the log, or -1 when none follows |
| EventLog.SnapShotBoundNone | deps/chakrashim/core/lib/Runtime/Debug/TTEventLog.cpp:1889-1926 | with no snapshot at or before the target, both bounds are -1 (the forward walk never runs) |
| EventLog.GetPreviousSnapshotInterval | deps/chakrashim/core/lib/Runtime/Debug/TTEventLog.cpp:1928-1946 | a result other than -1 is the restore time of a snapshot in the log, strictly before the current one |
| EventLog.PreviousSnapshotIsNewest | deps/chakrashim/core/lib/Runtime/Debug/TTEventLog.cpp:1928-1946 | the result is the restore time of the newest snapshot strictly before the current one |
| EventLog.PruneKeepsHistory | deps/chakrashim/core/lib/Runtime/Debug/TTEventLog.cpp:1767-1798 | with history length N of at least 1: if the log holds at least N snapshots, pruning starts at the N-th most recent snapshot; otherwise nothing is removed; with N = 0 all but the last entry go |
| EventLog.PruneLogLength | deps/chakrashim/core/lib/Runtime/Debug/TTEventLog.cpp:1767-1798 | deleting from the front keeps the block invariant and leaves exactly the entries from the pruning point onward, unchanged and in order |
| JitRegistry.Empty | deps/chakrashim/core/lib/JITServer/JITServer.cpp:699-700 | the manager starts with no registered contexts |
| JitRegistry.RegisterThreadContext | deps/chakrashim/core/lib/JITServer/JITServer.cpp:708-713 | the thread context is added to the thread set and nothing else changes |
| JitRegistry.UnRegisterThreadContext | deps/chakrashim/core/lib/JITServer/JITServer.cpp:714-733 | the thread context leaves the thread set; a registered script context is removed exactly when its thread is this one, and each removed one is closed; the others are untouched |
| JitRegistry.CleanUpForProcess | deps/chakrashim/core/lib/JITServer/JITServer.cpp:734-769 | every script context whose thread belongs to the process handle is closed and removed, then every thread context with that handle; contexts of other processes are unchanged |
| JitRegistry.RegisterScriptContext | deps/chakrashim/core/lib/JITServer/JITServer.cpp:770-775 | the script context is added to the script set and nothing else changes |
| JitRegistry.UnRegisterScriptContext | deps/chakrashim/core/lib/JITServer/JITServer.cpp:776-781 | the script context leaves the script set and nothing else changes |
| JitRegistry.CheckScriptLivenessAndAddref | deps/chakrashim/core/lib/JITServer/JITServer.cpp:782-795 | true exactly when the script context is registered and neither it nor its thread is closed; then both reference counts go up by one; otherwise nothing changes |
| JitRegistry.CheckThreadLivenessAndAddref | deps/chakrashim/core/lib/JITServer/JITServer.cpp:796-809 | true exactly when the thread context is registered and open; then its reference count goes up by one; otherwise nothing changes |
| JitRegistry.UnRegisteredThreadIsDead | deps/chakrashim/core/lib/JITServer/JITServer.cpp:714-733 | after a thread is unregistered, neither it nor any of its script contexts passes the liveness check |
| JitRegistry.CleanedProcessIsDead | deps/chakrashim/core/lib/JITServer/JITServer.cpp:734-769 | after a process is cleaned up, none of its contexts passes the liveness check |
| JitServer.HResultFromWin32Spec | deps/chakrashim/core/lib/JITServer/JITServer.cpp:842-848 | `HResultFromWin32` (HRESULT_FROM_WIN32) gives S_OK only for ERROR_SUCCESS; any other positive code becomes a failure under the Win32 facility that keeps the low 16 bits |
| JitServer.ServerCallWrapper | deps/chakrashim/core/lib/JITServer/JITServer.cpp:810-852 | ContextClosed gives E_ACCESSDENIED, OutOfMemory gives E_OUTOFMEMORY unless the last error converts to a failure, StackOverflow gives VBSERR_OutOfStack, OperationAborted gives E_ABORT, any other exception is fatal, and otherwise the callback's result is returned |
| JitServer.WrapperOkOnlyFromCall | deps/chakrashim/core/lib/JITServer/JITServer.cpp:810-852 | the wrapper reports S_OK exactly when the context is live and the callback returned S_OK |
| JitServer.ServerScriptCallWrapper | deps/chakrashim/core/lib/JITServer/JITServer.cpp:853-865 | a dead script context gives E_ACCESSDENIED; otherwise the thread wrapper decides |
| JitServer.ServerInitializeThreadContext | deps/chakrashim/core/lib/JITServer/JITServer.cpp:153-189 | a null out-parameter gives RPC_S_INVALID_ARG; an allocation failure gives E_OUTOFMEMORY with nothing registered; otherwise the new context is registered and its handle returned |
| JitServer.ServerInitializeScriptContext | deps/chakrashim/core/lib/JITServer/JITServer.cpp:190-220 | a null out-parameter or thread handle gives RPC_S_INVALID_ARG; a dead thread gives E_ACCESSDENIED; running out of memory while creating or registering the context gives E_OUTOFMEMORY (or the recorded Win32 error), leaves the out-parameter null and registers nothing; otherwise the new script context is registered under that thread; S_OK exactly in that last case |
| JitServer.ServerCleanupThreadContext | deps/chakrashim/core/lib/JITServer/JITServer.cpp:221-249 | null arguments give RPC_S_INVALID_ARG; the caller's handle is zeroed before any other work; a dead thread gives E_ACCESSDENIED; otherwise the thread is unregistered |
| JitServer.ServerCloseScriptContext | deps/chakrashim/core/lib/JITServer/JITServer.cpp:368-396 | a null handle gives RPC_S_INVALID_ARG; S_OK exactly when the script context is live and its thread context is registered and open (the wrapper's two guards), E_ACCESSDENIED with nothing changed otherwise; on success only that context is closed and unregistered |
| JitServer.CloseRefusedForUnregisteredThread | deps/chakrashim/core/lib/JITServer/JITServer.cpp:853-866 | a live script context whose thread context is unregistered is refused by the thread guard of the script-context wrapper |
| JitServer.ServerCleanupScriptContext | deps/chakrashim/core/lib/JITServer/JITServer.cpp:339-367 | null arguments give RPC_S_INVALID_ARG; a debug build stops on a script context that is not yet closed, and a release build deletes it anyway; otherwise the caller's handle is zeroed and only that context is deleted; the registry stays consistent exactly when the deleted context was no longer registered |
| JitServer.CloseThenCleanupScript | deps/chakrashim/core/lib/JITServer/JITServer.cpp:339-396 | closing a live script context of a live thread context and then cleaning it up succeeds in either build, keeps the registry consistent and removes the context |
| JitServer.ServerCleanupProcess | deps/chakrashim/core/lib/JITServer/JITServer.cpp:126-134 | always S_OK; the registry afterwards is exactly the process cleanup of it (the process's script and thread contexts closed and unregistered, everything else unchanged), so no registered thread context belongs to the process |
| JitServer.ServerIsNativeAddr | deps/chakrashim/core/lib/JITServer/JITServer.cpp:517-559 | null arguments give RPC_S_INVALID_ARG with a false result; a dead thread gives E_ACCESSDENIED; the result is true for a pre-reserved address; otherwise the other allocator is consulted only when not all code is pre-reserved |
| Jsrt.CheckContext | deps/chakrashim/core/lib/Jsrt/Jsrt.cpp:27-72 | no current context gives JsErrorNoCurrentContext; without runtime verification it gives JsNoError; otherwise it gives the first failing runtime check, in the source's fixed order |
| Jsrt.CheckContextPriority | deps/chakrashim/core/lib/Jsrt/Jsrt.cpp:42-67 | the recorded-exception error is reported only when it is the sole failure; allowing the before-collect callback never turns success into failure |
| Jsrt.CreateRuntime | deps/chakrashim/core/lib/Jsrt/Jsrt.cpp:73-161 | a null runtime handle gives JsErrorNullArgument; any attribute outside the build's allowed mask gives JsErrorInvalidArgument; otherwise the runtime is created |
| Jsrt.DebugBuildAcceptsMore | deps/chakrashim/core/lib/Jsrt/Jsrt.cpp:79-98 | the debug-config build accepts every attribute the release build accepts, plus SerializeLibraryByteCode |
| Jsrt.GetValueType | deps/chakrashim/core/lib/Jsrt/Jsrt.cpp:683-749 | the four number type ids give JsNumber, every array type id gives JsArray (the copy-on-access array only when that feature is on), typed-array ids give JsTypedArray, and everything else gives JsObject |
| Jsrt.KindOfCode | deps/chakrashim/core/lib/Jsrt/Jsrt.cpp:1234-1312 | a JsTypedArrayType code names a kind exactly when it lies in the nine-value range, and that kind encodes back to the code |
| Jsrt.KindCodeRoundTrip | deps/chakrashim/core/lib/Jsrt/Jsrt.cpp:1342-1347 | decoding the code of an array kind gives the kind back |
| Jsrt.GetTypedArrayType | deps/chakrashim/core/lib/Jsrt/Jsrt.cpp:1342-1347 | the type code of a typed array, a constant offset from its type id, decodes to that array's kind |
| Jsrt.ElementSize | deps/chakrashim/core/lib/Jsrt/Jsrt.cpp:1427-1462 | element sizes are 1, 2, 4 or 8 bytes |
| Jsrt.GetTypedArrayStorage | deps/chakrashim/core/lib/Jsrt/Jsrt.cpp:1403-1467 | a non-typed-array gives JsErrorInvalidArgument and no outputs; otherwise each requested output is reported: the array's type code and its element size |
| Jsrt.CreateTypedArray | deps/chakrashim/core/lib/Jsrt/Jsrt.cpp:1234-1312 | argument validation passes, and the typed-array constructor is invoked, exactly when the result is non-null, a nonzero byte offset comes with an ArrayBuffer base, a nonzero length comes with no base or an ArrayBuffer base, and the type is known; the constructor gets 4 arguments with an ArrayBuffer base and 2 otherwise |
| Jsrt.CreateTypedArrayAcceptsEveryKind | deps/chakrashim/core/lib/Jsrt/Jsrt.cpp:1234-1312 | every array kind passes argument validation over a buffer with any offset and length, or with no base from a length alone, and the constructor of that kind is invoked; the constructor's own range checks are not modelled |
| Jsrt.CreateExternalArrayBuffer | deps/chakrashim/core/lib/Jsrt/Jsrt.cpp:1210-1233 | succeeds exactly when the result is non-null and null data comes with length 0 |
| Jsrt.SetIndexedPropertiesToExternalData | deps/chakrashim/core/lib/Jsrt/Jsrt.cpp:1600-1666 | succeeds exactly for an object that may hold external data, non-null data (or length 0) and a known array type; every failure is JsErrorInvalidArgument |
| Jsrt.NullDataRejected | deps/chakrashim/core/lib/Jsrt/Jsrt.cpp:1210-1233 | null data with a positive length is rejected with JsErrorInvalidArgument by both external-data APIs |
| Jsrt.FirstArgFailure | deps/chakrashim/core/lib/Jsrt/Jsrt.cpp:1840-1843 | the argument loop passes exactly when every argument's reference check passes, and otherwise stops at the first failing argument with its code |
| Jsrt.CallFunction | deps/chakrashim/core/lib/Jsrt/Jsrt.cpp:1826-1858 | the result is cleared first whenever present; the call proceeds exactly when the context and function checks pass, the argument count is nonzero, the arguments are non-null and every argument passes its reference check; the first failing argument's code is returned otherwise |
| Jsrt.ConstructObject | deps/chakrashim/core/lib/Jsrt/Jsrt.cpp:1860-1885 | as JsCallFunction, argument reference checks included, but the result must be present and is cleared only after the context and function checks |
| Jsrt.CallAndConstructAgree | deps/chakrashim/core/lib/Jsrt/Jsrt.cpp:1826-1885 | with valid context, function and result, the two APIs accept the same argument lists and reject the others with the same code |
| Jsrt.BadArgumentRejected | deps/chakrashim/core/lib/Jsrt/Jsrt.cpp:1840-1875 | one argument failing its reference check makes both APIs refuse the call with that argument's code, when all before it pass |
| Jsrt.RefCountPrologue | deps/chakrashim/core/lib/Jsrt/Jsrt.cpp:296-394 | a tagged number finishes at once with JsNoError, reporting count 1 when a count is requested; otherwise the count is zeroed first and the object path follows |
| V8String.WriteRaw | deps/chakrashim/src/v8string.cc:100-150 | a zero length, a failed conversion or a start outside the string writes nothing and returns 0; an empty string writes only the terminator; otherwise min(length, remaining) characters are copied from the start, a terminator follows only when there is room and it is not suppressed, and the count includes it and never exceeds the capacity |
| V8String.CopyRaw | deps/chakrashim/src/v8string.cc:142 | the copy loop writes exactly the first `count` units of the source, in order |
| V8String.CString | deps/chakrashim/src/v8string.cc:144-149 | the text of a buffer is its longest prefix without a NUL, which is followed by a NUL or ends the buffer |
| V8String.WriteRawRoundTrip | deps/chakrashim/src/v8string.cc:100-150 | writing a string from `start` with a negative length and reading the buffer back as text gives exactly the suffix from `start` |
| V8String.FitChars | deps/chakrashim/src/v8string.cc:185-195 | the largest whole-character prefix whose UTF-8 bytes fit in the limit |
| V8String.FitsWhole | deps/chakrashim/src/v8string.cc:185-195 | the whole string fits exactly when its UTF-8 byte length is within the limit |
| V8String.WriteUtf8 | deps/chakrashim/src/v8string.cc:165-207 | the character count is reported exactly when asked for and equals the returned count; nothing is written for length 0 or a failed conversion; the bytes written are those of the longest whole-character prefix that fits, with a terminator only when there is room and it is not suppressed |
| V8String.Strlen | deps/chakrashim/src/v8string.cc:219-222 | the index of the first NUL |
| V8String.NewStringBytes | deps/chakrashim/src/v8string.cc:219-222 | a non-negative length takes that many bytes; a negative length takes the bytes before the first NUL |
| V8String.NewFromOneByte | deps/chakrashim/src/v8string.cc:247-258 | every byte becomes one 16-bit code unit of the same value |
| V8String.NarrowWidened | deps/chakrashim/src/v8string.cc:247-258 | narrowing the widened code units gives the original bytes back |
| WasmEnv.Construct | deps/chakrashim/core/lib/Runtime/Library/WebAssemblyEnvironment.cpp:13-37 | construction, for any size including an empty array, succeeds exactly when the globals region lies within the slot array; the five region offsets, the size and the pointer size are kept; the slots start empty and the cells zero |
| WasmEnv.SlotPtrIsValid | deps/chakrashim/core/lib/Runtime/Library/WebAssemblyEnvironment.cpp:40-47 | the pointer check accepts a slot pointer exactly when the slot index is within the array |
| WasmEnv.GetVarElement | deps/chakrashim/core/lib/Runtime/Library/WebAssemblyEnvironment.cpp:49-69 | fails (InternalError) for an index at or past the bound, outside the array, or a filled slot of the wrong class; otherwise gives the slot, empty included |
| WasmEnv.SetVarElement | deps/chakrashim/core/lib/Runtime/Library/WebAssemblyEnvironment.cpp:71-84 | fails for an index past the bound or a value of the wrong class; the debug build also rejects overwriting a filled slot; otherwise only that slot changes |
| WasmEnv.SetThenGet | deps/chakrashim/core/lib/Runtime/Library/WebAssemblyEnvironment.cpp:49-84 | reading a slot just set gives the value; the debug build refuses to set it again |
| WasmEnv.GetWasmFunction | deps/chakrashim/core/lib/Runtime/Library/WebAssemblyEnvironment.cpp:86-94 | fails unless the index type is Function or ImportThunk; otherwise it reads the function slot |
| WasmEnv.SetWasmFunction | deps/chakrashim/core/lib/Runtime/Library/WebAssemblyEnvironment.cpp:96-105 | succeeds exactly when the index type is Function or ImportThunk, the value is a wasm function, the index is below the function count and inside the array, and (debug build only) the slot is empty; on success only that function slot changes |
| WasmEnv.SetImportedFunction | deps/chakrashim/core/lib/Runtime/Library/WebAssemblyEnvironment.cpp:107-110 | succeeds exactly when the value is a JavaScript function, the index is below the wasm function count and inside the array, and (debug build only) the slot is empty; on success only the import slot changes |
| WasmEnv.GetTable | deps/chakrashim/core/lib/Runtime/Library/WebAssemblyEnvironment.cpp:112-115 | only index 0 is accepted, and the table slot is read |
| WasmEnv.SetTable | deps/chakrashim/core/lib/Runtime/Library/WebAssemblyEnvironment.cpp:117-120 | succeeds exactly when the index is 0, the value is a table, the table slot is inside the array and (debug build only) empty; on success only the table slot changes |
| WasmEnv.GetMemory | deps/chakrashim/core/lib/Runtime/Library/WebAssemblyEnvironment.cpp:122-125 | only index 0 is accepted, and the memory slot is read |
| WasmEnv.SetMemory | deps/chakrashim/core/lib/Runtime/Library/WebAssemblyEnvironment.cpp:127-130 | succeeds exactly when the index is 0, the value is a memory, the memory slot is inside the array and (debug build only) empty; on success only the memory slot changes |
| WasmEnv.TableAndMemoryHaveOneSlot | deps/chakrashim/core/lib/Runtime/Library/WebAssemblyEnvironment.cpp:112-130 | every index other than 0 is rejected for tables and memories |
| WasmEnv.GetGlobalValue | deps/chakrashim/core/lib/Runtime/Library/WebAssemblyEnvironment.cpp:132-168 | fails for a null global, an unknown type or an address outside the array; otherwise gives the cell's value (zero when never written) |
| WasmEnv.SetGlobalValue | deps/chakrashim/core/lib/Runtime/Library/WebAssemblyEnvironment.cpp:140-187 | succeeds only where reading would, and then only that cell changes; the debug build requires the cell still zero |
| WasmEnv.SetGlobalThenGet | deps/chakrashim/core/lib/Runtime/Library/WebAssemblyEnvironment.cpp:132-187 | a global reads back the value just set; once set to a nonzero value, the debug build refuses to set it again |
| JsrtUtils.UintToValue | deps/chakrashim/src/jsrtutils.cc:26-33 | the integer path is taken exactly for values up to INT_MAX and the double path otherwise, each with the unchanged value |
| JsrtUtils.CreatePropertyDescriptor | deps/chakrashim/src/jsrtutils.cc:573-663 | a creation error is passed on; otherwise it succeeds exactly when every field that is present is set without error, and then the descriptor holds exactly the present fields; a failure names the error of a field that was present |
| JsrtUtils.FirstFailureWins | deps/chakrashim/src/jsrtutils.cc:573-663 | the error returned is that of the first failing field, in the order writable, enumerable, configurable, value, getter, setter |
| JsrtUtils.CreatePropertyDescriptorFromAttributes | deps/chakrashim/src/jsrtutils.cc:665-678 | writable, enumerable and configurable are the negations of ReadOnly, DontEnum and DontDelete; the value is set when given; getter and setter never are |
| JsrtUtils.AttributesRoundTrip | deps/chakrashim/src/jsrtutils.cc:665-678 | the attributes are recovered from the descriptor built from them |
| JsrtUtils.DefineProperty | deps/chakrashim/src/jsrtutils.cc:680-725 | a descriptor error is passed on; a JSRT error is passed on; a call that reports no error but a false result becomes JsErrorInvalidArgument |
| JsrtUtils.GetPropertyIdFromName | deps/chakrashim/src/jsrtutils.cc:727-747 | a string is looked up by name; a string-conversion InvalidArgument falls back to the symbol lookup, whose PropertyNotSymbol becomes InvalidArgument; other errors pass through |
| JsrtUtils.GetPropertyIdFromValue | deps/chakrashim/src/jsrtutils.cc:727-764 | a string that names a property is never converted; a symbol keeps its own id; other conversion errors pass on; a value refused as a name is converted to a string and that string's name decides, or the conversion's error is returned; JsErrorInvalidArgument comes back only for a value refused before conversion |
| JsrtUtils.NonNameValueUsesItsString | deps/chakrashim/src/jsrtutils.cc:749-764 | a value that is neither a string nor a symbol is looked up by its string form |
| JsrtUtils.ScanOutcome | deps/chakrashim/src/jsrtutils.cc:284-325 | the scan answers false exactly when every element is fetched and compares unequal, and true exactly when some element matches after only unequal ones |
| JsrtUtils.IsValueInArray | deps/chakrashim/src/jsrtutils.cc:284-325 | a failed fetch of the array is passed on; otherwise the result is the first decision met from the front: the first fetch or comparison error, or true at the first match, or false |
| JsrtUtils.CaseInsensitiveEqual | deps/chakrashim/src/jsrtutils.cc:333-378 | the corrected comparator of the Findings row: two values are equal exactly when both are strings with the same bytes over their whole length after C-locale lower-casing |
| JsrtUtils.SameFolded | deps/chakrashim/src/jsrtutils.cc:373-374 | the corrected whole-length byte comparison of the Findings row agrees with comparing the lower-cased strings |
| JsrtUtils.StrnicmpEqual | deps/chakrashim/src/jsrtutils.cc:373-374 | strnicmp over n bytes of a string free of NUL bytes reports equality exactly when the first n bytes agree after lower-casing |
| JsrtUtils.CaseInsensitiveEqualAsWritten | deps/chakrashim/src/jsrtutils.cc:333-378 | the comparator as written: only two strings can be equal, and (for a sought string free of NUL bytes) they are exactly when they agree ignoring case over the length of the shorter |
| JsrtUtils.IsCaseInsensitiveStringValueInArray | deps/chakrashim/src/jsrtutils.cc:333-378 | with the whole-length comparator, the result is the scan outcome; it is true exactly when some string element before the first fetch error equals the value ignoring case, and false exactly when every element was fetched and none does; a true answer needs a string value |
| JsrtUtils.FoldedScanMeaning | deps/chakrashim/src/jsrtutils.cc:333-378 | with a comparator that never fails, true means a match before any fetch error, false means every element fetched and none matching, and an error is the first fetch error before any match |
| JsrtUtils.CorrectedRejectsPrefix | deps/chakrashim/src/jsrtutils.cc:373-374 | with the whole-length comparator, "abc" is not found in ["ab"] while "AB" is |
| JsrtUtils.AsWrittenMatchesPrefix | deps/chakrashim/src/jsrtutils.cc:373-374 | the comparator as written treats a string and any prefix of it as equal, in either order |
| JsrtUtils.AsWrittenFindsPrefix | deps/chakrashim/src/jsrtutils.cc:333-378 | as written, searching ["ab"] for "abc" answers true |
| JsrtUtils.GetExternalData | deps/chakrashim/src/jsrtutils.cc:490-508 | a property error is passed on; an InvalidArgument from JsGetExternalData becomes "no data" with no error; other results pass through |
| ChHost.HexRoundTrip | deps/chakrashim/core/bin/ch/ch.cpp:152 | a number below 16^width, printed as `width` upper-case hex digits, parses back to itself |
| ChHost.ByteText | deps/chakrashim/core/bin/ch/ch.cpp:148-155 | each byte is exactly five characters: " 0x" and two hex digits |
| ChHost.OffsetLine | deps/chakrashim/core/bin/ch/ch.cpp:164-171 | the offset marker is 16 characters starting with CR |
| ChHost.OffsetNamesNextByte | deps/chakrashim/core/bin/ch/ch.cpp:164-171 | after the byte ending a row of 16, the marker that follows names the offset of the next byte |
| ChHost.Separator | deps/chakrashim/core/bin/ch/ch.cpp:156-171 | nothing follows the last byte; every other byte is followed by a comma, and by the offset marker too when it ends a row of 16 |
| ChHost.DecodeDumpFrom | deps/chakrashim/core/bin/ch/ch.cpp:148-172 | reading the dumped text back gives exactly the bytes dumped |
| ChHost.HexDump | deps/chakrashim/core/bin/ch/ch.cpp:148-172 | the loop emits the byte dump, and the dump decodes to the input bytes |
| ChHost.EndifText | deps/chakrashim/core/bin/ch/ch.cpp:131-139 | after the source text, "#endif" always starts a fresh line; a CR LF is added exactly when the text does not already end with one |
| ChHost.HeaderText | deps/chakrashim/core/bin/ch/ch.cpp:121-177 | the header embeds the source text verbatim after the banner, and the array body between the declaration and the trailer decodes to the bytecode |
| ChHost.GetSerializedBuffer | deps/chakrashim/core/bin/ch/ch.cpp:66-103 | as written: fails exactly when the first call reports size 0; a failing first call gives success with a null buffer and size 0; with a nonzero size the buffer has that size, starts with the bytes the second call wrote, and is left unfilled when the second call fails |
| ChHost.GetSerializedBufferChecked | deps/chakrashim/core/bin/ch/ch.cpp:66-103 | as intended: succeeds exactly when both calls succeed and the size is nonzero; on failure there is no buffer and size 0; on success the buffer holds the serialized bytes |
| ChHost.CreateLibraryByteCodeHeader | deps/chakrashim/core/bin/ch/ch.cpp:105-112 | as written: no header exactly when the first call reports size 0; after a failing first call the header is written with an empty array; after a failing second call, from the unfilled buffer; otherwise from the serialized bytes |
| ChHost.CreateLibraryByteCodeHeaderChecked | deps/chakrashim/core/bin/ch/ch.cpp:105-112 | built on the corrected buffer: a header exactly when both calls succeed with a nonzero size, holding those bytes |
| ChHost.SerializerErrorStillSucceeds | deps/chakrashim/core/bin/ch/ch.cpp:68-84 | a serializer error on either call reaches the caller as success, and a header is still written; the corrected definitions report failure and write none |
| ChHost.LowerPath | deps/chakrashim/core/bin/ch/ch.cpp:375-379 | every byte of the path is lower-cased: capitals move down by 32, every other byte is kept, and no capital remains |
| ChHost.LowerPathIdentifiesCase | deps/chakrashim/core/bin/ch/ch.cpp:375-379 | two paths lower-case to the same text exactly when they agree byte by byte ignoring ASCII case |
| ChHost.FoldIdempotent | deps/chakrashim/core/bin/ch/ch.cpp:375-379 | lower-casing an already lower-cased path changes nothing |
| WScript.ConvertErrorCodeToMessage | deps/chakrashim/core/bin/ch/WScriptJsrt.h:34-58 | a message exists exactly for the eight handled codes, and it is non-empty and names its code; the three argument errors, and only they, produce a "TypeError: " message |
| WScript.MessagesDistinct | deps/chakrashim/core/bin/ch/WScriptJsrt.h:36-53 | distinct handled codes give distinct messages |
| WScript.MessageNamesItsCode | deps/chakrashim/core/bin/ch/WScriptJsrt.h:36-53 | every message in the table is produced by the code it names |

## Left out

- RPC and OS plumbing of the JIT server: `JsInitializeJITServer`, shutdown, rundown callbacks, `ServerNewInterpreterThunkBlock`'s section mapping, `Func::Codegen`, timing. The registry lock only serialises operations, so each registry operation is one atomic transition.
- The AutoRelease guards: their bodies are not part of this model. They are taken as "check liveness and add a reference, then release at exit", which leaves the reference counts unchanged.
- The reference count of a new server thread context is taken as 1. Its constructor is not part of this model.
- `ServerThreadContext.h`, `CodexAssert.cpp` and `JsrtContextCore.cpp`: declarations and trivial hooks, not modelled.
- The TTD engine hooks: snapshot extraction and inflation, the replay execute functions, log emit/parse stream I/O, and the `Record*` payload copies. Events are abstract: snapshots with a restore time, top-level calls with a time and an optional snapshot, and others.
- The numeric values of the `TTDMode` bits are not part of this model. The computed mode is a set of modes, the OR of distinct single bits. The excluded-execution mask is the two `ExcludedExecution*` modes.
- `TTD_EVENTLOG_LIST_BLOCK_SIZE` is not part of this model. The block capacity is a parameter.
- `IsTimeForSnapshot` and other wall-clock and floating-point timing.
- The F32/F64 WebAssembly globals are integer cells holding bit patterns. Their floating-point values are not modelled.
- WasmEnv.Construct: slots and global cells are separate stores. In the source they share one memory block, so a global's bytes can alias a slot; this aliasing is not modelled.
- The numeric values of `JsRuntimeAttributes` are not part of this model. Attributes are a set of named flags.
- Thin JSRT wrappers in Jsrt.cpp (property ops, run/parse/serialize, GC, memory limits) and the number conversions.
- The JSRT parameter-validation macros and `ContextAPIWrapper` are not part of this model. Their outcomes are given as error codes: the context check, the function check, and in JsCallFunction and JsConstructObject one reference check per argument.
- `JsAddRef`/`JsRelease` on objects: only the tagged-number prologue is modelled, because the recycler's pin counting is not part of this model.
- V8String.WriteUtf8: the UTF-8 conversion (`utf8::NarrowToWide`, `ByteIndexIntoCharacterIndex`) is abstract. A string is a sequence of characters with their UTF-8 byte lengths, and cutting back on overflow is "the largest whole-character prefix".
- `WriteOneByte` narrowing and `CopyRaw`'s raw memory copy are not modelled separately. Characters are unbounded numbers.
- `jsrtutils.cc`'s thin `GetProperty`/`SetProperty` wrappers, `Fatal`, the IdleGC timer and libuv code.
- The JSRT calls inside jsrtutils are oracles (parameters): property sets, array element fetches, comparisons, string conversion and external data.
- `ch.cpp` file I/O: `CreateFile` and `WriteFile` failures, threads and `main`. CreateLibraryByteCodeHeader produces the text that would be written, or nothing when GetSerializedBuffer reports a failure.
- ChHost.GetSerializedBuffer: the debug `Assert` that the second call reports the same size is not modelled as a failure. A second reply of a different length is cut to the first size, or the rest of the buffer keeps its previous contents.
- ChHost.GetSerializedBuffer: a failing first call is taken to leave the reported size at its initial 0. The serializer's behaviour on failure is not part of this model.
- CallShadow.PushCallEvent: the breakpoint probe that break-on-first-user-code finds or creates in the debug document, and whether it must be removed afterwards, are not modelled. Only the active breakpoint's source position is. The first statement's position is an input.
- The case-insensitive comparator's own JSRT errors (from `JsGetValueType` and `JsStringToPointerUtf8`) are not modelled; the comparator never fails.
- ChHost.HexRoundTrip: the offset marker's `%08X` is proved to round-trip only for offsets below 2^32, the range of the source's `unsigned int` counter.
- CallShadow.PopCallEvent, CallShadow.PopCallEventException and CallShadow.UpdateLoopCountInfo: the source reads the top of the call stack without checking that it is non-empty; the models require a non-empty stack, so popping or counting on an empty stack (undefined behaviour in the source) is excluded.
- `ConvertErrorCodeToMessage`'s debug assertion on an unknown code: the model returns no message, as the release build does.
- JitServer entry points: the debug `Assert(false)` that precedes each RPC_S_INVALID_ARG return for a null handle (JITServer.cpp lines 161, 198, 227, 233, 345, 353 and 376) is not modelled; the release build's RPC_S_INVALID_ARG is.
- Jsrt.CreateRuntime: the debug `Assert` on an unknown attribute bit (Jsrt.cpp line 94) is not modelled; the release build's JsErrorInvalidArgument is.
- Jsrt.GetTypedArrayStorage: the debug `AssertMsg` on an invalid typed-array type (Jsrt.cpp line 1459) is not modelled; the release build's element size 1 with JsErrorFatal is.
- WasmEnv.Construct: the debug asserts that the array is non-empty (WebAssemblyEnvironment.cpp line 20), that the globals region comes after the other four regions (line 29), and that the array has fewer than 16 slots beyond the globals (line 36) are not modelled. The release build checks only that the globals region ends within the array, and so does the model.

## Findings

| source | as written | input that shows it | evidently intended | confidence | as-written member | corrected member |
|---|---|---|---|---|---|---|
| deps/chakrashim/core/bin/ch/ch.cpp:68-84 | `hr` starts as S_OK and no statement on the two serializer-error paths assigns it: `IfJsErrorFailLog` (defined in the host's `stdafx.h`, which is not part of this model) logs and jumps to the exit, so a serializer error is returned as S_OK, unlike `CreateRuntime`, which sets E_FAIL first | a serializer whose first call fails: GetSerializedBuffer returns S_OK with a null buffer, and CreateLibraryByteCodeHeader writes a header with an empty bytecode array | a serializer error makes GetSerializedBuffer fail, and no header is written | not executed | ChHost.SerializerErrorStillSucceeds | ChHost.GetSerializedBufferChecked |
| deps/chakrashim/src/jsrtutils.cc:373-374 | the case-insensitive comparator compares only the first min(len1, len2) bytes, so a string equals each of its prefixes | searching ["ab"] for "abc" answers true | two strings are equal exactly when they have the same length and are equal ignoring ASCII case | not executed | JsrtUtils.AsWrittenFindsPrefix | JsrtUtils.IsCaseInsensitiveStringValueInArray |

=== FILE: ascii.dfy ===
/** Bytes and the C library's ASCII case mapping, shared by the shim and the host. */
module Ascii {

  type byte = x: int | 0 <= x < 0x100

  predicate IsUpper(b: byte) { 'A' as int <= b <= 'Z' as int }

  /** tolower in the "C" locale: only the 26 ASCII capitals change. */
  function Lower(b: byte): (l: byte)
    ensures IsUpper(b) ==> l == b + 32
    ensures !IsUpper(b) ==> l == b
  {
    if IsUpper(b) then b + 32 else b
  }

  /** A byte string lower-cased byte by byte. */
  function Fold(s: seq<byte>): (f: seq<byte>)
    ensures |f| == |s| && forall i :: 0 <= i < |s| ==> f[i] == Lower(s[i])
  {
    seq(|s|, i requires 0 <= i < |s| => Lower(s[i]))
  }
}

=== FILE: call_shadow.dfy ===
/**
  The call-stack shadow EventLog keeps while code runs under time travel
  (TTEventLog.cpp): one SingleCallCounter per active call, the running
  function-time counter, and the location of the last return or exception
  (TTLastReturnLocationInfo). The debugger uses these counters to name a
  position in the execution and to decide whether a breakpoint is hit.

  Function bodies are opaque identifiers, 0 standing for a null body; the
  statement map of a body and its source positions are inputs.
 */
module CallShadow {
  import opened Wrappers
  import ModeStack

  /** 2^64: the function and loop counters are uint64. */
  const U64: nat := 0x1_0000_0000_0000_0000
  const UINT32_MAX: nat := 0xFFFF_FFFF

  function Inc64(x: nat): nat
  {
    (x + 1) % U64
  }

  /** SingleCallCounter. */
  datatype Frame = Frame(
    body: nat,
    eventTime: int,
    functionTime: nat,
    loopTime: nat,
    currentStatementIndex: int,
    currentStatementLoopTime: nat,
    lastStatementIndex: int,
    lastStatementLoopTime: nat,
    bytecodeMin: nat,
    bytecodeMax: nat)

  /** `{ 0 }`: every field zero, the body null. */
  const ZeroFrame := Frame(0, 0, 0, 0, 0, 0, 0, 0, 0, 0)

  /* ---------------- TTLastReturnLocationInfo ---------------- */

  datatype ReturnLocation = ReturnLocation(isExceptionFrame: bool, lastFrame: Frame)

  const NoLocation := ReturnLocation(false, ZeroFrame)

  predicate IsDefined(l: ReturnLocation) { l.lastFrame.body != 0 }

  predicate IsReturnLocation(l: ReturnLocation) { IsDefined(l) && !l.isExceptionFrame }

  predicate IsExceptionLocation(l: ReturnLocation) { IsDefined(l) && l.isExceptionFrame }

  /** GetLocation: only defined locations may be read. */
  function GetLocation(l: ReturnLocation): (r: Option<Frame>)
    ensures r.Some? <==> IsDefined(l)
    ensures r.Some? ==> r.value.body != 0 && r.value == l.lastFrame
  {
    if IsDefined(l) then Some(l.lastFrame) else None
  }

  function SetReturnLocation(f: Frame): (r: ReturnLocation)
    ensures f.body != 0 ==> IsReturnLocation(r) && GetLocation(r) == Some(f)
  {
    ReturnLocation(false, f)
  }

  function SetExceptionLocation(f: Frame): (r: ReturnLocation)
    ensures f.body != 0 ==> IsExceptionLocation(r) && GetLocation(r) == Some(f)
  {
    ReturnLocation(true, f)
  }

  /** Clear resets a defined location to the zero state and leaves an undefined one alone. */
  function Clear(l: ReturnLocation): (r: ReturnLocation)
    ensures !IsDefined(r)
    ensures IsDefined(l) ==> r == NoLocation
    ensures !IsDefined(l) ==> r == l
  {
    if IsDefined(l) then NoLocation else l
  }

  /** ClearReturnOnly forgets a return location but never an exception location. */
  function ClearReturnOnly(l: ReturnLocation): (r: ReturnLocation)
    ensures !IsReturnLocation(r)
    ensures IsExceptionLocation(l) ==> r == l
    ensures IsReturnLocation(l) ==> r == NoLocation
  {
    if IsDefined(l) && !l.isExceptionFrame then Clear(l) else l
  }

  /** ClearExceptionOnly forgets an exception location but never a return location. */
  function ClearExceptionOnly(l: ReturnLocation): (r: ReturnLocation)
    ensures !IsExceptionLocation(r)
    ensures IsReturnLocation(l) ==> r == l
    ensures IsExceptionLocation(l) ==> r == NoLocation
  {
    if IsDefined(l) && l.isExceptionFrame then Clear(l) else l
  }

  /* ---------------- The call stack ---------------- */

  datatype Shadow = Shadow(
    callStack: seq<Frame>,
    runningFunctionTime: nat,
    eventTime: int,
    topLevelCallbackEventTime: int,
    hostCallbackId: int,
    lastReturn: ReturnLocation,
    breakOnFirstUserCode: bool,
    activeBP: Option<BreakpointTarget>)

  datatype ShadowFault = EmptyCallStack | CallStackNotEmpty | NoStatementMapping

  /** The frame a call starts with: no current or last statement and zero loop time. */
  function EntryFrame(body: nat, eventTime: int, functionTime: nat): Frame
  {
    Frame(body, eventTime, functionTime, 0, -1, 0, -1, 0, UINT32_MAX, UINT32_MAX)
  }

  /**
    The first statement of a called body as the debugger sees it: its source
    line and signed column, or None when the body has no debug document or
    its line-offset cache cannot be built.
   */
  type FirstStatement = Option<(nat, int)>

  /**
    PushCallEvent: a pending return location is forgotten (an exception one is
    kept), the function-time counter advances and a fresh frame stamped with it
    is pushed. A pending break-on-first-user-code request is consumed; when the
    callee's first statement has a source position, it becomes the active
    breakpoint (line and column kept as uint32), pinned to no event, function
    or loop time.
   */
  function PushCallEvent(s: Shadow, body: nat, first: FirstStatement): (r: Shadow)
    requires body != 0
    ensures |r.callStack| == |s.callStack| + 1 && r.callStack[..|s.callStack|] == s.callStack
    ensures var f := r.callStack[|s.callStack|];
            && f.body == body && f.functionTime == r.runningFunctionTime
            && f.currentStatementIndex == -1 && f.lastStatementIndex == -1 && f.loopTime == 0
    ensures r.runningFunctionTime == Inc64(s.runningFunctionTime)
    ensures !IsReturnLocation(r.lastReturn)
    ensures IsExceptionLocation(s.lastReturn) ==> r.lastReturn == s.lastReturn
    ensures !r.breakOnFirstUserCode
    ensures s.breakOnFirstUserCode && first.Some? ==>
              r.activeBP == Some(BreakpointTarget(first.value.0 % 0x1_0000_0000, first.value.1 % 0x1_0000_0000, -1, -1))
    ensures !(s.breakOnFirstUserCode && first.Some?) ==> r.activeBP == s.activeBP
  {
    var ctr := Inc64(s.runningFunctionTime);
    var bp := if s.breakOnFirstUserCode && first.Some?
              then Some(BreakpointTarget(first.value.0 % 0x1_0000_0000, first.value.1 % 0x1_0000_0000, -1, -1))
              else s.activeBP;
    s.(callStack := s.callStack + [EntryFrame(body, s.eventTime, ctr)],
       runningFunctionTime := ctr,
       lastReturn := ClearReturnOnly(s.lastReturn),
       breakOnFirstUserCode := false,
       activeBP := bp)
  }

  /** PopCallEvent: the popped frame becomes the return location. */
  function PopCallEvent(s: Shadow): (r: Shadow)
    requires |s.callStack| > 0
    ensures r.callStack == s.callStack[..|s.callStack| - 1]
    ensures r.runningFunctionTime == Inc64(s.runningFunctionTime)
    ensures r.lastReturn == SetReturnLocation(s.callStack[|s.callStack| - 1])
  {
    var n := |s.callStack|;
    s.(callStack := s.callStack[..n - 1],
       runningFunctionTime := Inc64(s.runningFunctionTime),
       lastReturn := SetReturnLocation(s.callStack[n - 1]))
  }

  /**
    PopCallEventException: the frame that raised the exception is recorded
    once; frames the exception merely propagates through leave it alone.
   */
  function PopCallEventException(s: Shadow): (r: Shadow)
    requires |s.callStack| > 0
    ensures r.callStack == s.callStack[..|s.callStack| - 1]
    ensures r.runningFunctionTime == Inc64(s.runningFunctionTime)
    ensures IsExceptionLocation(s.lastReturn) ==> r.lastReturn == s.lastReturn
    ensures !IsExceptionLocation(s.lastReturn) ==>
              r.lastReturn == SetExceptionLocation(s.callStack[|s.callStack| - 1])
  {
    var n := |s.callStack|;
    var loc := if IsExceptionLocation(s.lastReturn) then s.lastReturn
               else SetExceptionLocation(s.callStack[n - 1]);
    s.(callStack := s.callStack[..n - 1],
       runningFunctionTime := Inc64(s.runningFunctionTime),
       lastReturn := loc)
  }

  /** ClearExceptionFrames. */
  function ClearExceptionFrames(s: Shadow): (r: Shadow)
    ensures !IsDefined(r.lastReturn)
    ensures r.callStack == s.callStack && r.runningFunctionTime == s.runningFunctionTime
  {
    s.(lastReturn := Clear(s.lastReturn))
  }

  /** A call followed by its normal return: the stack is restored and the callee is the return location. */
  lemma PushThenPop(s: Shadow, body: nat, first: FirstStatement)
    requires body != 0
    ensures var r := PopCallEvent(PushCallEvent(s, body, first));
            && r.callStack == s.callStack
            && r.runningFunctionTime == Inc64(Inc64(s.runningFunctionTime))
            && IsReturnLocation(r.lastReturn)
            && r.lastReturn.lastFrame == EntryFrame(body, s.eventTime, Inc64(s.runningFunctionTime))
  {
    var t := PushCallEvent(s, body, first);
    assert t.callStack[..|t.callStack| - 1] == s.callStack;
  }

  /**
    An exception unwinding through two frames keeps the location of the frame
    that raised it, the inner one.
   */
  lemma ExceptionKeepsRaisingFrame(s: Shadow)
    requires |s.callStack| >= 2 && !IsExceptionLocation(s.lastReturn)
    requires s.callStack[|s.callStack| - 1].body != 0
    ensures PopCallEventException(PopCallEventException(s)).lastReturn
            == SetExceptionLocation(s.callStack[|s.callStack| - 1])
  {
  }

  /** UpdateLoopCountInfo: one more loop iteration in the innermost call. */
  function UpdateLoopCountInfo(s: Shadow): (r: Shadow)
    requires |s.callStack| > 0
    ensures |r.callStack| == |s.callStack|
    ensures r.callStack[..|s.callStack| - 1] == s.callStack[..|s.callStack| - 1]
    ensures var f := s.callStack[|s.callStack| - 1];
            r.callStack[|s.callStack| - 1] == f.(loopTime := Inc64(f.loopTime))
  {
    var n := |s.callStack|;
    var f := s.callStack[n - 1];
    s.(callStack := s.callStack[n - 1 := f.(loopTime := Inc64(f.loopTime))])
  }

  /** GetTopCallCounter. */
  function GetTopCallCounter(s: Shadow): (r: Result<Frame, ShadowFault>)
    ensures r.Ok? <==> |s.callStack| > 0
    ensures r.Ok? ==> r.value == s.callStack[|s.callStack| - 1]
  {
    if |s.callStack| == 0 then Err(EmptyCallStack) else Ok(s.callStack[|s.callStack| - 1])
  }

  /** TryGetTopCallCallerCounter: the caller of the innermost call, if there is one. */
  function TryGetTopCallCallerCounter(s: Shadow): (r: Option<Frame>)
    ensures r.Some? <==> |s.callStack| >= 2
    ensures r.Some? ==> r.value == s.callStack[|s.callStack| - 2]
  {
    if |s.callStack| < 2 then None else Some(s.callStack[|s.callStack| - 2])
  }

  /** A statement's bytecode span from the function body's statement map. */
  datatype Span = Span(begin: nat, end: nat)

  /** The innermost call's frame. */
  function Top(s: Shadow): Frame
    requires |s.callStack| > 0
  {
    s.callStack[|s.callStack| - 1]
  }

  /** The offset lies in the bytecode span of the frame's current statement. */
  predicate InCurrentSpan(f: Frame, offset: nat)
  {
    f.bytecodeMin <= offset <= f.bytecodeMax
  }

  /** The frame once statement `index`, spanning `span`, is entered. */
  function Enter(f: Frame, index: int, span: Span): Frame
  {
    f.(lastStatementIndex := f.currentStatementIndex,
       lastStatementLoopTime := f.currentStatementLoopTime,
       currentStatementIndex := index,
       currentStatementLoopTime := f.loopTime,
       bytecodeMin := span.begin,
       bytecodeMax := span.end)
  }

  /**
    The offset leaves the current statement's span for another statement of
    the body whose span holds it.
   */
  predicate EntersStatement(f: Frame, offset: nat, enclosing: int, statements: seq<Span>)
    requires -1 <= enclosing < |statements|
  {
    && !InCurrentSpan(f, offset) && enclosing != -1 && enclosing != f.currentStatementIndex
    && statements[enclosing].begin <= offset <= statements[enclosing].end
  }

  /**
    UpdateCurrentStatementInfo. An offset inside the current statement's span
    changes nothing. Otherwise `enclosing` is the statement index the body
    maps the offset to (-1 for none, which is fatal); when it names another
    statement whose span holds the offset, the current statement becomes the
    last one and the new one is entered at the current loop time. Any other
    offset changes nothing either.
   */
  function UpdateCurrentStatementInfo(s: Shadow, offset: nat, enclosing: int, statements: seq<Span>)
    : (r: Result<Shadow, ShadowFault>)
    requires -1 <= enclosing < |statements|
    ensures |s.callStack| == 0 ==> r == Err(EmptyCallStack)
    ensures r == Err(NoStatementMapping) <==>
              |s.callStack| > 0 && !InCurrentSpan(Top(s), offset) && enclosing == -1
    ensures |s.callStack| > 0 && InCurrentSpan(Top(s), offset) ==> r == Ok(s)
    ensures |s.callStack| > 0 && EntersStatement(Top(s), offset, enclosing, statements) ==>
              r == Ok(s.(callStack := s.callStack[|s.callStack| - 1 := Enter(Top(s), enclosing, statements[enclosing])]))
    ensures r.Ok? ==> (r.value != s <==> EntersStatement(Top(s), offset, enclosing, statements))
    ensures r.Ok? ==> |r.value.callStack| == |s.callStack| > 0
    ensures r.Ok? ==> r.value.(callStack := s.callStack) == s
    ensures r.Ok? ==> r.value.callStack[..|s.callStack| - 1] == s.callStack[..|s.callStack| - 1]
  {
    if |s.callStack| == 0 then Err(EmptyCallStack)
    else
      var n := |s.callStack|;
      var f := s.callStack[n - 1];
      if f.bytecodeMin <= offset <= f.bytecodeMax then Ok(s)
      else if enclosing == -1 then Err(NoStatementMapping)
      else
        var span := statements[enclosing];
        var newStatement := enclosing != f.currentStatementIndex && span.begin <= offset <= span.end;
        if !newStatement then Ok(s)
        else
          var g := f.(lastStatementIndex := f.currentStatementIndex,
                      lastStatementLoopTime := f.currentStatementLoopTime,
                      currentStatementIndex := enclosing,
                      currentStatementLoopTime := f.loopTime,
                      bytecodeMin := span.begin,
                      bytecodeMax := span.end);
          assert g.currentStatementIndex != f.currentStatementIndex;
          Ok(s.(callStack := s.callStack[n - 1 := g]))
  }

  /**
    Entering a statement remembers the one left behind, and repeating the
    update for the same offset changes nothing more.
   */
  lemma StatementUpdateIdempotent(s: Shadow, offset: nat, enclosing: int, statements: seq<Span>)
    requires -1 <= enclosing < |statements|
    requires UpdateCurrentStatementInfo(s, offset, enclosing, statements).Ok?
    ensures var r := UpdateCurrentStatementInfo(s, offset, enclosing, statements).value;
            UpdateCurrentStatementInfo(r, offset, enclosing, statements) == Ok(r)
  {
  }

  lemma StatementUpdateEnters(s: Shadow, offset: nat, enclosing: int, statements: seq<Span>)
    requires -1 <= enclosing < |statements|
    requires UpdateCurrentStatementInfo(s, offset, enclosing, statements).Ok?
    ensures var r := UpdateCurrentStatementInfo(s, offset, enclosing, statements).value;
            var f := s.callStack[|s.callStack| - 1];
            var g := r.callStack[|s.callStack| - 1];
            g != f ==>
              && g.currentStatementIndex == enclosing && g.lastStatementIndex == f.currentStatementIndex
              && g.currentStatementLoopTime == f.loopTime
              && g.bytecodeMin <= offset <= g.bytecodeMax
  {
  }

  /**
    ResetCallStackForTopLevelCall: only at the top level (no active call) the
    counters restart for a new top-level callback.
   */
  function ResetCallStackForTopLevelCall(s: Shadow, topLevelCallbackEventTime: int): (r: Result<Shadow, ShadowFault>)
    ensures r.Ok? <==> |s.callStack| == 0
    ensures r.Ok? ==> && r.value.runningFunctionTime == 0
                      && r.value.topLevelCallbackEventTime == topLevelCallbackEventTime
                      && r.value.hostCallbackId == -1
                      && !IsDefined(r.value.lastReturn)
                      && r.value.callStack == [] && r.value.eventTime == s.eventTime
  {
    if |s.callStack| != 0 then Err(CallStackNotEmpty)
    else
      Ok(s.(runningFunctionTime := 0,
            topLevelCallbackEventTime := topLevelCallbackEventTime,
            hostCallbackId := -1,
            lastReturn := Clear(s.lastReturn)))
  }

  /**
    The position GetPreviousTimeAndPositionForDebugger reports: the top-level
    callback's event time, then the body, statement, function time and loop
    time of the statement.
   */
  datatype Position = Position(eventTime: int, body: nat, statementIndex: int, functionTime: nat, loopTime: nat)

  /** A frame's current statement, as a position. */
  function CurrentPosition(s: Shadow, f: Frame): Position
  {
    Position(s.topLevelCallbackEventTime, f.body, f.currentStatementIndex, f.functionTime, f.currentStatementLoopTime)
  }

  /** A frame's last statement, as a position. */
  function LastPosition(s: Shadow, f: Frame): Position
  {
    Position(s.topLevelCallbackEventTime, f.body, f.lastStatementIndex, f.functionTime, f.lastStatementLoopTime)
  }

  /**
    GetPreviousTimeAndPositionForDebugger: the previous statement of the
    innermost call; at a call's first statement, the caller's current
    statement; at the first statement of the top-level call there is no
    previous one and the current statement is reported (first component true).
   */
  function GetPreviousTimeAndPositionForDebugger(s: Shadow): (r: Result<(bool, Position), ShadowFault>)
    ensures r.Ok? <==> |s.callStack| > 0
    ensures r.Ok? ==> (r.value.0 <==> |s.callStack| == 1 && s.callStack[0].lastStatementIndex == -1)
    ensures r.Ok? ==> r.value.1.eventTime == s.topLevelCallbackEventTime
    ensures r.Ok? && Top(s).lastStatementIndex != -1 ==> r.value.1 == LastPosition(s, Top(s))
    ensures r.Ok? && Top(s).lastStatementIndex == -1 && |s.callStack| >= 2 ==>
              r.value.1 == CurrentPosition(s, s.callStack[|s.callStack| - 2])
    ensures r.Ok? && r.value.0 ==> r.value.1 == CurrentPosition(s, s.callStack[0])
  {
    var top := GetTopCallCounter(s);
    if top.Err? then Err(top.error)
    else
      var f := top.value;
      if f.lastStatementIndex == -1 then
        var caller := TryGetTopCallCallerCounter(s);
        if caller.None? then Ok((true, CurrentPosition(s, f)))
        else Ok((false, CurrentPosition(s, caller.value)))
      else
        Ok((false, LastPosition(s, f)))
  }

  /* ---------------- Breakpoint pre-check ---------------- */

  /**
    The active time-travel breakpoint: a source position plus an optional
    function time and loop time (-1 meaning any).
   */
  datatype BreakpointTarget = BreakpointTarget(line: nat, column: nat, functionTime: int, loopTime: int)

  /** The decision of ProcessBPInfoPreBreak and whether the visit is logged for a reverse scan. */
  datatype PreBreak = PreBreak(shouldBreak: bool, logVisit: bool)

  /** `(uint64)t == counter` for a signed 64-bit time `t`. */
  predicate TimeMatches(t: int, counter: nat)
  {
    t == -1 || t % U64 == counter
  }

  /**
    The active breakpoint is satisfied in frame `f` at source position
    (`srcLine`, `srcColumn`): line and column agree as uint32, and each pinned
    time equals the frame's counter.
   */
  predicate Satisfies(bp: BreakpointTarget, f: Frame, srcLine: nat, srcColumn: int)
  {
    && srcLine % 0x1_0000_0000 == bp.line && srcColumn % 0x1_0000_0000 == bp.column
    && TimeMatches(bp.functionTime, f.functionTime)
    && TimeMatches(bp.loopTime, f.currentStatementLoopTime)
  }

  /**
    ProcessBPInfoPreBreak. `debuggerAction` is the script context's
    ShouldPerformDebuggerAction flag and `mode` the computed TTD mode;
    `srcLine`/`srcColumn` are the source position the innermost call's
    current statement maps to (a signed column of -1 reads as 2^32 - 1).
   */
  function ProcessBPInfoPreBreak(debuggerAction: bool, mode: ModeStack.Mask, s: Shadow, srcLine: nat, srcColumn: int)
    : (r: Result<PreBreak, ShadowFault>)
    ensures !debuggerAction ==> r == Ok(PreBreak(true, false))
    ensures debuggerAction && ModeStack.SuppressBreakpoints(mode) ==>
              r == Ok(PreBreak(false, ModeStack.LogBreakpoints(mode)))
    ensures debuggerAction && !ModeStack.SuppressBreakpoints(mode) && s.activeBP.None? ==> r == Ok(PreBreak(true, false))
    ensures r.Err? <==>
              debuggerAction && !ModeStack.SuppressBreakpoints(mode) && s.activeBP.Some? && |s.callStack| == 0
    ensures debuggerAction && !ModeStack.SuppressBreakpoints(mode) && s.activeBP.Some? && |s.callStack| > 0 ==>
              r == Ok(PreBreak(Satisfies(s.activeBP.value, Top(s), srcLine, srcColumn), false))
    ensures r.Ok? && r.value.logVisit ==> !r.value.shouldBreak
  {
    if !debuggerAction then Ok(PreBreak(true, false))
    else if ModeStack.SuppressBreakpoints(mode) then Ok(PreBreak(false, ModeStack.LogBreakpoints(mode)))
    else if s.activeBP.None? then Ok(PreBreak(true, false))
    else
      var top := GetTopCallCounter(s);
      if top.Err? then Err(top.error)
      else
        var f := top.value;
        var bp := s.activeBP.value;
        var locationOk := srcLine % 0x1_0000_0000 == bp.line && srcColumn % 0x1_0000_0000 == bp.column;
        var ftimeOk := TimeMatches(bp.functionTime, f.functionTime);
        var ltimeOk := TimeMatches(bp.loopTime, f.currentStatementLoopTime);
        Ok(PreBreak(locationOk && ftimeOk && ltimeOk, false))
  }

  /**
    A breakpoint pinned to a function time fires in at most one call: two
    calls it fires in carry the same function-time stamp.
   */
  lemma PinnedBreakpointSingleCall(mode: ModeStack.Mask, s: Shadow, t: Shadow,
                                   line1: nat, col1: int, line2: nat, col2: int)
    requires s.activeBP.Some? && s.activeBP == t.activeBP && s.activeBP.value.functionTime != -1
    requires ProcessBPInfoPreBreak(true, mode, s, line1, col1) == Ok(PreBreak(true, false))
    requires ProcessBPInfoPreBreak(true, mode, t, line2, col2) == Ok(PreBreak(true, false))
    requires !ModeStack.SuppressBreakpoints(mode)
    ensures Top(s).functionTime == Top(t).functionTime
  {
  }

  /**
    Break on first user code: once the request has set the active breakpoint
    at the callee's first statement, the callee breaks when its current
    statement maps to that line and column, whatever its times.
   */
  lemma FirstUserCodeBreaks(mode: ModeStack.Mask, s: Shadow, body: nat, line: nat, column: int)
    requires body != 0 && s.breakOnFirstUserCode && !ModeStack.SuppressBreakpoints(mode)
    ensures var r := PushCallEvent(s, body, Some((line, column)));
            ProcessBPInfoPreBreak(true, mode, r, line, column) == Ok(PreBreak(true, false))
  {
  }
}

=== FILE: ch_host.dfy ===
/**
  The text-producing parts of the ch test host (ch.cpp): the library bytecode
  header written by CreateLibraryByteCodeHeader, the two-call buffer
  protocol of GetSerializedBuffer, and ExecuteTest's lower-casing of the
  script's full path.

  The engine's serializer is an oracle: GetSerializedBuffer receives what
  each of its two calls returns. File creation and writes are not modelled;
  the header is the text those writes would produce.
 */
module ChHost {
  import opened Wrappers
  import opened Jsrt
  import opened Ascii

  // ---------------------------------------------------------------------------
  // Hexadecimal text
  // ---------------------------------------------------------------------------

  /** The upper-case digit for a value below 16, as %X prints it. */
  function HexDigit(d: nat): (c: char)
    requires d < 16
    ensures IsHexDigit(c)
  {
    if d < 10 then ('0' as int + d) as char else ('A' as int + d - 10) as char
  }

  predicate IsHexDigit(c: char) { '0' <= c <= '9' || 'A' <= c <= 'F' }

  /** The value of a digit; a character that is not a digit reads as 0. */
  function HexValue(c: char): (v: nat)
    ensures v < 16
  {
    if '0' <= c <= '9' then c as int - '0' as int
    else if 'A' <= c <= 'F' then c as int - 'A' as int + 10
    else 0
  }

  function Pow16(width: nat): (p: nat)
    ensures p > 0
  {
    if width == 0 then 1 else 16 * Pow16(width - 1)
  }

  /**
    %0<width>X: the low `width` hexadecimal digits of `n`, most significant
    first, zero-padded (so a value of 16^width or more keeps only its low digits).
   */
  function Hex(n: nat, width: nat): (s: string)
    ensures |s| == width
    ensures forall i :: 0 <= i < width ==> IsHexDigit(s[i])
  {
    if width == 0 then [] else Hex(n / 16, width - 1) + [HexDigit(n % 16)]
  }

  /** Reads hexadecimal digits back into a number. */
  function ParseHex(s: string): nat
  {
    if s == [] then 0 else ParseHex(s[..|s| - 1]) * 16 + HexValue(s[|s| - 1])
  }

  lemma DigitRoundTrip(d: nat)
    requires d < 16
    ensures HexValue(HexDigit(d)) == d
  {
  }

  /** A number that fits in `width` digits is read back from its text. */
  lemma {:induction false} HexRoundTrip(n: nat, width: nat)
    requires n < Pow16(width)
    ensures ParseHex(Hex(n, width)) == n
  {
    if width > 0 {
      var s := Hex(n, width);
      assert s[..|s| - 1] == Hex(n / 16, width - 1);
      assert n / 16 < Pow16(width - 1) by {
        assert n < 16 * Pow16(width - 1);
      }
      HexRoundTrip(n / 16, width - 1);
      DigitRoundTrip(n % 16);
    }
  }

  // ---------------------------------------------------------------------------
  // The bytecode array
  // ---------------------------------------------------------------------------

  /** " 0x%02X": one byte as exactly five characters. */
  function ByteText(b: byte): (t: string)
    ensures |t| == 5 && t[..3] == " 0x" && t[3..] == Hex(b, 2)
  {
    " 0x" + Hex(b, 2)
  }

  /** "\r\n/* %08X */": the line break and offset comment, sixteen characters. */
  function OffsetLine(offset: nat): (t: string)
    ensures |t| == 16 && t[0] == '\r'
  {
    "\r\n/* " + Hex(offset, 8) + " */"
  }

  /** Whether byte `i` is the last one of a full row of sixteen. */
  predicate EndsRow(i: nat) { i % 16 == 15 }

  /**
    The text written for byte `i`: its five characters, a comma unless it is
    the last byte, and a line break with the next byte's offset after every
    sixteenth byte but the last.
   */
  function Piece(bytes: seq<byte>, i: nat): string
    requires i < |bytes|
  {
    ByteText(bytes[i]) + Separator(|bytes|, i)
  }

  /** What follows byte `i` of `n`: nothing after the last, else a comma and, closing a full row, an offset line. */
  function Separator(n: nat, i: nat): (s: string)
    requires i < n
    ensures s == [] <==> i == n - 1
    ensures s == [] || s == [','] || (|s| == 17 && s[0] == ',' && s[1] == '\r')
    ensures |s| == 17 <==> EndsRow(i) && i < n - 1
  {
    (if i < n - 1 then "," else "") + (if EndsRow(i) && i < n - 1 then OffsetLine(i + 1) else "")
  }

  /** The array text for the bytes from `i` on. */
  function DumpFrom(bytes: seq<byte>, i: nat): string
    requires i <= |bytes|
    decreases |bytes| - i
  {
    if i == |bytes| then [] else Piece(bytes, i) + DumpFrom(bytes, i + 1)
  }

  /**
    Reads an array text back: five characters per byte, the byte's value in
    the last two, then an optional comma and an optional offset line.
   */
  function DecodeDump(text: string): seq<byte>
    decreases |text|
  {
    if |text| < 5 then []
    else
      var v := ParseHex(text[3..5]);
      [if v < 0x100 then v else 0] + DecodeDump(SkipSeparator(text[5..]))
  }

  /** Drops a leading comma, then a leading offset line. */
  function SkipSeparator(rest: string): (r: string)
    ensures |r| <= |rest|
  {
    var r := if rest != [] && rest[0] == ',' then rest[1..] else rest;
    if |r| >= 16 && r[0] == '\r' then r[16..] else r
  }

  /**
    One step of reading back: a byte's text, an optional comma and an
    optional offset line, followed by text that is empty or starts a byte.
   */
  lemma DecodeStep(b: byte, separator: string, tail: string)
    requires separator == [] || separator == [','] || (|separator| == 17 && separator[0] == ',' && separator[1] == '\r')
    requires tail == [] || tail[0] == ' '
    ensures DecodeDump(ByteText(b) + separator + tail) == [b] + DecodeDump(tail)
  {
    var rest := separator + tail;
    assert ByteText(b) + separator + tail == ByteText(b) + rest;
    ByteTextThen(b, rest);
    HexRoundTrip(b, 2);
    SkipsSeparator(separator, tail);
    DecodeHead(ByteText(b) + rest);
  }

  lemma ByteTextThen(b: byte, rest: string)
    ensures (ByteText(b) + rest)[3..5] == Hex(b, 2)
    ensures (ByteText(b) + rest)[5..] == rest
  {
  }

  lemma DecodeHead(t: string)
    requires |t| >= 5 && ParseHex(t[3..5]) < 0x100
    ensures DecodeDump(t) == [ParseHex(t[3..5])] + DecodeDump(SkipSeparator(t[5..]))
  {
  }

  lemma SkipsSeparator(separator: string, tail: string)
    requires separator == [] || separator == [','] || (|separator| == 17 && separator[0] == ',' && separator[1] == '\r')
    requires tail == [] || tail[0] == ' '
    ensures SkipSeparator(separator + tail) == tail
  {
    if separator != [] {
      assert (separator + tail)[1..] == separator[1..] + tail;
    }
  }

  lemma DumpFromUnfold(bytes: seq<byte>, i: nat)
    requires i < |bytes|
    ensures DumpFrom(bytes, i) == ByteText(bytes[i]) + Separator(|bytes|, i) + DumpFrom(bytes, i + 1)
  {
  }

  /** The text of the bytes from `i` on is empty or starts with a byte's leading space. */
  lemma DumpStartsWithSpace(bytes: seq<byte>, i: nat)
    requires i <= |bytes|
    ensures DumpFrom(bytes, i) == [] || DumpFrom(bytes, i)[0] == ' '
  {
    if i < |bytes| {
      assert DumpFrom(bytes, i) == ByteText(bytes[i]) + (Separator(|bytes|, i) + DumpFrom(bytes, i + 1));
    }
  }

  /** Reading the text from byte `i` on yields byte `i`, then what the text from the next byte yields. */
  lemma DecodePiece(bytes: seq<byte>, i: nat)
    requires i < |bytes|
    ensures DecodeDump(DumpFrom(bytes, i)) == [bytes[i]] + DecodeDump(DumpFrom(bytes, i + 1))
  {
    DumpFromUnfold(bytes, i);
    DumpStartsWithSpace(bytes, i + 1);
    DecodeStep(bytes[i], Separator(|bytes|, i), DumpFrom(bytes, i + 1));
  }

  lemma SliceCons(bytes: seq<byte>, i: nat)
    requires i < |bytes|
    ensures bytes[i..] == [bytes[i]] + bytes[i + 1..]
  {
  }

  /** The array text from `i` on reads back as the bytes from `i` on. */
  lemma {:induction false} DecodeDumpFrom(bytes: seq<byte>, i: nat)
    requires i <= |bytes|
    ensures DecodeDump(DumpFrom(bytes, i)) == bytes[i..]
    decreases |bytes| - i
  {
    if i < |bytes| {
      DecodePiece(bytes, i);
      DecodeDumpFrom(bytes, i + 1);
      SliceCons(bytes, i);
    } else {
      assert DumpFrom(bytes, i) == [];
      assert bytes[i..] == [];
    }
  }

  /**
    The loop of CreateLibraryByteCodeHeader that writes the array: per byte,
    the five-character scratch, then the comma, then the offset line.
   */
  method HexDump(bytes: seq<byte>) returns (text: string)
    ensures text == DumpFrom(bytes, 0)
    ensures DecodeDump(text) == bytes
  {
    text := [];
    var i := 0;
    while i < |bytes|
      invariant 0 <= i <= |bytes|
      invariant text + DumpFrom(bytes, i) == DumpFrom(bytes, 0)
    {
      var piece := ByteText(bytes[i]);
      if i < |bytes| - 1 {
        piece := piece + ",";
      }
      if i % 16 == 15 && i < |bytes| - 1 {
        piece := piece + OffsetLine(i + 1);
      }
      PieceParts(bytes, i);
      AppendPiece(bytes, i, text);
      text := text + piece;
      i := i + 1;
    }
    DecodeDumpFrom(bytes, 0);
  }

  lemma PieceParts(bytes: seq<byte>, i: nat)
    requires i < |bytes|
    ensures Piece(bytes, i) == ByteText(bytes[i]) + (if i < |bytes| - 1 then "," else "")
                               + (if i % 16 == 15 && i < |bytes| - 1 then OffsetLine(i + 1) else "")
  {
  }

  lemma AppendPiece(bytes: seq<byte>, i: nat, text: string)
    requires i < |bytes| && text + DumpFrom(bytes, i) == DumpFrom(bytes, 0)
    ensures text + Piece(bytes, i) + DumpFrom(bytes, i + 1) == DumpFrom(bytes, 0)
  {
    assert DumpFrom(bytes, i) == Piece(bytes, i) + DumpFrom(bytes, i + 1);
  }

  /** Each offset line after a full row names the index of the byte that follows it. */
  lemma OffsetNamesNextByte(bytes: seq<byte>, i: nat)
    requires i < |bytes| - 1 && EndsRow(i) && |bytes| <= 0x1_0000_0000
    ensures Piece(bytes, i)[6..] == OffsetLine(i + 1)
    ensures ParseHex(Piece(bytes, i)[11..19]) == i + 1
  {
    var p := Piece(bytes, i);
    assert p == ByteText(bytes[i]) + ([','] + OffsetLine(i + 1));
    assert p[11..19] == Hex(i + 1, 8);
    assert Pow16(8) == 0x1_0000_0000 by {
      assert Pow16(2) == 256;
      assert Pow16(4) == 65536;
    }
    HexRoundTrip(i + 1, 8);
  }

  // ---------------------------------------------------------------------------
  // The header file
  // ---------------------------------------------------------------------------

  const Rule: string := "//-------------------------------------------------------------------------------------------------------\r\n"

  /**
    The comment block and the start of the disabled region holding the
    library source. This is output text: the lines the host writes at the top
    of every generated header, not a licence notice of this model.
   */
  const Banner: string :=
    Rule
    + "// Copyright (C) Microsoft. All rights reserved.\r\n"
    + "// Licensed under the MIT license. See LICENSE.txt file in the project root for full license information.\r\n"
    + Rule
    + "#if 0\r\n"

  const Trailer: string := "};\r\n\r\n}\r\n"

  predicate EndsWithCrLf(contents: string)
  {
    |contents| >= 2 && contents[|contents| - 2] == '\r' && contents[|contents| - 1] == '\n'
  }

  /**
    What closes the disabled region: "#endif" on a line of its own, with a
    line break first unless the source already ends in CR LF.
   */
  function EndifText(contents: string): (e: string)
    ensures |contents + e| >= 10 && (contents + e)[|contents + e| - 10..] == "\r\n#endif\r\n"
    ensures |e| == 8 <==> EndsWithCrLf(contents)
  {
    var e := if EndsWithCrLf(contents) then "#endif\r\n" else "\r\n#endif\r\n";
    assert EndsWithCrLf(contents) ==> (contents + e)[|contents + e| - 10..] == contents[|contents| - 2..] + e;
    e
  }

  /** Everything the header holds before the array text. */
  function HeaderPrefix(contents: string, libraryName: string): string
  {
    Banner + contents + Opening(contents, libraryName)
  }

  /** From the end of the library source to the first byte: "#endif", then the array's declaration. */
  function Opening(contents: string, libraryName: string): string
  {
    EndifText(contents) + "namespace Js\r\n{\r\n    const char Library_Bytecode_" + libraryName + "[] = {\r\n/* 00000000 */"
  }

  lemma Regroup(a: string, b: string, c: string, d: string, e: string)
    ensures a + b + c + d + e == a + b + (c + d + e)
  {
  }

  lemma Middle(a: string, b: string, c: string)
    ensures (a + b + c)[|a|..|a| + |b|] == b
  {
  }

  /**
    The text of the header file: the library source kept for validation, then
    the bytecode as a C array named after the library.
   */
  function HeaderText(contents: string, libraryName: string, bytes: seq<byte>): (t: string)
    ensures |t| == |HeaderPrefix(contents, libraryName)| + |DumpFrom(bytes, 0)| + |Trailer|
    ensures t[|Banner|..|Banner| + |contents|] == contents
    ensures DecodeDump(t[|HeaderPrefix(contents, libraryName)|..|t| - |Trailer|]) == bytes
  {
    var prefix := HeaderPrefix(contents, libraryName);
    var dump := DumpFrom(bytes, 0);
    var t := prefix + dump + Trailer;
    var opening := Opening(contents, libraryName);
    Middle(prefix, dump, Trailer);
    Regroup(Banner, contents, opening, dump, Trailer);
    Middle(Banner, contents, opening + dump + Trailer);
    DecodeDumpFrom(bytes, 0);
    t
  }

  // ---------------------------------------------------------------------------
  // GetSerializedBuffer and CreateLibraryByteCodeHeader
  // ---------------------------------------------------------------------------

  /** What the caller gets back: success, and the buffer and size outputs (None standing for null). */
  datatype SerializedBuffer = SerializedBuffer(succeeded: bool, buffer: Option<seq<byte>>, size: nat)

  /**
    The buffer of `n` bytes handed back: the bytes the second serializer call
    wrote, then whatever the freshly allocated buffer held (`stale`, 0 past
    its end).
   */
  function BufferContents(n: nat, written: seq<byte>, stale: seq<byte>): (b: seq<byte>)
    ensures |b| == n
    ensures forall i :: 0 <= i < n && i < |written| ==> b[i] == written[i]
    ensures forall i :: |written| <= i < n && i < |stale| ==> b[i] == stale[i]
    ensures |written| == n ==> b == written
  {
    seq(n, i requires 0 <= i < n => if i < |written| then written[i] else if i < |stale| then stale[i] else 0)
  }

  /**
    GetSerializedBuffer as written. The first serializer call reports the
    size only; the second fills a fresh buffer of that size. A size of 0 is
    the one failure: a serializer error jumps to the exit with the result
    still S_OK, so it reaches the caller as success. After a failing first
    call the outputs are null and 0; after a failing second call the buffer
    comes back unfilled. `sizing` and `filling` are the two calls' replies,
    `stale` the indeterminate contents of the fresh buffer.
   */
  function GetSerializedBuffer(sizing: Result<nat, JsErrorCode>, filling: Result<seq<byte>, JsErrorCode>,
                               stale: seq<byte>)
    : (r: SerializedBuffer)
    ensures !r.succeeded <==> sizing == Ok(0)
    ensures sizing.Err? ==> r.buffer.None? && r.size == 0
    ensures !r.succeeded ==> r.buffer.None? && r.size == 0
    ensures sizing.Ok? && sizing.value > 0 ==>
              r.buffer.Some? && r.size == sizing.value && |r.buffer.value| == r.size
    ensures sizing.Ok? && sizing.value > 0 && filling.Ok? ==>
              forall i :: 0 <= i < r.size && i < |filling.value| ==> r.buffer.value[i] == filling.value[i]
    ensures sizing.Ok? && filling.Ok? && |filling.value| == sizing.value > 0 ==> r.buffer == Some(filling.value)
    ensures sizing.Ok? && sizing.value > 0 && filling.Err? ==> r.buffer == Some(BufferContents(sizing.value, [], stale))
  {
    if sizing.Err? then SerializedBuffer(true, None, 0)
    else if sizing.value == 0 then SerializedBuffer(false, None, 0)
    else
      var n := sizing.value;
      var written := if filling.Ok? then filling.value else [];
      SerializedBuffer(true, Some(BufferContents(n, written, stale)), n)
  }

  /**
    GetSerializedBuffer as evidently intended: a serializer error is a
    failure too, as in CreateRuntime, which sets E_FAIL before its checks.
    Success then means the bytes are the ones the serializer wrote.
   */
  function GetSerializedBufferChecked(sizing: Result<nat, JsErrorCode>, filling: Result<seq<byte>, JsErrorCode>,
                                      stale: seq<byte>)
    : (r: SerializedBuffer)
    ensures r.succeeded <==> sizing.Ok? && sizing.value > 0 && filling.Ok?
    ensures !r.succeeded ==> r.buffer.None? && r.size == 0
    ensures r.succeeded ==> r.buffer.Some? && r.size == sizing.value && |r.buffer.value| == r.size
    ensures r.succeeded ==> forall i :: 0 <= i < r.size && i < |filling.value| ==> r.buffer.value[i] == filling.value[i]
    ensures r.succeeded && |filling.value| == r.size ==> r.buffer.value == filling.value
  {
    if sizing.Err? || filling.Err? then SerializedBuffer(false, None, 0)
    else GetSerializedBuffer(sizing, filling, stale)
  }

  /** The bytes the header's array is written from: none for a null buffer. */
  function DumpedBytes(b: SerializedBuffer): seq<byte>
  {
    if b.buffer.None? then [] else b.buffer.value
  }

  /**
    CreateLibraryByteCodeHeader as written, without its file writes: the
    header text unless GetSerializedBuffer reports a failure. After a
    serializer error the header is still written, from a null or unfilled
    buffer.
   */
  function CreateLibraryByteCodeHeader(contents: string, libraryName: string,
                                       sizing: Result<nat, JsErrorCode>, filling: Result<seq<byte>, JsErrorCode>,
                                       stale: seq<byte>)
    : (r: Option<string>)
    ensures r.None? <==> sizing == Ok(0)
    ensures sizing.Err? ==> r == Some(HeaderText(contents, libraryName, []))
    ensures sizing.Ok? && filling.Ok? && |filling.value| == sizing.value > 0 ==>
              r == Some(HeaderText(contents, libraryName, filling.value))
    ensures sizing.Ok? && sizing.value > 0 && filling.Err? ==>
              r == Some(HeaderText(contents, libraryName, BufferContents(sizing.value, [], stale)))
  {
    var b := GetSerializedBuffer(sizing, filling, stale);
    if !b.succeeded then None else Some(HeaderText(contents, libraryName, DumpedBytes(b)))
  }

  /** CreateLibraryByteCodeHeader built on the corrected GetSerializedBuffer. */
  function CreateLibraryByteCodeHeaderChecked(contents: string, libraryName: string,
                                              sizing: Result<nat, JsErrorCode>, filling: Result<seq<byte>, JsErrorCode>,
                                              stale: seq<byte>)
    : (r: Option<string>)
    ensures r.Some? <==> sizing.Ok? && sizing.value > 0 && filling.Ok?
    ensures r.Some? && |filling.value| == sizing.value ==>
              r == Some(HeaderText(contents, libraryName, filling.value))
  {
    var b := GetSerializedBufferChecked(sizing, filling, stale);
    if !b.succeeded then None else Some(HeaderText(contents, libraryName, DumpedBytes(b)))
  }

  /**
    The inputs that show it: a serializer that fails on its first call, or on
    its second, still yields success, and a header is written with an empty
    or an unfilled bytecode array. The corrected definitions write none.
   */
  lemma SerializerErrorStillSucceeds(e: JsErrorCode, filling: Result<seq<byte>, JsErrorCode>, stale: seq<byte>,
                                     contents: string, libraryName: string)
    ensures GetSerializedBuffer(Err(e), filling, stale) == SerializedBuffer(true, None, 0)
    ensures CreateLibraryByteCodeHeader(contents, libraryName, Err(e), filling, stale)
            == Some(HeaderText(contents, libraryName, []))
    ensures GetSerializedBuffer(Ok(4), Err(e), []) == SerializedBuffer(true, Some([0, 0, 0, 0]), 4)
    ensures !GetSerializedBufferChecked(Err(e), filling, stale).succeeded
    ensures !GetSerializedBufferChecked(Ok(4), Err(e), stale).succeeded
    ensures CreateLibraryByteCodeHeaderChecked(contents, libraryName, Err(e), filling, stale) == None
  {
    assert BufferContents(4, [], []) == [0, 0, 0, 0];
  }

  // ---------------------------------------------------------------------------
  // ExecuteTest
  // ---------------------------------------------------------------------------

  /** ExecuteTest canonicalises the full path to lower case, byte by byte. */
  method LowerPath(fullPath: seq<byte>) returns (lowered: seq<byte>)
    ensures |lowered| == |fullPath|
    ensures forall i :: 0 <= i < |lowered| ==> !IsUpper(lowered[i])
    ensures forall i :: 0 <= i < |lowered| ==> (IsUpper(fullPath[i]) ==> lowered[i] == fullPath[i] + 32)
    ensures forall i :: 0 <= i < |lowered| ==> (!IsUpper(fullPath[i]) ==> lowered[i] == fullPath[i])
  {
    lowered := fullPath;
    var i := 0;
    while i < |fullPath|
      invariant 0 <= i <= |fullPath| && |lowered| == |fullPath|
      invariant forall j :: 0 <= j < i ==> lowered[j] == Lower(fullPath[j])
      invariant forall j :: i <= j < |fullPath| ==> lowered[j] == fullPath[j]
    {
      lowered := lowered[i := Lower(fullPath[i])];
      i := i + 1;
    }
  }

  /** Two paths get the same canonical form exactly when they differ only in ASCII case. */
  lemma LowerPathIdentifiesCase(a: seq<byte>, b: seq<byte>)
    ensures Fold(a) == Fold(b) <==> |a| == |b| && forall i :: 0 <= i < |a| ==> Lower(a[i]) == Lower(b[i])
  {
    if |a| == |b| && forall i :: 0 <= i < |a| ==> Lower(a[i]) == Lower(b[i]) {
      assert forall i :: 0 <= i < |a| ==> Fold(a)[i] == Fold(b)[i];
    }
  }

  /** Canonicalising twice changes nothing. */
  lemma FoldIdempotent(path: seq<byte>)
    ensures Fold(Fold(path)) == Fold(path)
  {
  }
}

=== FILE: event_list.dfy ===
/**
  The time-travel event list (TTEventList): a chain of fixed-capacity blocks.
  Entries are appended at the back (the head block), deleted only from the
  front, and a block is unlinked once it is drained.

  A block is `Block(written, start)`: `written` is BlockData[0 .. CurrPos) and
  the live entries are `written[start..]` (StartPos = `start`). The chain is a
  sequence ordered from the oldest block (no Previous link) to the head block
  (no Next link). `Elements` is the flat sequence the chain stands for and
  `Size` its length, counted block by block.
 */
module EventList {
  import opened Wrappers

  datatype Block<T> = Block(written: seq<T>, start: nat)

  datatype List<T> = List(blocks: seq<Block<T>>)

  /** Why a fatal TTDAssert in the list code fires. */
  datatype ListFault = NotFirstEntryOfBlock | NotFirstBlockInLog

  /** Cursor into the chain: a block index and a slot, or the null link. */
  datatype Iterator = Invalid | At(block: nat, idx: int)

  /** Live entries of one block: written[StartPos .. CurrPos). */
  function Live<T>(b: Block<T>): seq<T>
  {
    if b.start <= |b.written| then b.written[b.start..] else []
  }

  /** CurrPos - StartPos: the number of live entries of one block. */
  function LiveCount<T>(b: Block<T>): nat
  {
    if b.start <= |b.written| then |b.written| - b.start else 0
  }

  /** Concatenation of the live entries of blocks lo .. hi-1, oldest first. */
  function Flat<T>(bs: seq<Block<T>>, lo: nat, hi: nat): seq<T>
    requires lo <= hi <= |bs|
    decreases hi - lo
  {
    if lo == hi then [] else Flat(bs, lo, hi - 1) + Live(bs[hi - 1])
  }

  /** Number of live entries in the blocks before block `b`. */
  function Before<T>(bs: seq<Block<T>>, b: nat): nat
    requires b <= |bs|
  {
    if b == 0 then 0 else Before(bs, b - 1) + LiveCount(bs[b - 1])
  }

  /** The flat sequence of entries the chain stands for. */
  function Elements<T>(l: List<T>): seq<T>
  {
    Flat(l.blocks, 0, |l.blocks|)
  }

  /** The number of entries in the chain. */
  function Size<T>(l: List<T>): nat
  {
    Before(l.blocks, |l.blocks|)
  }

  /** Every linked block holds at least one live entry. */
  ghost predicate Linked<T>(bs: seq<Block<T>>)
  {
    forall i :: 0 <= i < |bs| ==> bs[i].start < |bs[i].written|
  }

  /**
    The shape the list operations keep: every linked block holds at least one
    live entry and at most `cap` written slots, and every block except the
    head block is full (a new block is linked only when the head is full).
   */
  ghost predicate Valid<T>(l: List<T>, cap: nat)
  {
    && cap > 0
    && Linked(l.blocks)
    && (forall i :: 0 <= i < |l.blocks| ==> |l.blocks[i].written| <= cap)
    && (forall i :: 0 <= i < |l.blocks| - 1 ==> |l.blocks[i].written| == cap)
  }

  function Empty<T>(): (r: List<T>)
    ensures Elements(r) == [] && Size(r) == 0
  {
    List([])
  }

  /** The block-by-block count is the length of the flat sequence. */
  lemma {:induction false} FlatLength<T>(bs: seq<Block<T>>, b: nat)
    requires b <= |bs|
    ensures |Flat(bs, 0, b)| == Before(bs, b)
  {
    if b > 0 {
      FlatLength(bs, b - 1);
      assert |Live(bs[b - 1])| == LiveCount(bs[b - 1]);
    }
  }

  lemma SizeIsLength<T>(l: List<T>)
    ensures Size(l) == |Elements(l)|
  {
    FlatLength(l.blocks, |l.blocks|);
  }

  /**
    IsEmpty: the list has no head block. On a chain whose every block holds a
    live entry that is exactly "no entries"; a chain of drained blocks would
    count as non-empty, which the list operations never build.
   */
  function IsEmpty<T>(l: List<T>): (r: bool)
    ensures r ==> Elements(l) == [] && Size(l) == 0
    ensures Linked(l.blocks) ==> (r <==> Elements(l) == [])
  {
    NoBlockNoEntries(l);
    |l.blocks| == 0
  }

  lemma NoBlockNoEntries<T>(l: List<T>)
    ensures |l.blocks| == 0 ==> Elements(l) == [] && Size(l) == 0
    ensures Linked(l.blocks) && |l.blocks| > 0 ==> Elements(l) != []
  {
    SizeIsLength(l);
    if |l.blocks| > 0 {
      assert Size(l) >= LiveCount(l.blocks[|l.blocks| - 1]);
    }
  }

  /** Entries before a later block include the entries before an earlier one. */
  lemma {:induction false} BeforeMonotone<T>(bs: seq<Block<T>>, b: nat, c: nat)
    requires b <= c <= |bs|
    ensures Before(bs, b) <= Before(bs, c)
    decreases c - b
  {
    if b < c {
      BeforeMonotone(bs, b, c - 1);
    }
  }

  /** A run of blocks splits at any block boundary. */
  lemma {:induction false} FlatSplit<T>(bs: seq<Block<T>>, lo: nat, m: nat, hi: nat)
    requires lo <= m <= hi <= |bs|
    ensures Flat(bs, lo, hi) == Flat(bs, lo, m) + Flat(bs, m, hi)
    decreases hi - m
  {
    if m < hi {
      FlatSplit(bs, lo, m, hi - 1);
    }
  }

  /** Two chains that hold the same blocks lo .. hi-1 flatten alike there. */
  lemma {:induction false} FlatAgree<T>(bs: seq<Block<T>>, cs: seq<Block<T>>, lo: nat, hi: nat)
    requires lo <= hi <= |bs| && hi <= |cs|
    requires forall i :: lo <= i < hi ==> cs[i] == bs[i]
    ensures Flat(bs, lo, hi) == Flat(cs, lo, hi)
    decreases hi - lo
  {
    if lo < hi {
      FlatAgree(bs, cs, lo, hi - 1);
    }
  }

  /** Unlinking the first block shifts every remaining block down by one. */
  lemma {:induction false} FlatShift<T>(bs: seq<Block<T>>, lo: nat, hi: nat)
    requires 0 < |bs| && lo <= hi <= |bs| - 1
    ensures Flat(bs[1..], lo, hi) == Flat(bs, lo + 1, hi + 1)
    decreases hi - lo
  {
    if lo < hi {
      FlatShift(bs, lo, hi - 1);
    }
  }

  lemma FlatOne<T>(bs: seq<Block<T>>, b: nat)
    requires b < |bs|
    ensures Flat(bs, b, b + 1) == Live(bs[b])
  {
    assert Flat(bs, b, b) == [];
  }

  /** The flat sequence around block `b`: entries before it, its own, after it. */
  lemma FlatAround<T>(bs: seq<Block<T>>, b: nat)
    requires b < |bs|
    ensures Flat(bs, 0, |bs|) == Flat(bs, 0, b) + (Live(bs[b]) + Flat(bs, b + 1, |bs|))
  {
    FlatSplit(bs, 0, b, |bs|);
    FlatSplit(bs, b, b + 1, |bs|);
    FlatOne(bs, b);
  }

  /** Replacing block `b` replaces only its own live entries in the flat sequence. */
  lemma FlatReplace<T>(bs: seq<Block<T>>, b: nat, nb: Block<T>)
    requires b < |bs|
    ensures Flat(bs[b := nb], 0, |bs|) == Flat(bs, 0, b) + (Live(nb) + Flat(bs, b + 1, |bs|))
  {
    var cs := bs[b := nb];
    FlatAround(cs, b);
    FlatAgree(bs, cs, 0, b);
    FlatAgree(bs, cs, b + 1, |bs|);
  }

  /** Linking a new head block holding only `e`. */
  lemma LinkNewBlock<T>(l: List<T>, cap: nat, e: T)
    requires Valid(l, cap)
    requires |l.blocks| == 0 || |l.blocks[|l.blocks| - 1].written| == cap
    ensures var r := List(l.blocks + [Block([e], 0)]);
            Valid(r, cap) && Elements(r) == Elements(l) + [e]
  {
    var n := |l.blocks|;
    var r := List(l.blocks + [Block([e], 0)]);
    assert Live(r.blocks[n]) == [e];
    FlatAgree(l.blocks, r.blocks, 0, n);
    assert Elements(r) == Flat(r.blocks, 0, n) + [e];
    assert forall i :: 0 <= i < n ==> r.blocks[i] == l.blocks[i];
  }

  /** Writing `e` into the next free slot of a head block that is not full. */
  lemma FillHeadBlock<T>(l: List<T>, cap: nat, e: T)
    requires Valid(l, cap)
    requires |l.blocks| > 0 && |l.blocks[|l.blocks| - 1].written| < cap
    ensures var h := l.blocks[|l.blocks| - 1];
            var r := List(l.blocks[|l.blocks| - 1 := Block(h.written + [e], h.start)]);
            Valid(r, cap) && Elements(r) == Elements(l) + [e]
  {
    var n := |l.blocks|;
    var h := l.blocks[n - 1];
    var nh := Block(h.written + [e], h.start);
    FlatAgree(l.blocks, l.blocks[n - 1 := nh], 0, n - 1);
    assert Live(nh) == Live(h) + [e];
  }

  /**
    GetNextAvailableEntry, with the caller's initialisation of the returned
    slot folded in: the entry lands at the back, and a new block is linked only
    when there is no head block or the head block is full.
   */
  function Append<T>(l: List<T>, cap: nat, e: T): (r: List<T>)
    requires Valid(l, cap)
    ensures Valid(r, cap)
    ensures Elements(r) == Elements(l) + [e]
    ensures |l.blocks| == 0 || |l.blocks[|l.blocks| - 1].written| == cap
            ==> |r.blocks| == |l.blocks| + 1
    ensures |l.blocks| > 0 && |l.blocks[|l.blocks| - 1].written| < cap
            ==> |r.blocks| == |l.blocks|
    ensures forall i :: 0 <= i < |l.blocks| - 1 ==> r.blocks[i] == l.blocks[i]
  {
    var n := |l.blocks|;
    if n == 0 || |l.blocks[n - 1].written| == cap then
      LinkNewBlock(l, cap, e);
      List(l.blocks + [Block([e], 0)])
    else
      var h := l.blocks[n - 1];
      FillHeadBlock(l, cap, e);
      List(l.blocks[n - 1 := Block(h.written + [e], h.start)])
  }

  /** Global position of slot `p` of block `b`. */
  function PositionOf<T>(l: List<T>, b: nat, p: int): int
    requires b < |l.blocks|
  {
    Before(l.blocks, b) + p - l.blocks[b].start
  }

  /**
    DeleteFirstEntry(block, data): `data` must be the front slot of `block`
    (BlockData + StartPos); that entry is unloaded and StartPos advances. A
    block drained by this is unlinked, which is only allowed for the first
    block of the chain.
   */
  function DeleteFirstEntry<T>(l: List<T>, cap: nat, b: nat, p: nat): (r: Result<List<T>, ListFault>)
    requires Valid(l, cap)
    requires b < |l.blocks|
    ensures r.Err? <==> p != l.blocks[b].start
                        || (b != 0 && l.blocks[b].start + 1 == |l.blocks[b].written|)
    ensures r.Ok? ==> Valid(r.value, cap)
    ensures r.Ok? ==> Size(r.value) + 1 == Size(l)
    ensures r.Ok? ==> (|r.value.blocks| == |l.blocks| - 1
                       <==> l.blocks[b].start + 1 == |l.blocks[b].written|)
  {
    var blk := l.blocks[b];
    if p != blk.start then Err(NotFirstEntryOfBlock)
    else if blk.start + 1 == |blk.written| then
      if b != 0 then Err(NotFirstBlockInLog)
      else
        DropFirstBlockValid(l, cap);
        DropFirstBlockSize(l);
        Ok(List(l.blocks[1..]))
    else
      AdvanceStartValid(l, cap, b);
      AdvanceStartSize(l, b);
      Ok(List(l.blocks[b := Block(blk.written, blk.start + 1)]))
  }

  /** Removing one entry, wherever it sits, shrinks the count by one. */
  lemma SizeAfterRemoval<T>(l: List<T>, r: List<T>, k: nat)
    requires k < |Elements(l)|
    requires Elements(r) == Elements(l)[..k] + Elements(l)[k + 1..]
             || (k == 0 && Elements(r) == Elements(l)[1..])
    ensures Size(r) + 1 == Size(l)
  {
    SizeIsLength(l);
    SizeIsLength(r);
  }

  /** Unlinking the drained first block keeps the shape. */
  lemma DropFirstBlockValid<T>(l: List<T>, cap: nat)
    requires Valid(l, cap) && |l.blocks| > 0
    ensures Valid(List(l.blocks[1..]), cap)
  {
  }

  /** Unlinking the first block once its last live entry is deleted drops exactly that entry. */
  lemma DropFirstBlock<T>(l: List<T>)
    requires |l.blocks| > 0
    requires l.blocks[0].start + 1 == |l.blocks[0].written|
    ensures 0 < |Elements(l)| && Elements(List(l.blocks[1..])) == Elements(l)[1..]
  {
    var bs := l.blocks;
    var n := |bs|;
    var x := bs[0].written[bs[0].start];
    FlatSplit(bs, 0, 1, n);
    FlatOne(bs, 0);
    assert Live(bs[0]) == [x];
    FlatShift(bs, 0, n - 1);
    assert ([x] + Flat(bs, 1, n))[1..] == Flat(bs, 1, n);
  }

  /** Advancing StartPos of block `b` past its front entry keeps the shape. */
  lemma AdvanceStartValid<T>(l: List<T>, cap: nat, b: nat)
    requires Valid(l, cap) && b < |l.blocks|
    requires l.blocks[b].start + 1 < |l.blocks[b].written|
    ensures var blk := l.blocks[b];
            Valid(List(l.blocks[b := Block(blk.written, blk.start + 1)]), cap)
  {
  }

  /** A block's live entries are its front entry followed by those after StartPos. */
  lemma LiveAdvance<T>(blk: Block<T>)
    requires blk.start < |blk.written|
    ensures Live(blk) == [blk.written[blk.start]] + Live(Block(blk.written, blk.start + 1))
  {
  }

  /** Dropping the entry at |a| from a + ([x] + c + d) leaves a + (c + d). */
  lemma RemoveAt<T>(a: seq<T>, x: T, c: seq<T>, d: seq<T>)
    ensures var s := a + ([x] + c + d);
            |a| < |s| && s[..|a|] + s[|a| + 1..] == a + (c + d)
  {
    var s := a + ([x] + c + d);
    assert s[..|a|] == a;
    assert s[|a| + 1..] == c + d;
  }

  /** Advancing StartPos of block `b` removes exactly its front entry from the flat sequence. */
  lemma AdvanceStart<T>(l: List<T>, b: nat)
    requires b < |l.blocks|
    requires l.blocks[b].start + 1 < |l.blocks[b].written|
    ensures var blk := l.blocks[b];
            var r := List(l.blocks[b := Block(blk.written, blk.start + 1)]);
            var k := |Flat(l.blocks, 0, b)|;
            && k < |Elements(l)|
            && Elements(r) == Elements(l)[..k] + Elements(l)[k + 1..]
  {
    var bs := l.blocks;
    var blk := bs[b];
    var nb := Block(blk.written, blk.start + 1);
    var x := blk.written[blk.start];
    FlatReplace(bs, b, nb);
    FlatAround(bs, b);
    LiveAdvance(blk);
    RemoveAt(Flat(bs, 0, b), x, Live(nb), Flat(bs, b + 1, |bs|));
  }

  lemma DropFirstBlockSize<T>(l: List<T>)
    requires |l.blocks| > 0
    requires l.blocks[0].start + 1 == |l.blocks[0].written|
    ensures Size(List(l.blocks[1..])) + 1 == Size(l)
  {
    DropFirstBlock(l);
    SizeAfterRemoval(l, List(l.blocks[1..]), 0);
  }

  lemma AdvanceStartSize<T>(l: List<T>, b: nat)
    requires b < |l.blocks|
    requires l.blocks[b].start + 1 < |l.blocks[b].written|
    ensures var blk := l.blocks[b];
            Size(List(l.blocks[b := Block(blk.written, blk.start + 1)])) + 1 == Size(l)
  {
    var blk := l.blocks[b];
    AdvanceStart(l, b);
    SizeAfterRemoval(l, List(l.blocks[b := Block(blk.written, blk.start + 1)]), |Flat(l.blocks, 0, b)|);
  }

  /**
    A successful DeleteFirstEntry removes exactly the entry at the front of
    block `b` (flat position Before(b)), and on the first block that is the
    front of the whole list.
   */
  lemma DeleteFirstEntryRemoves<T>(l: List<T>, cap: nat, b: nat, p: nat)
    requires Valid(l, cap) && b < |l.blocks|
    requires DeleteFirstEntry(l, cap, b, p).Ok?
    ensures var k := Before(l.blocks, b);
            var r := DeleteFirstEntry(l, cap, b, p).value;
            && k < |Elements(l)|
            && Elements(r) == Elements(l)[..k] + Elements(l)[k + 1..]
            && (b == 0 ==> Elements(r) == Elements(l)[1..])
  {
    var blk := l.blocks[b];
    var es := Elements(l);
    FlatLength(l.blocks, b);
    if blk.start + 1 == |blk.written| {
      DropFirstBlock(l);
      assert es[..0] + es[1..] == es[1..];
    } else {
      AdvanceStart(l, b);
      EmptyPrefix(es, b);
    }
  }

  lemma EmptyPrefix<T>(es: seq<T>, b: nat)
    requires 0 < |es|
    ensures b == 0 ==> es[..0] + es[1..] == es[1..]
  {
    if b == 0 {
      assert es[..0] == [];
    }
  }

  /** Iterator::IsValid: a linked block and a live slot of it. */
  predicate IsValid<T>(l: List<T>, it: Iterator)
  {
    && it.At?
    && it.block < |l.blocks|
    && l.blocks[it.block].start <= it.idx < |l.blocks[it.block].written|
  }

  function Current<T>(l: List<T>, it: Iterator): T
    requires IsValid(l, it)
  {
    l.blocks[it.block].written[it.idx]
  }

  /** Flat index of a valid iterator. */
  function Index<T>(l: List<T>, it: Iterator): int
    requires IsValid(l, it)
  {
    PositionOf(l, it.block, it.idx)
  }

  function MoveNext<T>(l: List<T>, it: Iterator): Iterator
    requires IsValid(l, it)
  {
    if it.idx < |l.blocks[it.block].written| - 1 then At(it.block, it.idx + 1)
    else if it.block + 1 < |l.blocks| then At(it.block + 1, l.blocks[it.block + 1].start)
    else Invalid
  }

  function MovePrevious<T>(l: List<T>, it: Iterator): Iterator
    requires IsValid(l, it)
  {
    if it.idx > l.blocks[it.block].start then At(it.block, it.idx - 1)
    else if it.block > 0 then At(it.block - 1, |l.blocks[it.block - 1].written| - 1)
    else Invalid
  }

  function GetIteratorAtFirst<T>(l: List<T>): Iterator
  {
    if |l.blocks| == 0 then Invalid else At(0, l.blocks[0].start)
  }

  function GetIteratorAtLast<T>(l: List<T>): Iterator
  {
    if |l.blocks| == 0 then Invalid
    else At(|l.blocks| - 1, |l.blocks[|l.blocks| - 1].written| - 1)
  }

  /** Live entry `j` of block `b` sits at flat position Before(b) + j. */
  lemma FlatIndex<T>(bs: seq<Block<T>>, b: nat, j: nat)
    requires b < |bs| && j < |Live(bs[b])|
    ensures Before(bs, b) + j < |Flat(bs, 0, |bs|)|
    ensures Flat(bs, 0, |bs|)[Before(bs, b) + j] == Live(bs[b])[j]
  {
    var pre := Flat(bs, 0, b);
    var mid := Live(bs[b]);
    var post := Flat(bs, b + 1, |bs|);
    assert Flat(bs, 0, |bs|) == (pre + mid) + post by {
      FlatSplit(bs, 0, b + 1, |bs|);
    }
    assert |pre| == Before(bs, b) by {
      FlatLength(bs, b);
    }
    ConcatIndex(pre, mid, post, j);
  }

  /** Element j of the middle part of a three-part concatenation. */
  lemma ConcatIndex<T>(pre: seq<T>, mid: seq<T>, post: seq<T>, j: nat)
    requires j < |mid|
    ensures |pre| + j < |(pre + mid) + post| && ((pre + mid) + post)[|pre| + j] == mid[j]
  {
  }

  /** A valid iterator denotes the flat entry at its index. */
  lemma CurrentIsElement<T>(l: List<T>, it: Iterator)
    requires IsValid(l, it)
    ensures 0 <= Index(l, it) < |Elements(l)|
    ensures Current(l, it) == Elements(l)[Index(l, it)]
  {
    var blk := l.blocks[it.block];
    var j := it.idx - blk.start;
    assert Live(blk)[j] == blk.written[it.idx];
    FlatIndex(l.blocks, it.block, j);
  }

  /** A valid iterator's index lies inside the list. */
  lemma IndexInRange<T>(l: List<T>, it: Iterator)
    requires IsValid(l, it)
    ensures 0 <= Index(l, it) < Size(l)
  {
    BeforeMonotone(l.blocks, it.block + 1, |l.blocks|);
  }

  /** MoveNext advances by exactly one flat position, and leaves the list after the last entry. */
  lemma MoveNextSteps<T>(l: List<T>, it: Iterator)
    requires Linked(l.blocks) && IsValid(l, it)
    ensures Index(l, it) + 1 < Size(l) ==>
              IsValid(l, MoveNext(l, it)) && Index(l, MoveNext(l, it)) == Index(l, it) + 1
    ensures Index(l, it) + 1 >= Size(l) ==> !IsValid(l, MoveNext(l, it))
  {
    var b := it.block;
    var bs := l.blocks;
    assert Before(bs, b + 1) == Before(bs, b) + |bs[b].written| - bs[b].start;
    if it.idx < |bs[b].written| - 1 {
      IndexInRange(l, MoveNext(l, it));
    } else if b + 1 < |bs| {
      IndexInRange(l, MoveNext(l, it));
    } else {
      assert Index(l, it) + 1 == Size(l);
    }
  }

  /** MovePrevious steps back by exactly one flat position, and leaves the list before the first entry. */
  lemma MovePreviousSteps<T>(l: List<T>, it: Iterator)
    requires Linked(l.blocks) && IsValid(l, it)
    ensures Index(l, it) > 0 ==>
              IsValid(l, MovePrevious(l, it)) && Index(l, MovePrevious(l, it)) == Index(l, it) - 1
    ensures Index(l, it) == 0 ==> !IsValid(l, MovePrevious(l, it))
  {
  }

  /** The first iterator is at flat position 0, or invalid exactly when the list is empty. */
  lemma FirstIterator<T>(l: List<T>)
    requires Linked(l.blocks)
    ensures IsValid(l, GetIteratorAtFirst(l)) <==> Size(l) > 0
    ensures IsValid(l, GetIteratorAtFirst(l)) ==> Index(l, GetIteratorAtFirst(l)) == 0
  {
    if |l.blocks| > 0 {
      IndexInRange(l, GetIteratorAtFirst(l));
    }
  }

  /** The last iterator is at the final flat position, or invalid exactly when the list is empty. */
  lemma LastIterator<T>(l: List<T>)
    requires Linked(l.blocks)
    ensures IsValid(l, GetIteratorAtLast(l)) <==> Size(l) > 0
    ensures IsValid(l, GetIteratorAtLast(l)) ==> Index(l, GetIteratorAtLast(l)) == Size(l) - 1
  {
  }

  /** The `m` newest entries of `s`, newest first. */
  function NewestFirst<T>(s: seq<T>, m: nat): seq<T>
    requires m <= |s|
  {
    if m == 0 then [] else NewestFirst(s, m - 1) + [s[|s| - m]]
  }

  lemma NewestFirstStep<T>(s: seq<T>, m: nat)
    requires m < |s|
    ensures NewestFirst(s, m + 1) == NewestFirst(s, m) + [s[|s| - 1 - m]]
  {
  }

  /** NewestFirst(s, |s|) is `s` reversed. */
  lemma {:induction false} NewestFirstReverses<T>(s: seq<T>, m: nat)
    requires m <= |s|
    ensures |NewestFirst(s, m)| == m
    ensures forall i :: 0 <= i < m ==> NewestFirst(s, m)[i] == s[|s| - 1 - i]
  {
    if m > 0 {
      NewestFirstReverses(s, m - 1);
    }
  }

  /** Where a walk stands: `k` entries are behind it, and an invalid iterator means all of them. */
  ghost predicate WalkedForward<T>(l: List<T>, it: Iterator, k: nat)
  {
    && k <= Size(l)
    && (IsValid(l, it) ==> Index(l, it) == k)
    && (!IsValid(l, it) ==> k == Size(l))
  }

  lemma ForwardStep<T>(l: List<T>, it: Iterator, visited: seq<T>)
    requires Linked(l.blocks) && IsValid(l, it) && WalkedForward(l, it, |visited|)
    requires |visited| <= |Elements(l)| && visited == Elements(l)[..|visited|]
    ensures |visited| < |Elements(l)|
    ensures WalkedForward(l, MoveNext(l, it), |visited| + 1)
    ensures visited + [Current(l, it)] == Elements(l)[..|visited| + 1]
  {
    MoveNextSteps(l, it);
    CurrentIsElement(l, it);
    var es := Elements(l);
    assert es[..|visited| + 1] == es[..|visited|] + [es[|visited|]];
  }

  /**
    Walking from GetIteratorAtFirst with MoveNext until the iterator is
    invalid visits every entry once, in insertion order.
   */
  method WalkForward<T>(l: List<T>) returns (visited: seq<T>)
    requires Linked(l.blocks)
    ensures visited == Elements(l)
  {
    visited := [];
    var it := GetIteratorAtFirst(l);
    FirstIterator(l);
    SizeIsLength(l);
    while IsValid(l, it)
      invariant WalkedForward(l, it, |visited|)
      invariant visited == Elements(l)[..|visited|]
      decreases Size(l) - |visited|
    {
      ForwardStep(l, it, visited);
      visited := visited + [Current(l, it)];
      it := MoveNext(l, it);
    }
  }

  /** Where a backward walk stands: `k` entries are behind it, newest first. */
  ghost predicate WalkedBackward<T>(l: List<T>, it: Iterator, k: nat)
  {
    && k <= Size(l)
    && (IsValid(l, it) ==> Index(l, it) == Size(l) - 1 - k)
    && (!IsValid(l, it) ==> k == Size(l))
  }

  lemma BackwardStep<T>(l: List<T>, it: Iterator, visited: seq<T>)
    requires Linked(l.blocks) && IsValid(l, it) && WalkedBackward(l, it, |visited|)
    requires |visited| <= |Elements(l)| && visited == NewestFirst(Elements(l), |visited|)
    ensures |visited| < |Elements(l)|
    ensures WalkedBackward(l, MovePrevious(l, it), |visited| + 1)
    ensures visited + [Current(l, it)] == NewestFirst(Elements(l), |visited| + 1)
  {
    MovePreviousSteps(l, it);
    CurrentIsElement(l, it);
    SizeIsLength(l);
    NewestFirstStep(Elements(l), |visited|);
  }

  /** Walking from GetIteratorAtLast with MovePrevious visits every entry once, newest first. */
  method WalkBackward<T>(l: List<T>) returns (visited: seq<T>)
    requires Linked(l.blocks)
    ensures visited == NewestFirst(Elements(l), |Elements(l)|)
  {
    visited := [];
    var it := GetIteratorAtLast(l);
    LastIterator(l);
    SizeIsLength(l);
    while IsValid(l, it)
      invariant WalkedBackward(l, it, |visited|)
      invariant visited == NewestFirst(Elements(l), |visited|)
      decreases Size(l) - |visited|
    {
      BackwardStep(l, it, visited);
      visited := visited + [Current(l, it)];
      it := MovePrevious(l, it);
    }
  }

  /** Adding to a uint32 sum that has already wrapped. */
  lemma AddMod(a: nat, x: nat)
    ensures (a % 0x1_0000_0000 + x) % 0x1_0000_0000 == (a + x) % 0x1_0000_0000
  {
  }

  /**
    Count(): walks from the head block back through the Previous links adding
    CurrPos - StartPos per block, in uint32 arithmetic.
   */
  method Count<T>(l: List<T>) returns (count: nat)
    requires Linked(l.blocks)
    ensures count == |Elements(l)| % 0x1_0000_0000
  {
    var n := |l.blocks|;
    count := 0;
    var i := n;
    while i > 0
      invariant 0 <= i <= n
      invariant Before(l.blocks, i) <= Size(l)
      invariant count == (Size(l) - Before(l.blocks, i)) % 0x1_0000_0000
      decreases i
    {
      var blk := l.blocks[i - 1];
      assert Before(l.blocks, i) == Before(l.blocks, i - 1) + (|blk.written| - blk.start);
      AddMod(Size(l) - Before(l.blocks, i), |blk.written| - blk.start);
      count := (count + (|blk.written| - blk.start)) % 0x1_0000_0000;
      i := i - 1;
    }
    SizeIsLength(l);
  }

  /** The inner loop of UnloadEventList: the live entries of one block, front to back. */
  method UnloadBlock<T>(blk: Block<T>) returns (chunk: seq<T>)
    requires blk.start <= |blk.written|
    ensures chunk == Live(blk)
  {
    var j := blk.start;
    chunk := [];
    while j < |blk.written|
      invariant blk.start <= j <= |blk.written|
      invariant chunk == blk.written[blk.start..j]
      decreases |blk.written| - j
    {
      chunk := chunk + [blk.written[j]];
      j := j + 1;
    }
  }

  /**
    UnloadEventList: every live entry, first block to head block, is handed to
    its kind's unload function, each block is unlinked, and the list is left
    empty. The result pairs the entries in unload order with the emptied list.
    The source states no precondition; `Linked` is the shape every list
    built by the other operations has, and the block walk relies on it.
   */
  method UnloadEventList<T>(l: List<T>) returns (unloaded: seq<T>, r: List<T>)
    requires Linked(l.blocks)
    ensures unloaded == Elements(l)
    ensures Elements(r) == [] && r.blocks == []
  {
    unloaded := [];
    var i := 0;
    while i < |l.blocks|
      invariant 0 <= i <= |l.blocks|
      invariant unloaded == Flat(l.blocks, 0, i)
      decreases |l.blocks| - i
    {
      var chunk := UnloadBlock(l.blocks[i]);
      unloaded := unloaded + chunk;
      i := i + 1;
    }
    r := List([]);
  }
}

=== FILE: event_log.dfy ===
/**
  Queries over the event log and the pruning of its history (EventLog in
  TTEventLog.cpp). Every query walks the event list with its iterator,
  forward or backward; EventList.WalkForward and EventList.WalkBackward show
  that such a walk visits exactly the flat sequence `Elements`, so the
  queries here are stated over that sequence.

  Only three kinds of entry matter to these queries: snapshots (with their
  restore time), top-level JsRT root calls (with their call time and whether
  a replay-to-restore snapshot is attached), and everything else.
 */
module EventLog {
  import opened Wrappers
  import opened EventList

  datatype Event =
    | Snapshot(restoreTime: int)
    | RootCall(callTime: int, hasRtrSnap: bool)
    | Other

  /**
    A point replay can restart from: a snapshot, or a root call that carries
    a replay-to-restore snapshot.
   */
  predicate ValidSnap(e: Event)
  {
    e.Snapshot? || (e.RootCall? && e.hasRtrSnap)
  }

  /** The time carried by a snapshot or a root call. */
  function TimeOf(e: Event): int
    requires e.Snapshot? || e.RootCall?
  {
    if e.Snapshot? then e.restoreTime else e.callTime
  }

  /** Backward scan over es[..i]: the newest index whose entry satisfies `p`. */
  function LastWhere(es: seq<Event>, i: nat, p: Event -> bool): (r: Option<nat>)
    requires i <= |es|
    ensures r.Some? ==> r.value < i && p(es[r.value])
                        && forall j :: r.value < j < i ==> !p(es[j])
    ensures r.None? ==> forall j :: 0 <= j < i ==> !p(es[j])
  {
    if i == 0 then None
    else if p(es[i - 1]) then Some(i - 1)
    else LastWhere(es, i - 1, p)
  }

  /** Forward scan over es[i..]: the oldest index whose entry satisfies `p`. */
  function FirstWhere(es: seq<Event>, i: nat, p: Event -> bool): (r: Option<nat>)
    requires i <= |es|
    ensures r.Some? ==> i <= r.value < |es| && p(es[r.value])
                        && forall j :: i <= j < r.value ==> !p(es[j])
    ensures r.None? ==> forall j :: i <= j < |es| ==> !p(es[j])
    decreases |es| - i
  {
    if i == |es| then None
    else if p(es[i]) then Some(i)
    else FirstWhere(es, i + 1, p)
  }

  /** A snapshot restore time or call time as the source returns it: -1 for none. */
  function TimeAt(es: seq<Event>, r: Option<nat>): int
    requires r.Some? ==> r.value < |es| && (es[r.value].Snapshot? || es[r.value].RootCall?)
  {
    if r.Some? then TimeOf(es[r.value]) else -1
  }

  /* ---------------- Root-call times ---------------- */

  /** Reference definition: the call times of the root calls in es[..i], oldest first. */
  function RootTimes(es: seq<Event>, i: nat): seq<int>
    requires i <= |es|
  {
    if i == 0 then []
    else RootTimes(es, i - 1) + (if es[i - 1].RootCall? then [es[i - 1].callTime] else [])
  }

  function IsRoot(e: Event): bool { e.RootCall? }

  /** GetFirstEventTimeInLog: the call time of the oldest root call, or -1. */
  function GetFirstEventTimeInLog(es: seq<Event>): int
  {
    TimeAt(es, FirstWhere(es, 0, IsRoot))
  }

  /** GetLastEventTimeInLog: the call time of the newest root call, or -1. */
  function GetLastEventTimeInLog(es: seq<Event>): int
  {
    TimeAt(es, LastWhere(es, |es|, IsRoot))
  }

  /**
    GetKthEventTimeInLog, loop state: `count` is the uint32 number of root calls
    seen before index i.
   */
  function KthFrom(es: seq<Event>, i: nat, k: nat, count: nat): int
    requires i <= |es|
    decreases |es| - i
  {
    if i == |es| then -1
    else if es[i].RootCall? then
      var c := (count + 1) % 0x1_0000_0000;
      if c == k then es[i].callTime else KthFrom(es, i + 1, k, c)
    else KthFrom(es, i + 1, k, count)
  }

  function GetKthEventTimeInLog(es: seq<Event>, k: nat): int
  {
    KthFrom(es, 0, k, 0)
  }

  /** Root calls seen before index i stay in place as the scan moves on. */
  lemma {:induction false} RootTimesPrefix(es: seq<Event>, i: nat, j: nat)
    requires i <= j <= |es|
    ensures |RootTimes(es, i)| <= |RootTimes(es, j)|
    ensures forall m :: 0 <= m < |RootTimes(es, i)| ==> RootTimes(es, j)[m] == RootTimes(es, i)[m]
    decreases j - i
  {
    if i < j {
      RootTimesPrefix(es, i, j - 1);
    }
  }

  /** No root call in es[i..j] leaves the root-call times unchanged. */
  lemma {:induction false} RootTimesNone(es: seq<Event>, i: nat, j: nat)
    requires i <= j <= |es|
    requires forall m :: i <= m < j ==> !es[m].RootCall?
    ensures RootTimes(es, j) == RootTimes(es, i)
    decreases j - i
  {
    if i < j {
      RootTimesNone(es, i, j - 1);
    }
  }

  lemma {:induction false} FirstRootIsFirstTime(es: seq<Event>)
    ensures GetFirstEventTimeInLog(es) ==
            (if |RootTimes(es, |es|)| > 0 then RootTimes(es, |es|)[0] else -1)
  {
    var r := FirstWhere(es, 0, IsRoot);
    if r.Some? {
      var j := r.value;
      RootTimesNone(es, 0, j);
      RootTimesPrefix(es, j + 1, |es|);
    } else {
      RootTimesNone(es, 0, |es|);
    }
  }

  lemma {:induction false} LastRootIsLastTime(es: seq<Event>)
    ensures GetLastEventTimeInLog(es) ==
            (if |RootTimes(es, |es|)| > 0 then RootTimes(es, |es|)[|RootTimes(es, |es|)| - 1] else -1)
  {
    var r := LastWhere(es, |es|, IsRoot);
    if r.Some? {
      RootTimesNone(es, r.value + 1, |es|);
    } else {
      RootTimesNone(es, 0, |es|);
    }
  }

  /**
    The position the uint32 counter actually matches for argument k: the k-th
    root call, except that k = 0 is only reached when the counter wraps, at
    the 2^32-th root call.
   */
  function EffectiveK(k: nat): (K: nat)
    requires k < 0x1_0000_0000
    ensures 0 < K <= 0x1_0000_0000 && K % 0x1_0000_0000 == k
  {
    if k == 0 then 0x1_0000_0000 else k
  }

  /**
    One step of the GetKthEventTimeInLog scan, stated against the reference:
    the counter, compared modulo 2^32, first equals k at the K-th root call.
   */
  lemma {:induction false} KthFromIsKth(es: seq<Event>, i: nat, k: nat, K: nat)
    requires i <= |es| && 0 < K <= 0x1_0000_0000 && k == K % 0x1_0000_0000
    requires |RootTimes(es, i)| < K
    ensures KthFrom(es, i, k, |RootTimes(es, i)|) ==
            (if K <= |RootTimes(es, |es|)| then RootTimes(es, |es|)[K - 1] else -1)
    decreases |es| - i
  {
    var n := |RootTimes(es, i)|;
    if i == |es| {
    } else if es[i].RootCall? {
      assert |RootTimes(es, i + 1)| == n + 1;
      RootTimesPrefix(es, i + 1, |es|);
      if n + 1 == K {
        assert (n + 1) % 0x1_0000_0000 == k;
        assert RootTimes(es, i + 1)[n] == es[i].callTime;
      } else {
        assert (n + 1) % 0x1_0000_0000 == n + 1 != k;
        KthFromIsKth(es, i + 1, k, K);
      }
    } else {
      assert RootTimes(es, i + 1) == RootTimes(es, i);
      KthFromIsKth(es, i + 1, k, K);
    }
  }

  /**
    For 0 < k < 2^32 the uint32 counter cannot wrap before it reaches k, so
    GetKthEventTimeInLog returns the call time of the k-th root call, or -1.
    For k = 0 it returns -1 unless the log holds 2^32 root calls, when the
    wrapped counter matches at the 2^32-th.
   */
  lemma KthEventTime(es: seq<Event>, k: nat)
    requires k < 0x1_0000_0000
    ensures var K := EffectiveK(k);
            GetKthEventTimeInLog(es, k) ==
            (if K <= |RootTimes(es, |es|)| then RootTimes(es, |es|)[K - 1] else -1)
    ensures k == 0 && |RootTimes(es, |es|)| < 0x1_0000_0000 ==> GetKthEventTimeInLog(es, k) == -1
  {
    KthFromIsKth(es, 0, k, EffectiveK(k));
  }

  /* ---------------- Snapshot lookups ---------------- */

  function SnapAtOrBefore(target: int): Event -> bool
  {
    (e: Event) => ValidSnap(e) && TimeOf(e) <= target
  }

  /**
    FindSnapTimeForEventTime: the newest snapshot (or root call with a
    replay-to-restore snapshot) whose time is at most `targetTime`, or -1; when
    the caller asks for it, also the restore time of the oldest snapshot whose
    restore time exceeds the one found, or -1.
   */
  function FindSnapTimeForEventTime(es: seq<Event>, targetTime: int, wantEnd: bool): (r: (int, Option<int>))
    ensures wantEnd <==> r.1.Some?
    ensures r.0 != -1 ==> r.0 <= targetTime
    ensures wantEnd && (forall j :: 0 <= j < |es| && es[j].Snapshot? ==> es[j].restoreTime <= r.0) ==>
              r.1 == Some(-1)
    ensures r.1.Some? && r.1.value != -1 ==>
              r.0 < r.1.value && exists j :: 0 <= j < |es| && es[j].Snapshot? && es[j].restoreTime == r.1.value
  {
    var snapTime := TimeAt(es, LastWhere(es, |es|, SnapAtOrBefore(targetTime)));
    var endTime := TimeAt(es, FirstWhere(es, 0, SnapshotAfter(snapTime)));
    (snapTime, if wantEnd then Some(endTime) else None)
  }

  function SnapshotAfter(t: int): Event -> bool
  {
    (e: Event) => e.Snapshot? && e.restoreTime > t
  }

  /** The snapshot time found is the newest candidate's, and -1 when there is none. */
  lemma FindSnapTimeIsNewest(es: seq<Event>, targetTime: int, wantEnd: bool, j: nat)
    requires j < |es| && ValidSnap(es[j]) && TimeOf(es[j]) <= targetTime
    requires forall m :: j < m < |es| ==> !(ValidSnap(es[m]) && TimeOf(es[m]) <= targetTime)
    ensures FindSnapTimeForEventTime(es, targetTime, wantEnd).0 == TimeOf(es[j])
  {
    var p := SnapAtOrBefore(targetTime);
    var r := LastWhere(es, |es|, p);
    assert p(es[j]);
    assert r.Some?;
    assert r.value == j;
  }

  lemma FindSnapTimeNone(es: seq<Event>, targetTime: int, wantEnd: bool)
    requires forall m :: 0 <= m < |es| ==> !(ValidSnap(es[m]) && TimeOf(es[m]) <= targetTime)
    ensures FindSnapTimeForEventTime(es, targetTime, wantEnd).0 == -1
  {
    var p := SnapAtOrBefore(targetTime);
    var r := LastWhere(es, |es|, p);
    assert forall m :: 0 <= m < |es| ==> !p(es[m]);
    assert r.None?;
  }

  /** The end time reported is the oldest snapshot restore time beyond the snapshot time. */
  lemma FindSnapEndIsOldestLater(es: seq<Event>, targetTime: int, j: nat)
    requires j < |es| && es[j].Snapshot?
    requires es[j].restoreTime > FindSnapTimeForEventTime(es, targetTime, true).0
    requires forall m :: 0 <= m < j && es[m].Snapshot? ==>
               es[m].restoreTime <= FindSnapTimeForEventTime(es, targetTime, true).0
    ensures FindSnapTimeForEventTime(es, targetTime, true).1 == Some(es[j].restoreTime)
  {
    var snapTime := FindSnapTimeForEventTime(es, targetTime, true).0;
    var p := SnapshotAfter(snapTime);
    var r := FirstWhere(es, 0, p);
    assert p(es[j]);
    assert r.Some?;
    assert r.value == j;
  }

  function SnapshotAtOrBefore(target: int): Event -> bool
  {
    (e: Event) => e.Snapshot? && e.restoreTime <= target
  }

  function SnapshotLaterThan(t: int): Event -> bool
  {
    (e: Event) => e.Snapshot? && t < e.restoreTime
  }

  /**
    GetSnapShotBoundInterval: the backward walk stops at the newest snapshot
    restored at or before `targetTime` (interval start); the forward walk then
    resumes from that same entry and stops at the first snapshot restored
    after the start (interval end). Either is -1 when not found; when the start
    is not found the forward walk never runs.
   */
  function GetSnapShotBoundInterval(es: seq<Event>, targetTime: int): (r: (int, int))
    ensures r.0 == -1 ==> r.1 == -1 || exists j :: 0 <= j < |es| && es[j].Snapshot? && es[j].restoreTime == -1
    ensures r.1 != -1 ==> r.0 < r.1 && targetTime < r.1
  {
    var s := LastWhere(es, |es|, SnapshotAtOrBefore(targetTime));
    if s.None? then (-1, -1)
    else
      var start := es[s.value].restoreTime;
      var e := FirstWhere(es, s.value, SnapshotLaterThan(start));
      assert e.Some? ==> e.value != s.value && !SnapshotAtOrBefore(targetTime)(es[e.value]);
      (start, TimeAt(es, e))
  }

  /**
    The interval start is the newest snapshot at or before the target: every
    such snapshot is followed (or matched) by one restored at the start.
   */
  lemma SnapShotBoundIsTight(es: seq<Event>, targetTime: int)
    ensures var r := GetSnapShotBoundInterval(es, targetTime);
            && (r.0 != -1 ==> r.0 <= targetTime)
            && (forall m :: 0 <= m < |es| && es[m].Snapshot? && es[m].restoreTime <= targetTime
                  ==> exists j :: m <= j < |es| && es[j].Snapshot? && es[j].restoreTime == r.0)
  {
    var s := LastWhere(es, |es|, SnapshotAtOrBefore(targetTime));
    if s.Some? {
      forall m | 0 <= m < |es| && es[m].Snapshot? && es[m].restoreTime <= targetTime
        ensures exists j :: m <= j < |es| && es[j].Snapshot? && es[j].restoreTime == es[s.value].restoreTime
      {
        assert SnapshotAtOrBefore(targetTime)(es[m]);
        assert m <= s.value;
      }
    } else {
      assert forall m :: 0 <= m < |es| ==> !SnapshotAtOrBefore(targetTime)(es[m]);
    }
  }

  /**
    With the newest snapshot at or before the target at index s, the interval
    starts at its restore time and ends at the restore time of the next
    snapshot in the log, or -1 when no snapshot follows it.
   */
  lemma SnapShotBoundEnd(es: seq<Event>, targetTime: int, s: nat)
    requires s < |es| && es[s].Snapshot? && es[s].restoreTime <= targetTime
    requires forall m :: s < m < |es| && es[m].Snapshot? ==> es[m].restoreTime > targetTime
    ensures GetSnapShotBoundInterval(es, targetTime).0 == es[s].restoreTime
    ensures (forall m :: s < m < |es| ==> !es[m].Snapshot?) ==> GetSnapShotBoundInterval(es, targetTime).1 == -1
    ensures forall j :: s < j < |es| && es[j].Snapshot? && (forall m :: s < m < j ==> !es[m].Snapshot?) ==>
              GetSnapShotBoundInterval(es, targetTime).1 == es[j].restoreTime
  {
    var p := SnapshotAtOrBefore(targetTime);
    var last := LastWhere(es, |es|, p);
    assert p(es[s]);
    assert last == Some(s);
    var q := SnapshotLaterThan(es[s].restoreTime);
    var e := FirstWhere(es, s, q);
    assert !q(es[s]);
    forall m | s < m < |es|
      ensures q(es[m]) <==> es[m].Snapshot?
    {
    }
    if e.Some? {
      assert s < e.value;
    }
  }

  /** With no snapshot at or before the target neither walk finds anything. */
  lemma SnapShotBoundNone(es: seq<Event>, targetTime: int)
    requires forall m :: 0 <= m < |es| && es[m].Snapshot? ==> es[m].restoreTime > targetTime
    ensures GetSnapShotBoundInterval(es, targetTime) == (-1, -1)
  {
    var p := SnapshotAtOrBefore(targetTime);
    assert forall m :: 0 <= m < |es| ==> !p(es[m]);
  }

  function SnapshotBefore(t: int): Event -> bool
  {
    (e: Event) => e.Snapshot? && e.restoreTime < t
  }

  /** GetPreviousSnapshotInterval: the newest snapshot restored strictly before `currentSnapTime`, or -1. */
  function GetPreviousSnapshotInterval(es: seq<Event>, currentSnapTime: int): (r: int)
    ensures r != -1 ==> r < currentSnapTime
    ensures r != -1 ==> exists j :: 0 <= j < |es| && es[j].Snapshot? && es[j].restoreTime == r
  {
    TimeAt(es, LastWhere(es, |es|, SnapshotBefore(currentSnapTime)))
  }

  lemma PreviousSnapshotIsNewest(es: seq<Event>, currentSnapTime: int, j: nat)
    requires j < |es| && es[j].Snapshot? && es[j].restoreTime < currentSnapTime
    requires forall m :: j < m < |es| && es[m].Snapshot? ==> es[m].restoreTime >= currentSnapTime
    ensures GetPreviousSnapshotInterval(es, currentSnapTime) == es[j].restoreTime
  {
    var p := SnapshotBefore(currentSnapTime);
    var r := LastWhere(es, |es|, p);
    assert p(es[j]);
    assert r.Some?;
    assert r.value == j;
  }

  /* ---------------- Pruning ---------------- */

  /** The number of snapshots in es[i..]. */
  function SnapsFrom(es: seq<Event>, i: nat): nat
    requires i <= |es|
    decreases |es| - i
  {
    if i == |es| then 0 else (if es[i].Snapshot? then 1 else 0) + SnapsFrom(es, i + 1)
  }

  lemma {:induction false} SnapsFromMonotone(es: seq<Event>, i: nat, j: nat)
    requires i <= j <= |es|
    ensures SnapsFrom(es, j) <= SnapsFrom(es, i)
    decreases j - i
  {
    if i < j {
      SnapsFromMonotone(es, i + 1, j);
    }
  }

  /**
    The backward walk of PruneLogLength: `t` is the tail iterator's index (-1
    once it has walked off the front of the log) and `m` the snapshots still
    to pass. The walk stops on the snapshot that brings `m` to zero without
    stepping past it. Returns the final (t, m).
   */
  function TailScan(es: seq<Event>, t: int, m: nat): (r: (int, nat))
    requires -1 <= t < |es|
    ensures -1 <= r.0 <= t
    decreases t + 1
  {
    if m == 0 || t < 0 then (t, m)
    else
      var m2 := if es[t].Snapshot? then m - 1 else m;
      if m2 != 0 then TailScan(es, t - 1, m2) else (t, 0)
  }

  /**
    The index of the oldest entry PruneLogLength keeps: where the tail
    iterator stopped when it passed all `snapHistoryLength` snapshots and is
    still valid, otherwise 0 (nothing is deleted).
   */
  function PruneStart(es: seq<Event>, snapHistoryLength: nat): (t: nat)
    ensures t <= |es|
  {
    var r := TailScan(es, |es| - 1, snapHistoryLength);
    if r.1 == 0 && r.0 >= 0 then r.0 else 0
  }

  lemma {:induction false} TailScanFinds(es: seq<Event>, t: int, m: nat)
    requires -1 <= t < |es| && m > 0
    ensures var r := TailScan(es, t, m);
            SnapsFrom(es, 0) >= SnapsFrom(es, t + 1) + m ==>
              && r.1 == 0 && 0 <= r.0 && es[r.0].Snapshot?
              && SnapsFrom(es, r.0) == SnapsFrom(es, t + 1) + m
    ensures SnapsFrom(es, 0) < SnapsFrom(es, t + 1) + m ==> TailScan(es, t, m).1 > 0
    decreases t + 1
  {
    if t >= 0 {
      SnapsFromMonotone(es, 0, t);
      var m2 := if es[t].Snapshot? then m - 1 else m;
      if m2 != 0 {
        TailScanFinds(es, t - 1, m2);
      }
    }
  }

  /**
    PruneLogLength keeps the log from the `snapHistoryLength`-th newest
    snapshot onwards, so exactly that many snapshots survive and the log
    starts at one of them; a log with fewer snapshots is left whole. With a
    history length of 0 the walk never moves and everything but the newest
    entry is deleted.
   */
  lemma PruneKeepsHistory(es: seq<Event>, snapHistoryLength: nat)
    ensures snapHistoryLength == 0 ==> PruneStart(es, 0) == (if |es| == 0 then 0 else |es| - 1)
    ensures snapHistoryLength > 0 && SnapsFrom(es, 0) < snapHistoryLength
            ==> PruneStart(es, snapHistoryLength) == 0
    ensures snapHistoryLength > 0 && SnapsFrom(es, 0) >= snapHistoryLength
            ==> var t := PruneStart(es, snapHistoryLength);
                t < |es| && es[t].Snapshot? && SnapsFrom(es, t) == snapHistoryLength
  {
    if snapHistoryLength > 0 {
      TailScanFinds(es, |es| - 1, snapHistoryLength);
    }
  }

  /** PruneLogLength on the block list: delete entries from the front up to the kept tail. */
  method PruneLogLength(l: List<Event>, cap: nat, snapHistoryLength: nat) returns (r: List<Event>)
    requires Valid(l, cap)
    ensures Valid(r, cap)
    ensures Elements(r) == Elements(l)[PruneStart(Elements(l), snapHistoryLength)..]
  {
    var es := Elements(l);
    var t := PruneStart(es, snapHistoryLength);
    r := l;
    var d := 0;
    while d < t
      invariant d <= t
      invariant Valid(r, cap)
      invariant Elements(r) == es[d..]
    {
      r := DeleteFront(r, cap);
      d := d + 1;
    }
  }

  /** Deleting the oldest entry of a non-empty list, as the front iterator does it. */
  function DeleteFront<T>(l: List<T>, cap: nat): (r: List<T>)
    requires Valid(l, cap) && Elements(l) != []
    ensures Valid(r, cap) && Elements(r) == Elements(l)[1..]
  {
    var res := DeleteFirstEntry(l, cap, 0, l.blocks[0].start);
    DeleteFirstEntryRemoves(l, cap, 0, l.blocks[0].start);
    res.value
  }
}

=== FILE: jit_registry.dfy ===
/**
  ServerContextManager (JITServer.cpp): the out-of-process JIT server's
  registry of live thread contexts and script contexts. The registry lock only
  serialises these operations, so each is one atomic transition here.

  Context objects are identified by their (decoded) addresses, 0 being null.
  The maps hold every context object that exists with the state the registry
  reads from it (closed flag, reference count, owning thread context, process
  handle); the two sets are the registry's hash sets. Closing a context sets
  its closed flag.
 */
module JitRegistry {
  type ContextId = nat

  datatype ThreadContext = ThreadContext(processHandle: nat, closed: bool, refCount: nat)

  datatype ScriptContext = ScriptContext(thread: ContextId, closed: bool, refCount: nat)

  datatype Registry = Registry(
    threads: map<ContextId, ThreadContext>,
    scripts: map<ContextId, ScriptContext>,
    threadContexts: set<ContextId>,
    scriptContexts: set<ContextId>)

  /** Registered contexts exist, and every script context's thread context exists. */
  ghost predicate Inv(r: Registry)
  {
    && r.threadContexts <= r.threads.Keys
    && r.scriptContexts <= r.scripts.Keys
    && 0 !in r.threads && 0 !in r.scripts
    && forall s :: s in r.scripts ==> r.scripts[s].thread in r.threads
  }

  function Empty(): (r: Registry)
    ensures Inv(r) && r.threadContexts == {} && r.scriptContexts == {}
  {
    Registry(map[], map[], {}, {})
  }

  /** The process handle of the thread context owning script context `s`. */
  function OwnerHandle(r: Registry, s: ContextId): nat
    requires Inv(r) && s in r.scripts
  {
    r.threads[r.scripts[s].thread].processHandle
  }

  function RegisterThreadContext(r: Registry, t: ContextId): (r': Registry)
    requires Inv(r) && t in r.threads
    ensures Inv(r')
    ensures r'.threadContexts == r.threadContexts + {t}
    ensures r' == r.(threadContexts := r'.threadContexts)
  {
    r.(threadContexts := r.threadContexts + {t})
  }

  function RegisterScriptContext(r: Registry, s: ContextId): (r': Registry)
    requires Inv(r) && s in r.scripts
    ensures Inv(r')
    ensures r'.scriptContexts == r.scriptContexts + {s}
    ensures r' == r.(scriptContexts := r'.scriptContexts)
  {
    r.(scriptContexts := r.scriptContexts + {s})
  }

  function UnRegisterScriptContext(r: Registry, s: ContextId): (r': Registry)
    requires Inv(r)
    ensures Inv(r')
    ensures r'.scriptContexts == r.scriptContexts - {s}
    ensures r' == r.(scriptContexts := r'.scriptContexts)
  {
    r.(scriptContexts := r.scriptContexts - {s})
  }

  /** A script context with its closed flag set, unless it already was. */
  function CloseScript(c: ScriptContext): ScriptContext
  {
    if !c.closed then c.(closed := true) else c
  }

  function CloseThread(c: ThreadContext): ThreadContext
  {
    if !c.closed then c.(closed := true) else c
  }

  /**
    UnRegisterThreadContext: the thread context leaves its set, and every
    registered script context it owns is closed and leaves its set. Each
    script context is handled on its own, so the hash-set order does not
    matter.
   */
  function UnRegisterThreadContext(r: Registry, t: ContextId): (r': Registry)
    requires Inv(r)
    ensures Inv(r')
    ensures r'.threadContexts == r.threadContexts - {t}
    ensures r'.threads == r.threads && r'.scripts.Keys == r.scripts.Keys
    ensures forall s :: s in r.scriptContexts ==>
              (s in r'.scriptContexts <==> r.scripts[s].thread != t)
    ensures r'.scriptContexts <= r.scriptContexts
    ensures forall s :: s in r.scriptContexts && r.scripts[s].thread == t ==> r'.scripts[s].closed
    ensures forall s :: s in r.scripts && (s !in r.scriptContexts || r.scripts[s].thread != t) ==>
              r'.scripts[s] == r.scripts[s]
  {
    var scripts := map s | s in r.scripts ::
                     if s in r.scriptContexts && r.scripts[s].thread == t then CloseScript(r.scripts[s])
                     else r.scripts[s];
    Registry(r.threads, scripts, r.threadContexts - {t},
             set s | s in r.scriptContexts && r.scripts[s].thread != t)
  }

  /**
    CleanUpForProcess: first every registered script context whose thread
    context belongs to process `h` is closed and unregistered, then every
    registered thread context of `h`.
   */
  function CleanUpForProcess(r: Registry, h: nat): (r': Registry)
    requires Inv(r)
    ensures Inv(r')
    ensures r'.threads.Keys == r.threads.Keys && r'.scripts.Keys == r.scripts.Keys
    ensures forall s :: s in r.scriptContexts ==>
              (s in r'.scriptContexts <==> OwnerHandle(r, s) != h)
    ensures forall t :: t in r.threadContexts ==>
              (t in r'.threadContexts <==> r.threads[t].processHandle != h)
    ensures r'.scriptContexts <= r.scriptContexts && r'.threadContexts <= r.threadContexts
    ensures forall s :: s in r.scriptContexts && OwnerHandle(r, s) == h ==> r'.scripts[s].closed
    ensures forall t :: t in r.threadContexts && r.threads[t].processHandle == h ==> r'.threads[t].closed
    ensures forall s :: s in r.scripts && (s !in r.scriptContexts || OwnerHandle(r, s) != h) ==>
              r'.scripts[s] == r.scripts[s]
    ensures forall t :: t in r.threads && (t !in r.threadContexts || r.threads[t].processHandle != h) ==>
              r'.threads[t] == r.threads[t]
  {
    var scripts := map s | s in r.scripts ::
                     if s in r.scriptContexts && OwnerHandle(r, s) == h then CloseScript(r.scripts[s])
                     else r.scripts[s];
    var threads := map t | t in r.threads ::
                     if t in r.threadContexts && r.threads[t].processHandle == h then CloseThread(r.threads[t])
                     else r.threads[t];
    Registry(threads, scripts,
             set t | t in r.threadContexts && r.threads[t].processHandle != h,
             set s | s in r.scriptContexts && OwnerHandle(r, s) != h)
  }

  /** A script context the JIT server may still work for. */
  predicate ScriptLive(r: Registry, s: ContextId)
  {
    && s in r.scriptContexts && s in r.scripts
    && !r.scripts[s].closed
    && r.scripts[s].thread in r.threads
    && !r.threads[r.scripts[s].thread].closed
  }

  predicate ThreadLive(r: Registry, t: ContextId)
  {
    t in r.threadContexts && t in r.threads && !r.threads[t].closed
  }

  /**
    CheckLivenessAndAddref for a script context: only a registered, open
    script context of an open thread context is referenced (both reference
    counts go up); otherwise nothing changes.
   */
  function CheckScriptLivenessAndAddref(r: Registry, s: ContextId): (res: (bool, Registry))
    requires Inv(r)
    ensures res.0 <==> ScriptLive(r, s)
    ensures !res.0 ==> res.1 == r
    ensures Inv(res.1)
    ensures res.0 ==> var t := r.scripts[s].thread;
              && res.1.scripts == r.scripts[s := r.scripts[s].(refCount := r.scripts[s].refCount + 1)]
              && res.1.threads == r.threads[t := r.threads[t].(refCount := r.threads[t].refCount + 1)]
              && res.1.threadContexts == r.threadContexts && res.1.scriptContexts == r.scriptContexts
  {
    if s in r.scriptContexts then
      var c := r.scripts[s];
      var tc := r.threads[c.thread];
      if !c.closed && !tc.closed then
        (true, r.(scripts := r.scripts[s := c.(refCount := c.refCount + 1)],
                  threads := r.threads[c.thread := tc.(refCount := tc.refCount + 1)]))
      else (false, r)
    else (false, r)
  }

  function CheckThreadLivenessAndAddref(r: Registry, t: ContextId): (res: (bool, Registry))
    requires Inv(r)
    ensures res.0 <==> ThreadLive(r, t)
    ensures !res.0 ==> res.1 == r
    ensures Inv(res.1)
    ensures res.0 ==> res.1 == r.(threads := r.threads[t := r.threads[t].(refCount := r.threads[t].refCount + 1)])
  {
    if t in r.threadContexts && !r.threads[t].closed then
      (true, r.(threads := r.threads[t := r.threads[t].(refCount := r.threads[t].refCount + 1)]))
    else (false, r)
  }

  /** Once a thread context is unregistered, none of its script contexts passes the liveness check. */
  lemma UnRegisteredThreadIsDead(r: Registry, t: ContextId, s: ContextId)
    requires Inv(r) && s in r.scripts && r.scripts[s].thread == t
    ensures !CheckScriptLivenessAndAddref(UnRegisterThreadContext(r, t), s).0
    ensures !CheckThreadLivenessAndAddref(UnRegisterThreadContext(r, t), t).0
  {
  }

  /** After a process is cleaned up, none of its contexts passes the liveness check. */
  lemma CleanedProcessIsDead(r: Registry, h: nat, s: ContextId, t: ContextId)
    requires Inv(r) && s in r.scripts && OwnerHandle(r, s) == h
    requires t in r.threads && r.threads[t].processHandle == h
    ensures !CheckScriptLivenessAndAddref(CleanUpForProcess(r, h), s).0
    ensures !CheckThreadLivenessAndAddref(CleanUpForProcess(r, h), t).0
  {
  }
}

=== FILE: jit_server.dfy ===
/**
  The JIT server's RPC entry points and ServerCallWrapper (JITServer.cpp).

  HRESULTs are their 32-bit patterns. The AutoReleaseThreadContext /
  AutoReleaseScriptContext guards the wrapper builds are declared outside this
  model; they are taken to run the registry's liveness check (throwing
  ContextClosedException when it fails) and to release the reference when the
  call ends, so a wrapped call leaves reference counts as it found them.
  Context handles are modelled by the context's address: EncodePointer and
  DecodePointer are inverse and do not appear.
 */
module JitServer {
  import opened Wrappers
  import opened JitRegistry

  const S_OK: nat := 0
  const E_ACCESSDENIED: nat := 0x8007_0005
  const E_OUTOFMEMORY: nat := 0x8007_000E
  const E_ABORT: nat := 0x8000_4004
  const VBSERR_OutOfStack: nat := 0x800A_001C
  const RPC_S_INVALID_ARG: nat := 87

  /** A 32-bit HRESULT with the severity (failure) bit set. */
  predicate Failed(hr: nat) { 0x8000_0000 <= hr < 0x1_0000_0000 }

  /**
    HRESULT_FROM_WIN32: a code that is zero or already negative as a signed
    32-bit value passes through; any other keeps its low 16 bits under the
    Win32 facility (7) with the failure bit set.
   */
  function HResultFromWin32(x: nat): (hr: nat)
    requires x < 0x1_0000_0000
    ensures hr < 0x1_0000_0000
  {
    if x == 0 || x >= 0x8000_0000 then x else x % 0x1_0000 + 0x8007_0000
  }

  /** HRESULT_CODE and HRESULT_FACILITY. */
  function Code(hr: nat): nat { hr % 0x1_0000 }
  function Facility(hr: nat): nat { (hr / 0x1_0000) % 0x2000 }

  /**
    Only ERROR_SUCCESS converts to S_OK; every other code becomes a failure,
    and a positive code keeps its low 16 bits as the HRESULT code under the
    Win32 facility.
   */
  lemma HResultFromWin32Spec(x: nat)
    requires x < 0x1_0000_0000
    ensures HResultFromWin32(x) == S_OK <==> x == 0
    ensures x != 0 ==> Failed(HResultFromWin32(x))
    ensures 0 < x < 0x8000_0000 ==>
              Code(HResultFromWin32(x)) == x % 0x1_0000 && Facility(HResultFromWin32(x)) == 7
  {
  }

  /** How the wrapped call ended. */
  datatype Outcome =
    | Returned(hr: nat)
    | ContextClosed
    | OutOfMemory
    | StackOverflow
    | OperationAborted
    | UnknownException

  /** An unknown exception reaching the wrapper fails fast. */
  datatype Fatal = FailFast

  /**
    ServerCallWrapper for a thread context: ContextClosedException (from the
    guard or the call) becomes E_ACCESSDENIED, out-of-memory E_OUTOFMEMORY,
    stack overflow VBSERR_OutOfStack and an aborted operation E_ABORT. An
    E_OUTOFMEMORY result, however it arose, is replaced by the Win32 error the
    memory operations recorded during the call, when there is one.
   */
  function ServerCallWrapper(live: bool, run: Outcome, lastError: nat): (r: Result<nat, Fatal>)
    requires lastError < 0x1_0000_0000
    ensures r.Err? <==> live && run.UnknownException?
    ensures !live ==> r == Ok(E_ACCESSDENIED)
    ensures live && run.Returned? && run.hr != E_OUTOFMEMORY ==> r == Ok(run.hr)
    ensures live && run.ContextClosed? ==> r == Ok(E_ACCESSDENIED)
    ensures live && run.StackOverflow? ==> r == Ok(VBSERR_OutOfStack)
    ensures live && run.OperationAborted? ==> r == Ok(E_ABORT)
    ensures live && (run.OutOfMemory? || run == Returned(E_OUTOFMEMORY)) ==>
              r == Ok(if lastError == 0 then E_OUTOFMEMORY else HResultFromWin32(lastError))
  {
    var hr :=
      if !live then Ok(E_ACCESSDENIED)
      else match run
        case Returned(h) => Ok(h)
        case ContextClosed => Ok(E_ACCESSDENIED)
        case OutOfMemory => Ok(E_OUTOFMEMORY)
        case StackOverflow => Ok(VBSERR_OutOfStack)
        case OperationAborted => Ok(E_ABORT)
        case UnknownException => Err(FailFast);
    if hr.Ok? && hr.value == E_OUTOFMEMORY && HResultFromWin32(lastError) != S_OK then
      Ok(HResultFromWin32(lastError))
    else hr
  }

  /** The wrapper succeeds only when the call itself returned S_OK. */
  lemma WrapperOkOnlyFromCall(live: bool, run: Outcome, lastError: nat)
    requires lastError < 0x1_0000_0000
    ensures ServerCallWrapper(live, run, lastError) == Ok(S_OK) <==> live && run == Returned(S_OK)
  {
    HResultFromWin32Spec(lastError);
  }

  /**
    The script-context overload: its own guard's ContextClosedException is
    E_ACCESSDENIED; otherwise the thread-context wrapper decides.
   */
  function ServerScriptCallWrapper(scriptLive: bool, threadLive: bool, run: Outcome, lastError: nat)
    : (r: Result<nat, Fatal>)
    requires lastError < 0x1_0000_0000
    ensures !scriptLive ==> r == Ok(E_ACCESSDENIED)
    ensures scriptLive ==> r == ServerCallWrapper(threadLive, run, lastError)
  {
    if !scriptLive then Ok(E_ACCESSDENIED) else ServerCallWrapper(threadLive, run, lastError)
  }

  /* ---------------- Entry points ---------------- */

  /** The result of an entry point: its HRESULT, its out-parameter and the registry after it. */
  datatype Reply = Reply(hr: nat, out: nat, registry: Registry)

  /**
    ServerInitializeThreadContext. `outPresent` says whether the caller passed
    both out-parameters; `newContext` is the new context's address (allocation
    failing when `allocFails`) and `region` the pre-reserved region address.
    The out-parameters are zeroed before anything else happens. `out` holds the
    returned handle; the region address is returned alongside it.
   */
  function ServerInitializeThreadContext(r: Registry, outPresent: bool, newContext: ContextId, processHandle: nat,
                                         allocFails: bool, region: nat): (res: (Reply, nat))
    requires Inv(r) && newContext != 0 && newContext !in r.threads
    ensures Inv(res.0.registry)
    ensures !outPresent ==> res.0 == Reply(RPC_S_INVALID_ARG, 0, r)
    ensures outPresent && allocFails ==> res == (Reply(E_OUTOFMEMORY, 0, r), 0)
    ensures outPresent && !allocFails ==>
              && res.0.hr == S_OK && res.0.out == newContext && res.1 == region
              && ThreadLive(res.0.registry, newContext)
              && res.0.registry.scriptContexts == r.scriptContexts
              && res.0.registry.threadContexts == r.threadContexts + {newContext}
  {
    if !outPresent then (Reply(RPC_S_INVALID_ARG, 0, r), 0)
    else if allocFails then (Reply(E_OUTOFMEMORY, 0, r), 0)
    else
      var r1 := r.(threads := r.threads[newContext := ThreadContext(processHandle, false, 1)]);
      var r2 := RegisterThreadContext(r1, newContext);
      (Reply(S_OK, newContext, r2), region)
  }

  /**
    ServerInitializeScriptContext: a null handle or out-parameter is rejected
    and the out-parameter is zeroed; then, under ServerCallWrapper for the
    thread context, a new script context owned by that thread context is
    allocated and registered. When the allocation or the registration runs
    out of memory (`allocFails`) nothing is registered, the out-parameter
    stays null and the wrapper reports the failure, using the Win32 error
    `lastError` the memory operations recorded when there is one.
   */
  function ServerInitializeScriptContext(r: Registry, outPresent: bool, thread: ContextId, newContext: ContextId,
                                         allocFails: bool, lastError: nat)
    : (res: Reply)
    requires Inv(r) && newContext != 0 && newContext !in r.scripts && lastError < 0x1_0000_0000
    ensures Inv(res.registry)
    ensures (!outPresent || thread == 0) ==> res == Reply(RPC_S_INVALID_ARG, 0, r)
    ensures outPresent && thread != 0 && !ThreadLive(r, thread) ==> res == Reply(E_ACCESSDENIED, 0, r)
    ensures outPresent && thread != 0 && ThreadLive(r, thread) && allocFails ==>
              && res.out == 0 && res.registry == r && Failed(res.hr)
              && res.hr == (if lastError == 0 then E_OUTOFMEMORY else HResultFromWin32(lastError))
    ensures outPresent && thread != 0 && ThreadLive(r, thread) && !allocFails ==>
              && res.hr == S_OK && res.out == newContext
              && ScriptLive(res.registry, newContext) && res.registry.scripts[newContext].thread == thread
              && res.registry.threadContexts == r.threadContexts
    ensures res.hr == S_OK <==> outPresent && thread != 0 && ThreadLive(r, thread) && !allocFails
  {
    if !outPresent || thread == 0 then Reply(RPC_S_INVALID_ARG, 0, r)
    else
      var live := ThreadLive(r, thread);
      var run := if allocFails then OutOfMemory else Returned(S_OK);
      var hr := ServerCallWrapper(live, run, lastError).value;
      HResultFromWin32Spec(lastError);
      if !live || allocFails then Reply(hr, 0, r)
      else
        var r1 := r.(scripts := r.scripts[newContext := ScriptContext(thread, false, 1)]);
        Reply(hr, newContext, RegisterScriptContext(r1, newContext))
  }

  /**
    ServerCleanupThreadContext: the caller's handle is set to null before the
    guarded call, which closes the thread context and unregisters it (with its
    script contexts). `handleAddrPresent` says whether the handle's address
    was passed; `out` is the caller's handle afterwards.
   */
  function ServerCleanupThreadContext(r: Registry, handleAddrPresent: bool, thread: ContextId): (res: Reply)
    requires Inv(r)
    ensures Inv(res.registry)
    ensures !handleAddrPresent || thread == 0 ==> res == Reply(RPC_S_INVALID_ARG, thread, r)
    ensures handleAddrPresent && thread != 0 ==> res.out == 0
    ensures handleAddrPresent && thread != 0 && !ThreadLive(r, thread) ==> res == Reply(E_ACCESSDENIED, 0, r)
    ensures handleAddrPresent && thread != 0 && ThreadLive(r, thread) ==>
              && res.hr == S_OK
              && thread !in res.registry.threadContexts
              && thread in res.registry.threads && res.registry.threads[thread].closed
              && forall s :: s in res.registry.scriptContexts ==> res.registry.scripts[s].thread != thread
  {
    if !handleAddrPresent || thread == 0 then Reply(RPC_S_INVALID_ARG, thread, r)
    else if !ThreadLive(r, thread) then Reply(E_ACCESSDENIED, 0, r)
    else
      var r1 := r.(threads := r.threads[thread := CloseThread(r.threads[thread])]);
      Reply(S_OK, 0, UnRegisterThreadContext(r1, thread))
  }

  /**
    ServerCloseScriptContext: under the script-context wrapper, which guards
    the script context and then its thread context, the context is closed and
    unregistered.
   */
  function ServerCloseScriptContext(r: Registry, script: ContextId): (res: Reply)
    requires Inv(r)
    ensures Inv(res.registry)
    ensures script == 0 ==> res == Reply(RPC_S_INVALID_ARG, 0, r)
    ensures script != 0 && !CloseGuardsPass(r, script) ==> res == Reply(E_ACCESSDENIED, 0, r)
    ensures res.hr == S_OK <==> script != 0 && CloseGuardsPass(r, script)
    ensures res.hr == S_OK ==>
              && script !in res.registry.scriptContexts
              && script in res.registry.scripts && res.registry.scripts[script].closed
              && res.registry.threadContexts == r.threadContexts
              && res.registry.threads == r.threads
              && res.registry.scriptContexts == r.scriptContexts - {script}
              && forall c :: c in r.scripts && c != script ==>
                               (c in res.registry.scripts && res.registry.scripts[c] == r.scripts[c])
  {
    if script == 0 then Reply(RPC_S_INVALID_ARG, 0, r)
    else
      var scriptLive := ScriptLive(r, script);
      var threadLive := scriptLive && ThreadLive(r, r.scripts[script].thread);
      var hr := ServerScriptCallWrapper(scriptLive, threadLive, Returned(S_OK), 0).value;
      if !scriptLive || !threadLive then Reply(hr, 0, r)
      else
        var r1 := r.(scripts := r.scripts[script := CloseScript(r.scripts[script])]);
        Reply(hr, 0, UnRegisterScriptContext(r1, script))
  }

  /** Both guards of the script-context wrapper: the script context and its thread context are live. */
  predicate CloseGuardsPass(r: Registry, script: ContextId)
  {
    ScriptLive(r, script) && ThreadLive(r, r.scripts[script].thread)
  }

  /**
    A registered, open script context whose open thread context is no longer
    registered passes the script guard but not the thread guard: closing it
    is refused and nothing changes.
   */
  lemma CloseRefusedForUnregisteredThread()
    ensures var r := Registry(map[1 := ThreadContext(7, false, 1)], map[2 := ScriptContext(1, false, 1)], {}, {2});
            && Inv(r) && ScriptLive(r, 2)
            && ServerCloseScriptContext(r, 2) == Reply(E_ACCESSDENIED, 0, r)
  {
  }

  datatype CleanupFault = ScriptContextNotClosed

  /**
    ServerCleanupScriptContext: after the handle checks the caller's handle is
    set to null and the context is deleted. It should already be closed: a
    debug build stops on a context that is not (a fault here), a release build
    deletes it anyway. Deleting a context that is still registered leaves the
    registry naming a context that no longer exists.
   */
  function ServerCleanupScriptContext(r: Registry, debugBuild: bool, handleAddrPresent: bool, script: ContextId)
    : (res: Result<Reply, CleanupFault>)
    requires Inv(r)
    ensures !handleAddrPresent || script == 0 ==> res == Ok(Reply(RPC_S_INVALID_ARG, script, r))
    ensures res.Err? <==>
              debugBuild && handleAddrPresent && script != 0 && script in r.scripts && !r.scripts[script].closed
    ensures res.Ok? && handleAddrPresent && script != 0 ==>
              && res.value.hr == S_OK && res.value.out == 0 && script !in res.value.registry.scripts
              && res.value.registry.threads == r.threads
              && res.value.registry.scriptContexts == r.scriptContexts
              && forall c :: c in r.scripts && c != script ==>
                               (c in res.value.registry.scripts && res.value.registry.scripts[c] == r.scripts[c])
    ensures res.Ok? ==> (Inv(res.value.registry) <==> !(handleAddrPresent && script != 0 && script in r.scriptContexts))
  {
    if !handleAddrPresent || script == 0 then Ok(Reply(RPC_S_INVALID_ARG, script, r))
    else if debugBuild && script in r.scripts && !r.scripts[script].closed then Err(ScriptContextNotClosed)
    else Ok(Reply(S_OK, 0, r.(scripts := r.scripts - {script})))
  }

  /**
    Closing a live script context and then cleaning it up never trips the
    closed-context check, keeps the registry consistent, and removes the
    context from it.
   */
  lemma CloseThenCleanupScript(r: Registry, debugBuild: bool, script: ContextId)
    requires Inv(r) && script != 0 && CloseGuardsPass(r, script)
    ensures var closed := ServerCloseScriptContext(r, script);
            var cleaned := ServerCleanupScriptContext(closed.registry, debugBuild, true, script);
            && closed.hr == S_OK && cleaned.Ok? && cleaned.value.hr == S_OK
            && Inv(cleaned.value.registry)
            && script !in cleaned.value.registry.scripts
            && script !in cleaned.value.registry.scriptContexts
  {
  }

  /**
    ServerCleanupProcess: the registry is cleaned up for the process (its
    script contexts, then its thread contexts, are closed and unregistered,
    everything else kept) and S_OK returned whatever was registered.
   */
  function ServerCleanupProcess(r: Registry, processHandle: nat): (res: Reply)
    requires Inv(r)
    ensures res.hr == S_OK && Inv(res.registry)
    ensures res.registry == CleanUpForProcess(r, processHandle)
    ensures forall t :: t in res.registry.threadContexts ==> res.registry.threads[t].processHandle != processHandle
  {
    Reply(S_OK, 0, CleanUpForProcess(r, processHandle))
  }

  /**
    ServerIsNativeAddr. The out-parameter starts false (`out` 1 for true);
    under the guard, an address in the pre-reserved region is native; outside
    it, the non-pre-reserved allocator is asked only when some JIT code may
    live outside the region, and otherwise the answer is false.
   */
  function ServerIsNativeAddr(r: Registry, resultPresent: bool, thread: ContextId,
                              inPreReserved: bool, allCodeInPreReserved: bool, inOtherAllocator: bool)
    : (res: Reply)
    requires Inv(r)
    ensures res.registry == r
    ensures !resultPresent || thread == 0 ==> res.hr == RPC_S_INVALID_ARG && res.out == 0
    ensures resultPresent && thread != 0 && !ThreadLive(r, thread) ==> res == Reply(E_ACCESSDENIED, 0, r)
    ensures res.out == 1 ==> res.hr == S_OK && (inPreReserved || (!allCodeInPreReserved && inOtherAllocator))
    ensures res.hr == S_OK && (inPreReserved || (!allCodeInPreReserved && inOtherAllocator)) ==> res.out == 1
  {
    if !resultPresent || thread == 0 then Reply(RPC_S_INVALID_ARG, 0, r)
    else if !ThreadLive(r, thread) then Reply(E_ACCESSDENIED, 0, r)
    else
      var native := if inPreReserved then true
                    else if !allCodeInPreReserved then inOtherAllocator
                    else false;
      Reply(S_OK, if native then 1 else 0, r)
  }
}

=== FILE: jsrt.dfy ===
/**
  Decision logic of the JSRT API layer (Jsrt.cpp): the context check every
  context-bound API runs first, the runtime-attribute mask, value-type
  classification, typed-array type codes and element sizes, and the argument
  validation of the typed-array, external-buffer, call and construct APIs.
  The engine work that follows a successful validation (allocating the
  array, calling the function) is represented by what would be handed to it.
 */
module Jsrt {
  import opened Wrappers

  /** The JSRT error codes this model uses. */
  datatype JsErrorCode =
    | JsNoError
    | JsErrorInvalidArgument
    | JsErrorNullArgument
    | JsErrorNoCurrentContext
    | JsErrorInExceptionState
    | JsErrorInDisabledState
    | JsErrorHeapEnumInProgress
    | JsErrorInObjectBeforeCollectCallback
    | JsErrorInProfileCallback
    | JsErrorInThreadServiceCallback
    | JsErrorFatal
    | JsErrorArgumentNotObject
    | JsErrorOutOfMemory
    | JsErrorScriptException
    | JsErrorScriptCompile
    | JsErrorScriptTerminated
    | JsErrorPropertyNotSymbol

  // ---------------------------------------------------------------------------
  // CheckContext
  // ---------------------------------------------------------------------------

  /** The runtime state CheckContext reads from a current context. */
  datatype ContextState = ContextState(
    hasRecycler: bool,
    heapEnumInProgress: bool,
    inObjectBeforeCollectCallback: bool,
    executionDisabled: bool,
    inProfileCallback: bool,
    inThreadServiceCallback: bool,
    hasRecordedException: bool)

  /**
    Reference definition: every runtime-state condition that forbids the call,
    in the order of their priority. The recycler conditions only count when a
    recycler exists; the before-collect one only when it is not allowed.
   */
  function Failures(c: ContextState, allowInObjectBeforeCollectCallback: bool): seq<JsErrorCode>
  {
    (if c.hasRecycler && c.heapEnumInProgress then [JsErrorHeapEnumInProgress] else [])
    + (if !allowInObjectBeforeCollectCallback && c.hasRecycler && c.inObjectBeforeCollectCallback
       then [JsErrorInObjectBeforeCollectCallback] else [])
    + (if c.executionDisabled then [JsErrorInDisabledState] else [])
    + (if c.inProfileCallback then [JsErrorInProfileCallback] else [])
    + (if c.inThreadServiceCallback then [JsErrorInThreadServiceCallback] else [])
    + (if c.hasRecordedException then [JsErrorInExceptionState] else [])
  }

  /**
    CheckContext: no context is JsErrorNoCurrentContext; without runtime
    verification any context passes; otherwise the highest-priority failure
    is reported, and JsNoError only when there is none.
   */
  function CheckContext(current: Option<ContextState>, verifyRuntimeState: bool,
                        allowInObjectBeforeCollectCallback: bool): (e: JsErrorCode)
    ensures current.None? <==> e == JsErrorNoCurrentContext
    ensures current.Some? && !verifyRuntimeState ==> e == JsNoError
    ensures current.Some? && verifyRuntimeState ==>
              var f := Failures(current.value, allowInObjectBeforeCollectCallback);
              e == if f == [] then JsNoError else f[0]
  {
    match current
    case None => JsErrorNoCurrentContext
    case Some(c) =>
      if !verifyRuntimeState then JsNoError
      else if c.hasRecycler && c.heapEnumInProgress then JsErrorHeapEnumInProgress
      else if !allowInObjectBeforeCollectCallback && c.hasRecycler && c.inObjectBeforeCollectCallback
      then JsErrorInObjectBeforeCollectCallback
      else if c.executionDisabled then JsErrorInDisabledState
      else if c.inProfileCallback then JsErrorInProfileCallback
      else if c.inThreadServiceCallback then JsErrorInThreadServiceCallback
      else if c.hasRecordedException then JsErrorInExceptionState
      else JsNoError
  }

  /**
    A recorded exception is only reported when every other condition is clear,
    and allowing the before-collect callback never turns a passing context
    into a failing one.
   */
  lemma CheckContextPriority(c: ContextState, allow: bool)
    ensures CheckContext(Some(c), true, allow) == JsErrorInExceptionState <==>
              c.hasRecordedException && Failures(c, allow) == [JsErrorInExceptionState]
    ensures CheckContext(Some(c), true, false) == JsNoError ==> CheckContext(Some(c), true, true) == JsNoError
  {
  }

  // ---------------------------------------------------------------------------
  // JsCreateRuntime
  // ---------------------------------------------------------------------------

  /** A runtime attribute flag; OtherAttribute is a bit no named attribute uses. */
  datatype RuntimeAttribute =
    | DisableBackgroundWork
    | AllowScriptInterrupt
    | EnableIdleProcessing
    | DisableEval
    | DisableNativeCodeGeneration
    | EnableExperimentalFeatures
    | DispatchSetExceptionsToDebugger
    | EnableSimdjsFeature
    | SerializeLibraryByteCode
    | OtherAttribute(bit: nat)

  /** JsRuntimeAttributesAll; the debug-config build adds SerializeLibraryByteCode. */
  function AttributesAll(debugConfigOptions: bool): set<RuntimeAttribute>
  {
    {DisableBackgroundWork, AllowScriptInterrupt, EnableIdleProcessing, DisableEval,
     DisableNativeCodeGeneration, EnableExperimentalFeatures, DispatchSetExceptionsToDebugger,
     EnableSimdjsFeature}
    + (if debugConfigOptions then {SerializeLibraryByteCode} else {})
  }

  /**
    The argument checks of JsCreateRuntime. Ok carries whether the allocation
    policy allows background work, with which the runtime is then created.
   */
  function CreateRuntime(attributes: set<RuntimeAttribute>, debugConfigOptions: bool,
                         runtimeHandlePresent: bool): (r: Result<bool, JsErrorCode>)
    ensures !runtimeHandlePresent ==> r == Err(JsErrorNullArgument)
    ensures runtimeHandlePresent ==>
              (r == Err(JsErrorInvalidArgument) <==>
                 exists a :: a in attributes && a !in AttributesAll(debugConfigOptions))
    ensures r.Ok? <==> runtimeHandlePresent && attributes <= AttributesAll(debugConfigOptions)
    ensures r.Ok? ==> (r.value <==> DisableBackgroundWork !in attributes)
  {
    if !runtimeHandlePresent then Err(JsErrorNullArgument)
    else if attributes - AttributesAll(debugConfigOptions) != {} then Err(JsErrorInvalidArgument)
    else Ok(DisableBackgroundWork !in attributes)
  }

  /** Every attribute set a release build accepts is accepted by a debug-config build, but not conversely. */
  lemma DebugBuildAcceptsMore(attributes: set<RuntimeAttribute>)
    ensures CreateRuntime(attributes, false, true).Ok? ==> CreateRuntime(attributes, true, true).Ok?
    ensures CreateRuntime({SerializeLibraryByteCode}, true, true).Ok?
    ensures CreateRuntime({SerializeLibraryByteCode}, false, true) == Err(JsErrorInvalidArgument)
  {
    assert SerializeLibraryByteCode in {SerializeLibraryByteCode};
  }

  // ---------------------------------------------------------------------------
  // Type ids and JsGetValueType
  // ---------------------------------------------------------------------------

  /** The nine typed-array kinds of the public API, in JsTypedArrayType order. */
  datatype ArrayKind = Int8 | Uint8 | Uint8Clamped | Int16 | Uint16 | Int32 | Uint32 | Float32 | Float64

  /**
    The engine's type id of a value. TypedArrayType is one of the nine public
    typed arrays; OtherTypedArrayType is any further id in the typed-array
    range, carrying its numeric id; OtherType is any id not named here.
   */
  datatype TypeId =
    | UndefinedType | NullType | BooleanType
    | IntegerType | NumberType | Int64NumberType | UInt64NumberType
    | StringType | FunctionType | ErrorType
    | ArrayType | NativeIntArrayType | CopyOnAccessNativeIntArrayType | NativeFloatArrayType | ES5ArrayType
    | SymbolType | ArrayBufferType | DataViewType
    | TypedArrayType(kind: ArrayKind)
    | OtherTypedArrayType(id: int)
    | OtherType(id: int)

  datatype JsValueType =
    | JsUndefined | JsNumber | JsString | JsBoolean | JsObject | JsFunction | JsError
    | JsArray | JsSymbol | JsArrayBuffer | JsTypedArray | JsDataView | JsNull

  predicate IsNumberTypeId(t: TypeId)
  {
    t == IntegerType || t == NumberType || t == Int64NumberType || t == UInt64NumberType
  }

  /** DynamicObject::IsAnyArrayTypeId: the JavaScript array representations. */
  predicate IsAnyArrayTypeId(t: TypeId)
  {
    t == ArrayType || t == NativeIntArrayType || t == CopyOnAccessNativeIntArrayType
    || t == NativeFloatArrayType || t == ES5ArrayType
  }

  /** TypedArrayBase::Is: the type id lies in the typed-array range. */
  predicate IsTypedArrayTypeId(t: TypeId)
  {
    t.TypedArrayType? || t.OtherTypedArrayType?
  }

  /**
    JsGetValueType. The copy-on-access array id only has its own case when the
    build enables copy-on-access arrays; otherwise it falls to the default.
   */
  function GetValueType(t: TypeId, copyOnAccessArrays: bool): (v: JsValueType)
    ensures v == JsNumber <==> IsNumberTypeId(t)
    ensures v == JsArray <==> IsAnyArrayTypeId(t) && (t == CopyOnAccessNativeIntArrayType ==> copyOnAccessArrays)
    ensures v == JsTypedArray <==> IsTypedArrayTypeId(t)
    ensures v == JsObject <==> t.OtherType? || (t == CopyOnAccessNativeIntArrayType && !copyOnAccessArrays)
  {
    match t
    case UndefinedType => JsUndefined
    case NullType => JsNull
    case BooleanType => JsBoolean
    case IntegerType | NumberType | Int64NumberType | UInt64NumberType => JsNumber
    case StringType => JsString
    case FunctionType => JsFunction
    case ErrorType => JsError
    case ArrayType | NativeIntArrayType | NativeFloatArrayType | ES5ArrayType => JsArray
    case CopyOnAccessNativeIntArrayType =>
      if copyOnAccessArrays then JsArray
      else if IsTypedArrayTypeId(t) then JsTypedArray else JsObject
    case SymbolType => JsSymbol
    case ArrayBufferType => JsArrayBuffer
    case DataViewType => JsDataView
    case _ => if IsTypedArrayTypeId(t) then JsTypedArray else JsObject
  }

  // ---------------------------------------------------------------------------
  // Typed-array type codes and element sizes
  // ---------------------------------------------------------------------------

  /** The numeric value of JsArrayTypeInt8; the other kinds follow it in order. */
  const JS_ARRAY_TYPE_INT8: int := 1

  function Ordinal(k: ArrayKind): nat
  {
    match k
    case Int8 => 0 case Uint8 => 1 case Uint8Clamped => 2 case Int16 => 3 case Uint16 => 4
    case Int32 => 5 case Uint32 => 6 case Float32 => 7 case Float64 => 8
  }

  /** The JsTypedArrayType value of a kind. */
  function ArrayTypeCode(k: ArrayKind): int
  {
    JS_ARRAY_TYPE_INT8 + Ordinal(k)
  }

  /** The switch over JsTypedArrayType: None for a value no case names. */
  function KindOfCode(code: int): (r: Option<ArrayKind>)
    ensures r.Some? ==> ArrayTypeCode(r.value) == code
    ensures r.None? <==> code < JS_ARRAY_TYPE_INT8 || code > JS_ARRAY_TYPE_INT8 + 8
  {
    if code == JS_ARRAY_TYPE_INT8 then Some(Int8)
    else if code == JS_ARRAY_TYPE_INT8 + 1 then Some(Uint8)
    else if code == JS_ARRAY_TYPE_INT8 + 2 then Some(Uint8Clamped)
    else if code == JS_ARRAY_TYPE_INT8 + 3 then Some(Int16)
    else if code == JS_ARRAY_TYPE_INT8 + 4 then Some(Uint16)
    else if code == JS_ARRAY_TYPE_INT8 + 5 then Some(Int32)
    else if code == JS_ARRAY_TYPE_INT8 + 6 then Some(Uint32)
    else if code == JS_ARRAY_TYPE_INT8 + 7 then Some(Float32)
    else if code == JS_ARRAY_TYPE_INT8 + 8 then Some(Float64)
    else None
  }

  lemma KindCodeRoundTrip(k: ArrayKind)
    ensures KindOfCode(ArrayTypeCode(k)) == Some(k)
  {
  }

  /**
    The numeric type id of a typed array. The compile-time assertions fix the
    nine public typed-array ids at the same distances from TypeIds_Int8Array
    as their JsTypedArrayType values from JsArrayTypeInt8.
   */
  function TypeIdNumber(t: TypeId, int8ArrayTypeId: int): int
    requires IsTypedArrayTypeId(t)
  {
    if t.TypedArrayType? then int8ArrayTypeId + Ordinal(t.kind) else t.id
  }

  /** GetTypedArrayType: a constant offset from the type id. */
  function GetTypedArrayType(t: TypeId, int8ArrayTypeId: int): (code: int)
    requires IsTypedArrayTypeId(t)
    ensures t.TypedArrayType? ==> code == ArrayTypeCode(t.kind) && KindOfCode(code) == Some(t.kind)
  {
    TypeIdNumber(t, int8ArrayTypeId) + (JS_ARRAY_TYPE_INT8 - int8ArrayTypeId)
  }

  /** The byte size of one element of each kind. */
  function ElementSize(k: ArrayKind): (n: nat)
    ensures n == 1 || n == 2 || n == 4 || n == 8
  {
    match k
    case Int8 | Uint8 | Uint8Clamped => 1
    case Int16 | Uint16 => 2
    case Int32 | Uint32 | Float32 => 4
    case Float64 => 8
  }

  /** The width in bits of the C type each kind stores. */
  function BitWidth(k: ArrayKind): nat
  {
    match k
    case Int8 | Uint8 | Uint8Clamped => 8
    case Int16 | Uint16 => 16
    case Int32 | Uint32 | Float32 => 32
    case Float64 => 64
  }

  lemma ElementSizeIsWidth(k: ArrayKind)
    ensures 8 * ElementSize(k) == BitWidth(k)
  {
  }

  /** What JsGetTypedArrayStorage reports besides the buffer itself. */
  datatype StorageReply = StorageReply(code: JsErrorCode, arrayType: Option<int>, elementSize: Option<int>)

  /**
    JsGetTypedArrayStorage: a value that is not a typed array is rejected; the
    array type is reported when asked for; the element size of an id outside
    the nine public kinds is 1 together with JsErrorFatal.
   */
  function GetTypedArrayStorage(t: TypeId, int8ArrayTypeId: int, wantArrayType: bool,
                                wantElementSize: bool): (r: StorageReply)
    ensures !IsTypedArrayTypeId(t) <==> r == StorageReply(JsErrorInvalidArgument, None, None)
    ensures IsTypedArrayTypeId(t) && wantArrayType ==> r.arrayType == Some(GetTypedArrayType(t, int8ArrayTypeId))
    ensures IsTypedArrayTypeId(t) && !wantElementSize ==> r.code == JsNoError && r.elementSize.None?
    ensures t.TypedArrayType? && wantElementSize ==>
              r.code == JsNoError && r.elementSize == Some(ElementSize(t.kind))
    ensures t.OtherTypedArrayType? && wantElementSize ==> r.code == JsErrorFatal && r.elementSize == Some(1)
  {
    if !IsTypedArrayTypeId(t) then StorageReply(JsErrorInvalidArgument, None, None)
    else
      var arrayType := if wantArrayType then Some(GetTypedArrayType(t, int8ArrayTypeId)) else None;
      if !wantElementSize then StorageReply(JsNoError, arrayType, None)
      else match t
        case TypedArrayType(k) => StorageReply(JsNoError, arrayType, Some(ElementSize(k)))
        case _ => StorageReply(JsErrorFatal, arrayType, Some(1))
  }

  // ---------------------------------------------------------------------------
  // JsCreateTypedArray
  // ---------------------------------------------------------------------------

  /** The base argument of JsCreateTypedArray: none, an ArrayBuffer, or any other object. */
  datatype BaseArray = NoBase | ArrayBufferBase(ref: nat) | OtherBase(ref: nat)

  /** One argument of the constructor call: undefined, a passed reference, or a number. */
  datatype ArgValue = UndefinedArg | RefArg(ref: nat) | NumberArg(n: nat)

  /** The typed-array constructor call JsCreateTypedArray issues. */
  datatype ConstructCall = ConstructCall(kind: ArrayKind, args: seq<ArgValue>)

  function CreateTypedArray(arrayType: int, base: BaseArray, byteOffset: nat, elementLength: nat,
                            resultPresent: bool): (r: Result<ConstructCall, JsErrorCode>)
    ensures !resultPresent ==> r == Err(JsErrorNullArgument)
    ensures r.Err? ==> r.error == JsErrorNullArgument || r.error == JsErrorInvalidArgument
    ensures r.Ok? <==> resultPresent && (byteOffset != 0 ==> base.ArrayBufferBase?)
                       && (elementLength != 0 ==> !base.OtherBase?)
                       && KindOfCode(arrayType).Some?
    ensures r.Ok? ==> ArrayTypeCode(r.value.kind) == arrayType
    ensures r.Ok? ==> |r.value.args| == (if base.ArrayBufferBase? then 4 else 2)
    ensures r.Ok? ==> r.value.args[0] == UndefinedArg
                      && r.value.args[1] == (if base.NoBase? then NumberArg(elementLength) else RefArg(base.ref))
    ensures r.Ok? && base.ArrayBufferBase? ==>
              r.value.args[2] == NumberArg(byteOffset) && r.value.args[3] == NumberArg(elementLength)
  {
    if !resultPresent then Err(JsErrorNullArgument)
    else if byteOffset != 0 && !base.ArrayBufferBase? then Err(JsErrorInvalidArgument)
    else if elementLength != 0 && !(base.NoBase? || base.ArrayBufferBase?) then Err(JsErrorInvalidArgument)
    else
      var first := if base.NoBase? then NumberArg(elementLength) else RefArg(base.ref);
      var args := if base.ArrayBufferBase?
                  then [UndefinedArg, first, NumberArg(byteOffset), NumberArg(elementLength)]
                  else [UndefinedArg, first];
      match KindOfCode(arrayType)
      case None => Err(JsErrorInvalidArgument)
      case Some(k) => Ok(ConstructCall(k, args))
  }

  /**
    Every public array type passes argument validation over an ArrayBuffer
    with any offset and length, and from a length alone, and the constructor
    of that kind is invoked. Whether the constructor itself accepts the offset
    and length (it throws RangeError otherwise) is outside this model.
   */
  lemma CreateTypedArrayAcceptsEveryKind(k: ArrayKind, buffer: nat, byteOffset: nat, elementLength: nat)
    ensures var r := CreateTypedArray(ArrayTypeCode(k), ArrayBufferBase(buffer), byteOffset, elementLength, true);
            r.Ok? && r.value.kind == k
    ensures var r := CreateTypedArray(ArrayTypeCode(k), NoBase, 0, elementLength, true);
            r.Ok? && r.value.kind == k && r.value.args == [UndefinedArg, NumberArg(elementLength)]
  {
    KindCodeRoundTrip(k);
  }

  // ---------------------------------------------------------------------------
  // External data
  // ---------------------------------------------------------------------------

  /** JsCreateExternalArrayBuffer's checks; JsNoError means the buffer is created. */
  function CreateExternalArrayBuffer(dataNull: bool, byteLength: nat, resultPresent: bool): (e: JsErrorCode)
    ensures e == JsNoError <==> resultPresent && (dataNull ==> byteLength == 0)
    ensures resultPresent && dataNull && byteLength > 0 ==> e == JsErrorInvalidArgument
  {
    if !resultPresent then JsErrorNullArgument
    else if dataNull && byteLength > 0 then JsErrorInvalidArgument
    else JsNoError
  }

  /** What JsSetIndexedPropertiesToExternalData reads from its target object. */
  datatype TargetObject = TargetObject(typeId: TypeId, isDynamic: bool, isExternal: bool)

  /** The objects that may receive external indexed data: plain dynamic objects only. */
  predicate MayHoldExternalData(o: TargetObject)
  {
    && o.isDynamic
    && !IsAnyArrayTypeId(o.typeId)
    && !IsTypedArrayTypeId(o.typeId)
    && o.typeId != ArrayBufferType
    && o.typeId != DataViewType
    && !o.isExternal
  }

  /** JsSetIndexedPropertiesToExternalData: Ok carries the kind of the typed array that is attached. */
  function SetIndexedPropertiesToExternalData(o: TargetObject, dataNull: bool, arrayType: int,
                                              elementLength: nat): (r: Result<ArrayKind, JsErrorCode>)
    ensures r.Err? ==> r.error == JsErrorInvalidArgument
    ensures r.Ok? <==> MayHoldExternalData(o) && (dataNull ==> elementLength == 0) && KindOfCode(arrayType).Some?
    ensures r.Ok? ==> ArrayTypeCode(r.value) == arrayType
  {
    if !MayHoldExternalData(o) then Err(JsErrorInvalidArgument)
    else if dataNull && elementLength > 0 then Err(JsErrorInvalidArgument)
    else match KindOfCode(arrayType)
      case None => Err(JsErrorInvalidArgument)
      case Some(k) => Ok(k)
  }

  /** Null data with a positive length is refused by both external-data APIs. */
  lemma NullDataRejected(o: TargetObject, arrayType: int, length: nat)
    requires length > 0
    ensures CreateExternalArrayBuffer(true, length, true) == JsErrorInvalidArgument
    ensures SetIndexedPropertiesToExternalData(o, true, arrayType, length) == Err(JsErrorInvalidArgument)
  {
  }

  // ---------------------------------------------------------------------------
  // JsCallFunction, JsConstructObject
  // ---------------------------------------------------------------------------

  /** The reply of a call API: its error code, and whether the caller's result slot was cleared. */
  datatype CallReply = CallReply(code: JsErrorCode, resultCleared: bool)

  /**
    The argument loop of both call APIs: each argument's incoming-reference
    verdict in turn, stopping at the first that fails (JsNoError when all pass).
   */
  function FirstArgFailure(argChecks: seq<JsErrorCode>): (r: JsErrorCode)
    ensures r == JsNoError <==> forall i :: 0 <= i < |argChecks| ==> argChecks[i] == JsNoError
    ensures r != JsNoError ==>
              exists i :: 0 <= i < |argChecks| && argChecks[i] == r
                          && forall j :: 0 <= j < i ==> argChecks[j] == JsNoError
  {
    if argChecks == [] then JsNoError
    else if argChecks[0] != JsNoError then argChecks[0]
    else
      var rest := FirstArgFailure(argChecks[1..]);
      assert forall i :: 1 <= i < |argChecks| ==> argChecks[i] == argChecks[1..][i - 1];
      rest
  }

  /**
    JsCallFunction's checks. The result slot, which is optional, is cleared
    before the context is checked. `functionCheck` is the verdict of the
    incoming-function validation and `argChecks` the verdict of the
    incoming-reference validation of each argument, in order. JsNoError means
    the call is made with `cargs` arguments.
   */
  function CallFunction(contextCheck: JsErrorCode, functionCheck: JsErrorCode, argsNull: bool,
                        cargs: nat, argChecks: seq<JsErrorCode>, resultPresent: bool): (r: CallReply)
    requires cargs < 0x1_0000 && |argChecks| == cargs
    ensures r.resultCleared <==> resultPresent
    ensures r.code == JsNoError <==>
              && contextCheck == JsNoError && functionCheck == JsNoError && cargs != 0 && !argsNull
              && forall i :: 0 <= i < cargs ==> argChecks[i] == JsNoError
    ensures contextCheck == JsNoError && functionCheck == JsNoError && (cargs == 0 || argsNull) ==>
              r.code == JsErrorInvalidArgument
    ensures contextCheck == JsNoError && functionCheck == JsNoError && cargs != 0 && !argsNull ==>
              r.code == FirstArgFailure(argChecks)
  {
    var code :=
      if contextCheck != JsNoError then contextCheck
      else if functionCheck != JsNoError then functionCheck
      else if cargs == 0 || argsNull then JsErrorInvalidArgument
      else FirstArgFailure(argChecks);
    CallReply(code, resultPresent)
  }

  /**
    JsConstructObject's checks: its result slot is required, and is cleared
    only once the context and the function have been accepted.
   */
  function ConstructObject(contextCheck: JsErrorCode, functionCheck: JsErrorCode, argsNull: bool,
                           cargs: nat, argChecks: seq<JsErrorCode>, resultPresent: bool): (r: CallReply)
    requires cargs < 0x1_0000 && |argChecks| == cargs
    ensures r.resultCleared <==> contextCheck == JsNoError && functionCheck == JsNoError && resultPresent
    ensures r.code == JsNoError <==>
              && contextCheck == JsNoError && functionCheck == JsNoError && resultPresent && cargs != 0 && !argsNull
              && forall i :: 0 <= i < cargs ==> argChecks[i] == JsNoError
    ensures contextCheck == JsNoError && functionCheck == JsNoError && !resultPresent ==>
              r.code == JsErrorNullArgument
    ensures contextCheck == JsNoError && functionCheck == JsNoError && resultPresent && cargs != 0 && !argsNull ==>
              r.code == FirstArgFailure(argChecks)
  {
    if contextCheck != JsNoError then CallReply(contextCheck, false)
    else if functionCheck != JsNoError then CallReply(functionCheck, false)
    else if !resultPresent then CallReply(JsErrorNullArgument, false)
    else if cargs == 0 || argsNull then CallReply(JsErrorInvalidArgument, true)
    else CallReply(FirstArgFailure(argChecks), true)
  }

  /**
    With a valid context and function, the two APIs accept exactly the same
    argument lists, and reject the others with the same code.
   */
  lemma CallAndConstructAgree(argsNull: bool, cargs: nat, argChecks: seq<JsErrorCode>)
    requires cargs < 0x1_0000 && |argChecks| == cargs
    ensures CallFunction(JsNoError, JsNoError, argsNull, cargs, argChecks, true).code
            == ConstructObject(JsNoError, JsNoError, argsNull, cargs, argChecks, true).code
  {
  }

  /** One argument that fails its reference check is enough for both APIs to refuse the call with its code. */
  lemma BadArgumentRejected(argChecks: seq<JsErrorCode>, i: nat)
    requires 0 < |argChecks| < 0x1_0000 && i < |argChecks| && argChecks[i] != JsNoError
    requires forall j :: 0 <= j < i ==> argChecks[j] == JsNoError
    ensures CallFunction(JsNoError, JsNoError, false, |argChecks|, argChecks, true).code == argChecks[i]
    ensures ConstructObject(JsNoError, JsNoError, false, |argChecks|, argChecks, true).code == argChecks[i]
  {
    var r := FirstArgFailure(argChecks);
    var k :| 0 <= k < |argChecks| && argChecks[k] == r && forall j :: 0 <= j < k ==> argChecks[j] == JsNoError;
    assert !(k < i) && !(i < k);
  }

  // ---------------------------------------------------------------------------
  // JsAddRef, JsRelease
  // ---------------------------------------------------------------------------

  /**
    The common prologue of JsAddRef and JsRelease: the optional count is
    zeroed; a tagged number is never collected, so the call ends at once with a
    count of 1. Any other reference goes on to the recycler (HandOff).
   */
  datatype RefReply = Done(code: JsErrorCode, count: Option<nat>) | HandOff(count: Option<nat>)

  function RefCountPrologue(isTaggedNumber: bool, countPresent: bool): (r: RefReply)
    ensures isTaggedNumber <==> r.Done?
    ensures r.Done? ==> r.code == JsNoError
    ensures countPresent <==> r.count.Some?
    ensures r.count.Some? ==> r.count.value == (if isTaggedNumber then 1 else 0)
  {
    var zeroed := if countPresent then Some(0) else None;
    if isTaggedNumber then Done(JsNoError, if countPresent then Some(1) else None)
    else HandOff(zeroed)
  }
}

=== FILE: jsrtutils.dfy ===
/**
  Helpers of the V8 shim over JSRT (jsrtutils.cc): number creation, property
  descriptors, property ids from names and values, array membership and
  external data.

  Every JSRT call a helper makes is an oracle: the helper receives the
  result that call returns (a value or an error code) as a parameter, and
  the model states how the helper combines them.
 */
module JsrtUtils {
  import opened Wrappers
  import opened Jsrt
  import opened Ascii

  const INT_MAX: int := 0x7FFF_FFFF

  // ---------------------------------------------------------------------------
  // UintToValue
  // ---------------------------------------------------------------------------

  /** The JSRT number constructor UintToValue calls, with the value it passes. */
  datatype NumberCall = IntToNumber(i: int) | DoubleToNumber(d: int)

  /** The 32-bit signed reading of an unsigned 32-bit value. */
  function AsInt32(v: nat): int
    requires v < 0x1_0000_0000
  {
    if v < 0x8000_0000 then v else v - 0x1_0000_0000
  }

  /**
    UintToValue: the integer constructor when the value read as a signed
    32-bit integer is not negative, the double constructor otherwise; either
    way the number created has the original value.
   */
  function UintToValue(value: nat): (c: NumberCall)
    requires value < 0x1_0000_0000
    ensures c.IntToNumber? <==> value <= INT_MAX
    ensures c == IntToNumber(value) || c == DoubleToNumber(value)
  {
    if AsInt32(value) >= 0 then IntToNumber(AsInt32(value)) else DoubleToNumber(value)
  }

  // ---------------------------------------------------------------------------
  // Property descriptors
  // ---------------------------------------------------------------------------

  datatype OptionValue = NoOption | TrueOption | FalseOption

  datatype Field = Writable | Enumerable | Configurable | Value | Getter | Setter

  /**
    A descriptor object as the properties set on it: each flag and each
    reference is None when the object has no such property.
   */
  datatype Descriptor = Descriptor(
    writable: Option<bool>, enumerable: Option<bool>, configurable: Option<bool>,
    value: Option<nat>, getter: Option<nat>, setter: Option<nat>)

  /** The property a flag option sets, if any. */
  function Flag(o: OptionValue): (b: Option<bool>)
    ensures b.None? <==> o == NoOption
    ensures b.Some? ==> (b.value <==> o == TrueOption)
  {
    if o == NoOption then None else Some(o == TrueOption)
  }

  /** The order in which CreatePropertyDescriptor sets the fields. */
  function Order(f: Field): nat
  {
    match f
    case Writable => 0 case Enumerable => 1 case Configurable => 2
    case Value => 3 case Getter => 4 case Setter => 5
  }

  /** Whether CreatePropertyDescriptor sets field `f` for these arguments. */
  predicate Sets(f: Field, writable: OptionValue, enumerable: OptionValue, configurable: OptionValue,
                 value: Option<nat>, getter: Option<nat>, setter: Option<nat>)
  {
    match f
    case Writable => writable != NoOption
    case Enumerable => enumerable != NoOption
    case Configurable => configurable != NoOption
    case Value => value.Some?
    case Getter => getter.Some?
    case Setter => setter.Some?
  }

  /**
    CreatePropertyDescriptor: a new object (JsCreateObject's error is passed
    on) on which each flag that is not None and each reference that is not
    the invalid reference is set, in field order; `setError` is what
    JsSetProperty returns for each field, and the first failure is returned.
   */
  function CreatePropertyDescriptor(writable: OptionValue, enumerable: OptionValue, configurable: OptionValue,
                                    value: Option<nat>, getter: Option<nat>, setter: Option<nat>,
                                    createError: JsErrorCode, setError: Field -> JsErrorCode)
    : (r: Result<Descriptor, JsErrorCode>)
    ensures createError != JsNoError ==> r == Err(createError)
    ensures r.Ok? <==> (createError == JsNoError &&
              forall f :: Sets(f, writable, enumerable, configurable, value, getter, setter) ==> setError(f) == JsNoError)
    ensures r.Ok? ==> r.value == Descriptor(Flag(writable), Flag(enumerable), Flag(configurable), value, getter, setter)
    ensures r.Err? ==> r.error != JsNoError
    ensures r.Err? && createError == JsNoError ==>
              exists f :: Sets(f, writable, enumerable, configurable, value, getter, setter) && r.error == setError(f)
  {
    if createError != JsNoError then Err(createError)
    else if writable != NoOption && setError(Writable) != JsNoError then Err(setError(Writable))
    else if enumerable != NoOption && setError(Enumerable) != JsNoError then Err(setError(Enumerable))
    else if configurable != NoOption && setError(Configurable) != JsNoError then Err(setError(Configurable))
    else if value.Some? && setError(Value) != JsNoError then Err(setError(Value))
    else if getter.Some? && setError(Getter) != JsNoError then Err(setError(Getter))
    else if setter.Some? && setError(Setter) != JsNoError then Err(setError(Setter))
    else
      EveryFieldPasses(writable, enumerable, configurable, value, getter, setter, setError);
      Ok(Descriptor(Flag(writable), Flag(enumerable), Flag(configurable), value, getter, setter))
  }

  lemma EveryFieldPasses(writable: OptionValue, enumerable: OptionValue, configurable: OptionValue,
                          value: Option<nat>, getter: Option<nat>, setter: Option<nat>, setError: Field -> JsErrorCode)
    requires writable != NoOption ==> setError(Writable) == JsNoError
    requires enumerable != NoOption ==> setError(Enumerable) == JsNoError
    requires configurable != NoOption ==> setError(Configurable) == JsNoError
    requires value.Some? ==> setError(Value) == JsNoError
    requires getter.Some? ==> setError(Getter) == JsNoError
    requires setter.Some? ==> setError(Setter) == JsNoError
    ensures forall f :: Sets(f, writable, enumerable, configurable, value, getter, setter) ==> setError(f) == JsNoError
  {
    forall f | Sets(f, writable, enumerable, configurable, value, getter, setter) ensures setError(f) == JsNoError {
      match f
      case Writable =>
      case Enumerable =>
      case Configurable =>
      case Value =>
      case Getter =>
      case Setter =>
    }
  }

  /** The error returned is that of the first field, in field order, whose assignment fails. */
  lemma FirstFailureWins(writable: OptionValue, enumerable: OptionValue, configurable: OptionValue,
                         value: Option<nat>, getter: Option<nat>, setter: Option<nat>,
                         setError: Field -> JsErrorCode, f: Field)
    requires Sets(f, writable, enumerable, configurable, value, getter, setter) && setError(f) != JsNoError
    requires forall h :: Order(h) < Order(f) && Sets(h, writable, enumerable, configurable, value, getter, setter) ==>
               setError(h) == JsNoError
    ensures CreatePropertyDescriptor(writable, enumerable, configurable, value, getter, setter, JsNoError, setError)
            == Err(setError(f))
  {
    assert Order(Writable) == 0 && Order(Enumerable) == 1 && Order(Configurable) == 2;
    assert Order(Value) == 3 && Order(Getter) == 4 && Order(Setter) == 5;
  }

  /** The V8 property attributes. */
  datatype PropertyAttribute = ReadOnly | DontEnum | DontDelete

  function OptionOf(b: bool): OptionValue
  {
    if b then TrueOption else FalseOption
  }

  /**
    The V8-attributes overload: all three flags are set, each the negation of
    its attribute; the value is set when given; getter and setter never are.
   */
  function CreatePropertyDescriptorFromAttributes(attributes: set<PropertyAttribute>, value: Option<nat>,
                                                  createError: JsErrorCode, setError: Field -> JsErrorCode)
    : (r: Result<Descriptor, JsErrorCode>)
    ensures r.Ok? ==> r.value == Descriptor(Some(ReadOnly !in attributes), Some(DontEnum !in attributes),
                                            Some(DontDelete !in attributes), value, None, None)
    ensures r.Ok? <==> createError == JsNoError && setError(Writable) == JsNoError && setError(Enumerable) == JsNoError
                       && setError(Configurable) == JsNoError && (value.Some? ==> setError(Value) == JsNoError)
  {
    CreatePropertyDescriptor(OptionOf(ReadOnly !in attributes), OptionOf(DontEnum !in attributes),
                             OptionOf(DontDelete !in attributes), value, None, None, createError, setError)
  }

  /** The V8 attributes a descriptor's three flags express. */
  function AttributesOf(d: Descriptor): set<PropertyAttribute>
  {
    (if d.writable == Some(false) then {ReadOnly} else {})
    + (if d.enumerable == Some(false) then {DontEnum} else {})
    + (if d.configurable == Some(false) then {DontDelete} else {})
  }

  /** The attributes are recovered from the descriptor built from them. */
  lemma AttributesRoundTrip(attributes: set<PropertyAttribute>, value: Option<nat>, setError: Field -> JsErrorCode)
    requires CreatePropertyDescriptorFromAttributes(attributes, value, JsNoError, setError).Ok?
    ensures AttributesOf(CreatePropertyDescriptorFromAttributes(attributes, value, JsNoError, setError).value) == attributes
  {
    var d := CreatePropertyDescriptorFromAttributes(attributes, value, JsNoError, setError).value;
    forall a | true ensures a in AttributesOf(d) <==> a in attributes {
      match a
      case ReadOnly =>
      case DontEnum =>
      case DontDelete =>
    }
  }

  /**
    DefineProperty: the descriptor's error is passed on; a JsDefineProperty
    that reports no error but a false result becomes JsErrorInvalidArgument.
   */
  function DefineProperty(descriptor: Result<Descriptor, JsErrorCode>, defineError: JsErrorCode, defined: bool)
    : (e: JsErrorCode)
    ensures descriptor.Err? ==> e == descriptor.error
    ensures descriptor.Ok? ==> (e == JsNoError <==> defineError == JsNoError && defined)
    ensures descriptor.Ok? && defineError != JsNoError ==> e == defineError
    ensures descriptor.Ok? && defineError == JsNoError && !defined ==> e == JsErrorInvalidArgument
  {
    match descriptor
    case Err(err) => err
    case Ok(_) => if defineError == JsNoError && !defined then JsErrorInvalidArgument else defineError
  }

  // ---------------------------------------------------------------------------
  // Property ids
  // ---------------------------------------------------------------------------

  type PropertyId = nat

  /**
    What the engine answers for one name value: its UTF-8 text (or the error
    of that conversion; a non-string gives JsErrorInvalidArgument) and its
    symbol property id (or the error of that lookup; a non-symbol gives
    JsErrorPropertyNotSymbol).
   */
  datatype NameLookups = NameLookups(asText: Result<seq<byte>, JsErrorCode>, asSymbol: Result<PropertyId, JsErrorCode>)

  /**
    GetPropertyIdFromName: a string is looked up by name (`byName`); on
    JsErrorInvalidArgument the value is tried as a symbol, and a value that is
    no symbol either is JsErrorInvalidArgument; any other conversion error is
    passed on.
   */
  function GetPropertyIdFromName(v: NameLookups, byName: seq<byte> -> Result<PropertyId, JsErrorCode>)
    : (r: Result<PropertyId, JsErrorCode>)
    ensures v.asText.Ok? ==> r == byName(v.asText.value)
    ensures v.asText.Err? && v.asText.error != JsErrorInvalidArgument ==> r == Err(v.asText.error)
    ensures v.asText == Err(JsErrorInvalidArgument) ==>
              r == if v.asSymbol == Err(JsErrorPropertyNotSymbol) then Err(JsErrorInvalidArgument) else v.asSymbol
    ensures v.asText == Err(JsErrorInvalidArgument) ==> r != Err(JsErrorPropertyNotSymbol)
  {
    match v.asText
    case Ok(text) => byName(text)
    case Err(e) =>
      if e != JsErrorInvalidArgument then Err(e)
      else if v.asSymbol == Err(JsErrorPropertyNotSymbol) then Err(JsErrorInvalidArgument)
      else v.asSymbol
  }

  /**
    The value itself is refused as a name: a string whose name lookup gives
    JsErrorInvalidArgument, or a value that is neither a string nor a usable
    symbol.
   */
  predicate NameLookupRejects(v: NameLookups, byName: seq<byte> -> Result<PropertyId, JsErrorCode>)
  {
    match v.asText
    case Ok(text) => byName(text) == Err(JsErrorInvalidArgument)
    case Err(e) =>
      e == JsErrorInvalidArgument
      && (v.asSymbol == Err(JsErrorInvalidArgument) || v.asSymbol == Err(JsErrorPropertyNotSymbol))
  }

  /**
    GetPropertyIdFromValue: only when the value gives JsErrorInvalidArgument
    is it converted to a string (`converted`, whose lookups describe the
    string) and looked up again.
   */
  function GetPropertyIdFromValue(v: NameLookups, converted: Result<NameLookups, JsErrorCode>,
                                  byName: seq<byte> -> Result<PropertyId, JsErrorCode>)
    : (r: Result<PropertyId, JsErrorCode>)
    // A string that names a property is never converted.
    ensures v.asText.Ok? && byName(v.asText.value) != Err(JsErrorInvalidArgument) ==> r == byName(v.asText.value)
    // A failing string conversion other than "not a string" is passed on.
    ensures v.asText.Err? && v.asText.error != JsErrorInvalidArgument ==> r == Err(v.asText.error)
    // A symbol keeps its own id, and its lookup's other errors are passed on.
    ensures v.asText == Err(JsErrorInvalidArgument)
            && v.asSymbol != Err(JsErrorInvalidArgument) && v.asSymbol != Err(JsErrorPropertyNotSymbol) ==>
              r == v.asSymbol
    // A refused value is converted to a string, and the string's name decides.
    ensures NameLookupRejects(v, byName) && converted.Err? ==> r == Err(converted.error)
    ensures NameLookupRejects(v, byName) && converted.Ok? && converted.value.asText.Ok? ==>
              r == byName(converted.value.asText.value)
    // JsErrorInvalidArgument comes back only for a value refused before conversion.
    ensures r == Err(JsErrorInvalidArgument) ==> NameLookupRejects(v, byName)
  {
    var first := GetPropertyIdFromName(v, byName);
    if first != Err(JsErrorInvalidArgument) then first
    else match converted
      case Err(e) => Err(e)
      case Ok(s) => GetPropertyIdFromName(s, byName)
  }

  /**
    A value that is neither string nor symbol (a number, say) is found by the
    name of its string form.
   */
  lemma NonNameValueUsesItsString(nonName: NameLookups, text: seq<byte>, symbolError: JsErrorCode,
                                  byName: seq<byte> -> Result<PropertyId, JsErrorCode>)
    requires nonName == NameLookups(Err(JsErrorInvalidArgument), Err(JsErrorPropertyNotSymbol))
    ensures GetPropertyIdFromValue(nonName, Ok(NameLookups(Ok(text), Err(symbolError))), byName) == byName(text)
  {
  }

  // ---------------------------------------------------------------------------
  // IsValueInArray
  // ---------------------------------------------------------------------------

  /** Element j was fetched and compared unequal. */
  predicate Passes<V>(items: seq<Result<V, JsErrorCode>>, compare: V -> Result<bool, JsErrorCode>, j: int)
    requires 0 <= j < |items|
  {
    items[j].Ok? && compare(items[j].value) == Ok(false)
  }

  /** Element i was fetched and compared equal. */
  predicate Hits<V>(items: seq<Result<V, JsErrorCode>>, compare: V -> Result<bool, JsErrorCode>, i: int)
    requires 0 <= i < |items|
  {
    items[i].Ok? && compare(items[i].value) == Ok(true)
  }

  /**
    The index of the first element from `i` on that does not pass (it failed
    to be fetched, failed to compare, or compared equal), or the length.
   */
  function FirstNonPassing<V>(items: seq<Result<V, JsErrorCode>>, compare: V -> Result<bool, JsErrorCode>, i: nat)
    : (k: nat)
    requires i <= |items|
    ensures i <= k <= |items|
    ensures forall j :: i <= j < k ==> Passes(items, compare, j)
    ensures k < |items| ==> !Passes(items, compare, k)
    decreases |items| - i
  {
    if i == |items| || !Passes(items, compare, i) then i else FirstNonPassing(items, compare, i + 1)
  }

  lemma FirstHitIsFirstNonPassing<V>(items: seq<Result<V, JsErrorCode>>, compare: V -> Result<bool, JsErrorCode>, k: nat)
    requires k == FirstNonPassing(items, compare, 0)
    ensures forall i :: 0 <= i < |items| && Hits(items, compare, i) && (forall j :: 0 <= j < i ==> Passes(items, compare, j))
              ==> i == k
  {
    forall i | 0 <= i < |items| && Hits(items, compare, i) && (forall j :: 0 <= j < i ==> Passes(items, compare, j))
      ensures i == k
    {
      assert !Passes(items, compare, i);
      assert k <= i < |items|;
      assert !Passes(items, compare, k);
    }
  }

  /**
    What the scan decides: false when every element compares unequal;
    otherwise the first element that does not decides it, by its fetch error,
    its comparison error, or its match.
   */
  function ScanOutcome<V>(items: seq<Result<V, JsErrorCode>>, compare: V -> Result<bool, JsErrorCode>)
    : (r: Result<bool, JsErrorCode>)
    ensures r == Ok(false) <==> forall j :: 0 <= j < |items| ==> Passes(items, compare, j)
    ensures r == Ok(true) <==>
              exists i :: 0 <= i < |items| && Hits(items, compare, i) && forall j :: 0 <= j < i ==> Passes(items, compare, j)
  {
    var k := FirstNonPassing(items, compare, 0);
    var r := if k == |items| then Ok(false)
             else if items[k].Err? then Err(items[k].error)
             else compare(items[k].value);
    assert r == Ok(true) ==> Hits(items, compare, k);
    FirstHitIsFirstNonPassing(items, compare, k);
    r
  }

  /** The scan is decided by any element before which every element passes and which does not. */
  lemma DecidedAt<V>(items: seq<Result<V, JsErrorCode>>, compare: V -> Result<bool, JsErrorCode>, k: nat)
    requires k <= |items|
    requires forall j :: 0 <= j < k ==> Passes(items, compare, j)
    requires k < |items| ==> !Passes(items, compare, k)
    ensures ScanOutcome(items, compare) ==
              if k == |items| then Ok(false)
              else if items[k].Err? then Err(items[k].error)
              else compare(items[k].value)
  {
    var m := FirstNonPassing(items, compare, 0);
    assert m == k;
  }

  /**
    IsValueInArray: the array's length (or its error) and the items fetched
    by index (each an element or the error of fetching it) are given;
    `compare` is the comparator applied to the sought value and an item
    (JsEquals when none is given). The result starts false; the scan stops
    at the first match and passes on the first error.
   */
  method IsValueInArray<V>(fetched: Result<seq<Result<V, JsErrorCode>>, JsErrorCode>,
                           compare: V -> Result<bool, JsErrorCode>)
    returns (r: Result<bool, JsErrorCode>)
    ensures fetched.Err? ==> r == Err(fetched.error)
    ensures fetched.Ok? ==> r == ScanOutcome(fetched.value, compare)
  {
    if fetched.Err? {
      return Err(fetched.error);
    }
    var items := fetched.value;
    var index := 0;
    while index < |items|
      invariant 0 <= index <= |items|
      invariant forall j :: 0 <= j < index ==> Passes(items, compare, j)
    {
      match items[index]
      case Err(e) =>
        DecidedAt(items, compare, index);
        return Err(e);
      case Ok(item) =>
        var found := compare(item);
        if found.Err? {
          DecidedAt(items, compare, index);
          return Err(found.error);
        }
        if found.value {
          DecidedAt(items, compare, index);
          return Ok(true);
        }
      index := index + 1;
    }
    DecidedAt(items, compare, index);
    return Ok(false);
  }

  // ---------------------------------------------------------------------------
  // Case-insensitive string membership
  // ---------------------------------------------------------------------------

  /** A JavaScript value as the comparator sees it: a string's UTF-8 bytes, or anything else. */
  datatype JsValue = StringValue(utf8: seq<byte>) | NonStringValue

  /**
    strnicmp(a, b, n) == 0 on the NUL-terminated copies of `a` and `b`: the
    first `n` characters agree ignoring case, the comparison ending early at
    a terminator both share.
   */
  function StrnicmpEqual(a: seq<byte>, b: seq<byte>, n: nat): (eq: bool)
    ensures n <= |a| && n <= |b| && (forall i :: 0 <= i < n ==> a[i] != 0) ==>
              (eq <==> forall i :: 0 <= i < n ==> Lower(a[i]) == Lower(b[i]))
  {
    if n == 0 then true
    else
      var ca := if a == [] then 0 else a[0];
      var cb := if b == [] then 0 else b[0];
      if Lower(ca) != Lower(cb) then false
      else if ca == 0 then true
      else
        var a' := if a == [] then [] else a[1..];
        var b' := if b == [] then [] else b[1..];
        assert n <= |a| && n <= |b| ==>
                 (forall i :: 1 <= i < n ==> a'[i - 1] == a[i] && b'[i - 1] == b[i]);
        StrnicmpEqual(a', b', n - 1)
  }

  function Min(a: int, b: int): int { if a <= b then a else b }

  /**
    The comparator of IsCaseInsensitiveStringValueInArray as written:
    non-strings are unequal, and two strings are compared only over the
    length of the shorter.
   */
  function CaseInsensitiveEqualAsWritten(first: JsValue, second: JsValue): (eq: bool)
    ensures eq ==> first.StringValue? && second.StringValue?
    ensures first.StringValue? && second.StringValue?
            && (forall i :: 0 <= i < |first.utf8| ==> first.utf8[i] != 0) ==>
              (eq <==> forall i :: 0 <= i < Min(|first.utf8|, |second.utf8|) ==>
                                     Lower(first.utf8[i]) == Lower(second.utf8[i]))
  {
    first.StringValue? && second.StringValue?
    && StrnicmpEqual(first.utf8, second.utf8, Min(|first.utf8|, |second.utf8|))
  }

  /** As written, any string matches every string it is a prefix of, and the reverse. */
  lemma {:induction false} AsWrittenMatchesPrefix(a: seq<byte>, b: seq<byte>)
    requires |a| <= |b| && a == b[..|a|]
    ensures CaseInsensitiveEqualAsWritten(StringValue(a), StringValue(b))
    ensures CaseInsensitiveEqualAsWritten(StringValue(b), StringValue(a))
  {
    PrefixStrnicmp(a, b);
    PrefixStrnicmpSwapped(a, b);
  }

  lemma {:induction false} PrefixStrnicmp(a: seq<byte>, b: seq<byte>)
    requires |a| <= |b| && a == b[..|a|]
    ensures StrnicmpEqual(a, b, |a|)
  {
    if a != [] && a[0] != 0 {
      PrefixStrnicmp(a[1..], b[1..]);
    }
  }

  lemma {:induction false} PrefixStrnicmpSwapped(a: seq<byte>, b: seq<byte>)
    requires |a| <= |b| && a == b[..|a|]
    ensures StrnicmpEqual(b, a, |a|)
  {
    if a != [] && a[0] != 0 {
      PrefixStrnicmpSwapped(a[1..], b[1..]);
    }
  }

  /**
    The input that shows it: looking for "abc" in ["ab"] reports a match,
    though the two strings differ even ignoring case.
   */
  lemma AsWrittenFindsPrefix()
    ensures var ab: seq<byte> := ['a' as byte, 'b' as byte];
            var abc: seq<byte> := ['a' as byte, 'b' as byte, 'c' as byte];
            var compare := (item: JsValue) => Ok(CaseInsensitiveEqualAsWritten(StringValue(abc), item));
            && ScanOutcome([Ok(StringValue(ab))], compare) == Ok(true)
            && Fold(ab) != Fold(abc)
  {
    var ab: seq<byte> := ['a' as byte, 'b' as byte];
    var abc: seq<byte> := ['a' as byte, 'b' as byte, 'c' as byte];
    AsWrittenMatchesPrefix(ab, abc);
    var compare := (item: JsValue) => Ok(CaseInsensitiveEqualAsWritten(StringValue(abc), item));
    assert Hits([Ok(StringValue(ab))], compare, 0);
  }

  /** Case-insensitive equality of two byte strings over their whole length. */
  function SameFolded(a: seq<byte>, b: seq<byte>): (eq: bool)
    ensures eq <==> Fold(a) == Fold(b)
  {
    if a == [] || b == [] then a == b
    else
      var eq := Lower(a[0]) == Lower(b[0]) && SameFolded(a[1..], b[1..]);
      assert Fold(a) == [Lower(a[0])] + Fold(a[1..]);
      assert Fold(b) == [Lower(b[0])] + Fold(b[1..]);
      eq
  }

  /**
    The comparator as evidently intended: two strings are equal when they
    agree over their whole length ignoring case; non-strings are unequal.
   */
  function CaseInsensitiveEqual(first: JsValue, second: JsValue): (eq: bool)
    ensures eq <==> first.StringValue? && second.StringValue? && Fold(first.utf8) == Fold(second.utf8)
  {
    first.StringValue? && second.StringValue? && SameFolded(first.utf8, second.utf8)
  }

  /** The comparator as evidently intended, applied to the sought value and an item. */
  function FoldedComparator(value: JsValue): JsValue -> Result<bool, JsErrorCode>
  {
    item => Ok(CaseInsensitiveEqual(value, item))
  }

  /** Item `i` was fetched and is a string equal to `value` ignoring case. */
  predicate FoldedMatch(items: seq<Result<JsValue, JsErrorCode>>, value: JsValue, i: int)
    requires 0 <= i < |items|
  {
    items[i].Ok? && CaseInsensitiveEqual(value, items[i].value)
  }

  /**
    With the intended comparator, which never fails, the scan answers true
    exactly when some element before the first fetch error matches, and
    false exactly when every element was fetched and none matches.
   */
  lemma {:induction false} FoldedScanMeaning(items: seq<Result<JsValue, JsErrorCode>>, value: JsValue)
    ensures var r := ScanOutcome(items, FoldedComparator(value));
            && (r == Ok(true) <==> exists i :: 0 <= i < |items| && FoldedMatch(items, value, i)
                                              && forall j :: 0 <= j < i ==> items[j].Ok?)
            && (r == Ok(false) <==> forall j :: 0 <= j < |items| ==> items[j].Ok? && !FoldedMatch(items, value, j))
            && (r.Err? ==> exists i :: 0 <= i < |items| && items[i] == Err(r.error)
                                      && forall j :: 0 <= j < i ==> items[j].Ok? && !FoldedMatch(items, value, j))
  {
    var compare := FoldedComparator(value);
    var k := FirstNonPassing(items, compare, 0);
    DecidedAt(items, compare, k);
    assert forall j :: 0 <= j < |items| ==> (Passes(items, compare, j) <==> items[j].Ok? && !FoldedMatch(items, value, j));
    assert forall j :: 0 <= j < |items| ==> (Hits(items, compare, j) <==> FoldedMatch(items, value, j));
    if k < |items| && items[k].Ok? {
      assert FoldedMatch(items, value, k);
    }
    forall i | 0 <= i < |items| && FoldedMatch(items, value, i) && (forall j :: 0 <= j < i ==> items[j].Ok?)
      ensures k <= i && items[k].Ok?
    {
      assert !Passes(items, compare, i);
    }
  }

  /** With the intended comparator, "abc" is not found in ["ab"], while "AB" is. */
  lemma CorrectedRejectsPrefix()
    ensures var ab: seq<byte> := ['a' as byte, 'b' as byte];
            var upperAb: seq<byte> := ['A' as byte, 'B' as byte];
            var abc: seq<byte> := ['a' as byte, 'b' as byte, 'c' as byte];
            && ScanOutcome([Ok(StringValue(ab))], FoldedComparator(StringValue(abc))) == Ok(false)
            && ScanOutcome([Ok(StringValue(ab))], FoldedComparator(StringValue(upperAb))) == Ok(true)
  {
    var ab: seq<byte> := ['a' as byte, 'b' as byte];
    var upperAb: seq<byte> := ['A' as byte, 'B' as byte];
    var abc: seq<byte> := ['a' as byte, 'b' as byte, 'c' as byte];
    FoldedScanMeaning([Ok(StringValue(ab))], StringValue(abc));
    FoldedScanMeaning([Ok(StringValue(ab))], StringValue(upperAb));
    assert |Fold(ab)| != |Fold(abc)|;
    assert Fold(ab) == Fold(upperAb);
    assert FoldedMatch([Ok(StringValue(ab))], StringValue(upperAb), 0);
  }

  /**
    IsCaseInsensitiveStringValueInArray with the intended comparator: a match
    is an element that is a string equal to the sought one ignoring case. The
    first fetch error met before a match is passed on.
   */
  method IsCaseInsensitiveStringValueInArray(fetched: Result<seq<Result<JsValue, JsErrorCode>>, JsErrorCode>,
                                             value: JsValue)
    returns (r: Result<bool, JsErrorCode>)
    ensures fetched.Err? ==> r == Err(fetched.error)
    ensures fetched.Ok? ==> r == ScanOutcome(fetched.value, FoldedComparator(value))
    ensures fetched.Ok? ==>
              (r == Ok(true) <==> exists i :: 0 <= i < |fetched.value| && FoldedMatch(fetched.value, value, i)
                                                && forall j :: 0 <= j < i ==> fetched.value[j].Ok?)
    ensures fetched.Ok? ==>
              (r == Ok(false) <==> forall j :: 0 <= j < |fetched.value| ==>
                                      fetched.value[j].Ok? && !FoldedMatch(fetched.value, value, j))
    ensures r == Ok(true) ==> (value.StringValue? &&
              exists i :: 0 <= i < |fetched.value| && fetched.value[i].Ok? && fetched.value[i].value.StringValue?
                            && Fold(fetched.value[i].value.utf8) == Fold(value.utf8))
  {
    r := IsValueInArray(fetched, FoldedComparator(value));
    if fetched.Ok? {
      FoldedScanMeaning(fetched.value, value);
    }
  }

  // ---------------------------------------------------------------------------
  // GetExternalData
  // ---------------------------------------------------------------------------

  /**
    GetExternalData: the property holding the external object is read (its
    error is passed on); JsGetExternalData's JsErrorInvalidArgument, meaning
    the object carries no external data, becomes null data and no error.
    Data is None for null.
   */
  function GetExternalData(property: Result<nat, JsErrorCode>, externalData: Result<Option<nat>, JsErrorCode>)
    : (r: Result<Option<nat>, JsErrorCode>)
    ensures property.Err? ==> r == Err(property.error)
    ensures property.Ok? && externalData == Err(JsErrorInvalidArgument) ==> r == Ok(None)
    ensures property.Ok? && externalData != Err(JsErrorInvalidArgument) ==> r == externalData
    ensures r != Err(JsErrorInvalidArgument) || property == Err(JsErrorInvalidArgument)
  {
    match property
    case Err(e) => Err(e)
    case Ok(_) => if externalData == Err(JsErrorInvalidArgument) then Ok(None) else externalData
  }
}

=== FILE: mode_stack.dfy ===
/**
  The time-travel mode stack of EventLog (TTEventLog.cpp). Index 0 holds the
  global mode (record, replay or debugger); every entry above it is a
  modifier. The computed mode is the bitwise OR of the stack, and the
  per-context fast-path flags are read off the computed mode with masks.

  The numeric values of TTDMode are declared outside this model; every mode
  other than Invalid (zero) is a distinct single bit, so a mask is the set of
  modes whose bits it holds: `|` is union, `&` is intersection and
  AnyExcludedMode is the set of the two excluded-execution modes.
 */
module ModeStack {
  import opened Wrappers

  datatype Mode =
    | Invalid
    | RecordMode
    | ReplayMode
    | DebuggerMode
    | CurrentlyEnabled
    | ExcludedExecutionTTAction
    | ExcludedExecutionDebuggerAction
    | DebuggerSuppressGetter
    | DebuggerSuppressBreakpoints
    | DebuggerLogBreakpoints

  /** A TTDMode bit pattern: the set of single-bit modes it contains. */
  type Mask = set<Mode>

  /** The bits of one mode: none for Invalid, its own bit otherwise. */
  function Bit(m: Mode): Mask
  {
    if m == Invalid then {} else {m}
  }

  const AnyExcludedMode: Mask := {ExcludedExecutionTTAction, ExcludedExecutionDebuggerAction}

  /** The three global modes, the only ones allowed at index 0. */
  predicate IsGlobal(m: Mode)
  {
    m == RecordMode || m == ReplayMode || m == DebuggerMode
  }

  /** The modifiers, the only modes that may be pushed and popped. */
  predicate IsModifier(m: Mode)
  {
    m != Invalid && !IsGlobal(m)
  }

  /** `(cm & m) == m` for a single-bit mode. */
  predicate Has(cm: Mask, m: Mode)
  {
    cm * Bit(m) == Bit(m)
  }

  datatype ModeFault =
    | EmptyStack
    | NotAGlobalMode
    | NotAModifier
    | UnmatchedPop
    | GlobalModeNotFirst
    | ModifierFirst
    | UnknownMode

  /**
    UpdateComputedMode's loop over the first n entries: a global mode must be
    at index 0 and replaces the mask, a modifier must be above it and is OR-ed
    in, and anything else (Invalid) is rejected. The first offending index
    decides the fault.
   */
  function ComputeFrom(stack: seq<Mode>, n: nat): Result<Mask, ModeFault>
    requires n <= |stack|
  {
    if n == 0 then Ok({})
    else
      var prev := ComputeFrom(stack, n - 1);
      if prev.Err? then prev
      else
        var m := stack[n - 1];
        if IsGlobal(m) then (if n - 1 == 0 then Ok(Bit(m)) else Err(GlobalModeNotFirst))
        else if IsModifier(m) then (if n - 1 != 0 then Ok(prev.value + Bit(m)) else Err(ModifierFirst))
        else Err(UnknownMode)
  }

  /** UpdateComputedMode's mask; the stack must never be empty. */
  function ComputeMode(stack: seq<Mode>): Result<Mask, ModeFault>
  {
    if |stack| == 0 then Err(EmptyStack) else ComputeFrom(stack, |stack|)
  }

  /** A stack whose computed mode can be formed: a global mode under modifiers. */
  predicate WellFormed(stack: seq<Mode>)
  {
    && |stack| > 0
    && IsGlobal(stack[0])
    && forall i :: 1 <= i < |stack| ==> IsModifier(stack[i])
  }

  lemma BitsDistinct(m: Mode, n: Mode)
    requires m != Invalid
    ensures Has(Bit(n), m) <==> m == n
  {
  }

  lemma {:induction false} ComputeFromBits(stack: seq<Mode>, n: nat)
    requires 0 < n <= |stack|
    requires IsGlobal(stack[0]) && forall i :: 1 <= i < n ==> IsModifier(stack[i])
    ensures ComputeFrom(stack, n).Ok?
    ensures forall m :: m != Invalid ==> (Has(ComputeFrom(stack, n).value, m) <==> m in stack[..n])
  {
    if n > 1 {
      ComputeFromBits(stack, n - 1);
      var prev := ComputeFrom(stack, n - 1).value;
      var a := stack[n - 1];
      assert stack[..n] == stack[..n - 1] + [a];
      forall m | m != Invalid
        ensures Has(prev + Bit(a), m) <==> m in stack[..n]
      {
        BitsDistinct(m, a);
      }
    } else {
      assert stack[..1] == [stack[0]];
      forall m | m != Invalid
        ensures Has(Bit(stack[0]), m) <==> m in stack[..1]
      {
        BitsDistinct(m, stack[0]);
      }
    }
  }

  lemma {:induction false} ComputeFromFails(stack: seq<Mode>, n: nat, k: nat)
    requires k < n <= |stack|
    requires (k == 0 && !IsGlobal(stack[0])) || (k > 0 && !IsModifier(stack[k]))
    ensures ComputeFrom(stack, n).Err?
  {
    if k < n - 1 {
      ComputeFromFails(stack, n - 1, k);
    }
  }

  /**
    The computed mode exists exactly for a global mode under modifiers, and
    then it holds a mode's bit exactly when that mode is on the stack.
   */
  lemma ComputeModeIsUnion(stack: seq<Mode>)
    ensures ComputeMode(stack).Ok? <==> WellFormed(stack)
    ensures WellFormed(stack) ==>
              forall m :: m != Invalid ==> (Has(ComputeMode(stack).value, m) <==> m in stack)
  {
    if WellFormed(stack) {
      ComputeFromBits(stack, |stack|);
      assert stack[..|stack|] == stack;
    } else if |stack| > 0 {
      if !IsGlobal(stack[0]) {
        ComputeFromFails(stack, |stack|, 0);
      } else {
        var k :| 1 <= k < |stack| && !IsModifier(stack[k]);
        ComputeFromFails(stack, |stack|, k);
      }
    }
  }

  /** The EventLog's mode state: the stack and its cached computed mode. */
  datatype ModeState = ModeState(stack: seq<Mode>, current: Mask)

  /** A fresh log: Invalid at index 0 and an Invalid computed mode. */
  function Init(): (s: ModeState)
    ensures Inv(s) && !WellFormed(s.stack)
  {
    ModeState([Invalid], Bit(Invalid))
  }

  /** The states reachable from Init: the fresh one, or a well-formed stack with its computed mode cached. */
  ghost predicate Inv(s: ModeState)
  {
    || s == ModeState([Invalid], {})
    || (WellFormed(s.stack) && ComputeMode(s.stack) == Ok(s.current))
  }

  /** UpdateComputedMode after the stack has been changed. */
  function Update(stack: seq<Mode>): Result<ModeState, ModeFault>
  {
    var cm := ComputeMode(stack);
    if cm.Err? then Err(cm.error) else Ok(ModeState(stack, cm.value))
  }

  function SetGlobalMode(s: ModeState, m: Mode): (r: Result<ModeState, ModeFault>)
    requires Inv(s)
    ensures r.Ok? <==> IsGlobal(m)
    ensures r.Ok? ==> Inv(r.value) && r.value.stack == [m] + s.stack[1..]
  {
    if !IsGlobal(m) then Err(NotAGlobalMode)
    else
      ComputeModeIsUnion(s.stack[0 := m]);
      Update(s.stack[0 := m])
  }

  function PushMode(s: ModeState, m: Mode): (r: Result<ModeState, ModeFault>)
    requires Inv(s)
    ensures r.Ok? <==> IsModifier(m) && WellFormed(s.stack)
    ensures r.Ok? ==> Inv(r.value) && r.value.stack == s.stack + [m]
  {
    if !IsModifier(m) then Err(NotAModifier)
    else
      ComputeModeIsUnion(s.stack + [m]);
      Update(s.stack + [m])
  }

  function PopMode(s: ModeState, m: Mode): (r: Result<ModeState, ModeFault>)
    requires Inv(s)
    ensures r.Ok? <==> IsModifier(m) && s.stack[|s.stack| - 1] == m
    ensures r.Ok? ==> Inv(r.value) && r.value.stack == s.stack[..|s.stack| - 1]
  {
    if !IsModifier(m) then Err(NotAModifier)
    else if s.stack[|s.stack| - 1] != m then Err(UnmatchedPop)
    else
      ComputeModeIsUnion(s.stack[..|s.stack| - 1]);
      Update(s.stack[..|s.stack| - 1])
  }

  /** Popping what was just pushed restores the state, computed mode included. */
  lemma PushPopRoundTrip(s: ModeState, m: Mode)
    requires Inv(s) && PushMode(s, m).Ok?
    ensures PopMode(PushMode(s, m).value, m) == Ok(s)
  {
    var t := PushMode(s, m).value;
    assert t.stack[..|t.stack| - 1] == s.stack;
  }

  /** The fast-path flags SetModeFlagsOnContext stores on a script context. */
  datatype ContextFlags = ContextFlags(
    recordModeEnabled: bool,
    replayModeEnabled: bool,
    recordOrReplayModeEnabled: bool,
    shouldPerformRecordAction: bool,
    shouldPerformReplayAction: bool,
    shouldPerformRecordOrReplayAction: bool,
    shouldPerformDebuggerAction: bool,
    shouldSuppressGetterInvocation: bool)

  function SetModeFlagsOnContext(cm: Mask): ContextFlags
  {
    var rec := Bit(RecordMode);
    var rep := Bit(ReplayMode);
    var dbg := Bit(DebuggerMode);
    var on := Bit(CurrentlyEnabled);
    var recordEnabled := cm * (rec + AnyExcludedMode) == rec;
    var replayEnabled := cm * (rep + AnyExcludedMode) == rep;
    var recordAction := cm * (rec + on + AnyExcludedMode) == rec + on;
    var replayAction := cm * (rep + on + AnyExcludedMode) == rep + on;
    ContextFlags(
      recordEnabled,
      replayEnabled,
      recordEnabled || replayEnabled,
      recordAction,
      replayAction,
      recordAction || replayAction,
      cm * (dbg + on + AnyExcludedMode) == dbg + on,
      Has(cm, DebuggerSuppressGetter))
  }

  /** Neither excluded-execution modifier is on the stack. */
  predicate NotExcluded(stack: seq<Mode>)
  {
    ExcludedExecutionTTAction !in stack && ExcludedExecutionDebuggerAction !in stack
  }

  lemma FlagsFromMask(cm: Mask)
    ensures var f := SetModeFlagsOnContext(cm);
            var free := !Has(cm, ExcludedExecutionTTAction) && !Has(cm, ExcludedExecutionDebuggerAction);
            && (f.recordModeEnabled <==> Has(cm, RecordMode) && free)
            && (f.replayModeEnabled <==> Has(cm, ReplayMode) && free)
            && (f.shouldPerformRecordAction <==> Has(cm, RecordMode) && Has(cm, CurrentlyEnabled) && free)
            && (f.shouldPerformReplayAction <==> Has(cm, ReplayMode) && Has(cm, CurrentlyEnabled) && free)
            && (f.shouldPerformDebuggerAction <==> Has(cm, DebuggerMode) && Has(cm, CurrentlyEnabled) && free)
  {
  }

  /**
    The context flags of a well-formed stack, in terms of the stack: record
    (replay) is enabled exactly when the global mode is record (replay) and no
    excluded-execution modifier is pushed; the should-perform flags also need
    CurrentlyEnabled on the stack. Record, replay and debugger actions are
    mutually exclusive.
   */
  lemma FlagsFromStack(s: ModeState)
    requires Inv(s) && WellFormed(s.stack)
    ensures var stack := s.stack;
            var f := SetModeFlagsOnContext(s.current);
            && (f.recordModeEnabled <==> stack[0] == RecordMode && NotExcluded(stack))
            && (f.replayModeEnabled <==> stack[0] == ReplayMode && NotExcluded(stack))
            && (f.shouldPerformRecordAction <==> f.recordModeEnabled && CurrentlyEnabled in stack)
            && (f.shouldPerformReplayAction <==> f.replayModeEnabled && CurrentlyEnabled in stack)
            && (f.shouldPerformDebuggerAction <==>
                  stack[0] == DebuggerMode && NotExcluded(stack) && CurrentlyEnabled in stack)
            && (f.shouldSuppressGetterInvocation <==> DebuggerSuppressGetter in stack)
            && !(f.recordModeEnabled && f.replayModeEnabled)
            && !(f.shouldPerformRecordOrReplayAction && f.shouldPerformDebuggerAction)
  {
    ComputeModeIsUnion(s.stack);
    FlagsFromMask(s.current);
    GlobalModeUnique(s.stack);
  }

  /** Only the global mode at index 0 is a global mode on a well-formed stack. */
  lemma GlobalModeUnique(stack: seq<Mode>)
    requires WellFormed(stack)
    ensures forall m :: IsGlobal(m) ==> (m in stack <==> m == stack[0])
  {
    forall m | IsGlobal(m) && m in stack
      ensures m == stack[0]
    {
      var i :| 0 <= i < |stack| && stack[i] == m;
      assert i == 0;
    }
  }

  /** ShouldSuppressBreakpointsForTimeTravelMove. */
  function SuppressBreakpoints(cm: Mask): bool { Has(cm, DebuggerSuppressBreakpoints) }

  /** ShouldRecordBreakpointsDuringTimeTravelScan. */
  function LogBreakpoints(cm: Mask): bool { Has(cm, DebuggerLogBreakpoints) }
}

=== FILE: v8string.dfy ===
/**
  String copying in the V8 shim (v8string.cc): String::Write / WriteOneByte
  (both WriteRaw), String::WriteUtf8, Utils::NewString and NewFromOneByte.

  A caller's buffer is modelled by what gets written into its front: each
  operation returns the written units together with the count it reports. A
  string whose conversion from the engine fails is None. Code units are
  unbounded naturals; WriteOneByte's narrowing copy is not modelled.
 */
module V8String {
  import opened Wrappers
  import opened Ascii
  type uint16 = x: int | 0 <= x < 0x1_0000

  /** The terminator written after a copied string. */
  const NUL: nat := 0

  function Min(a: int, b: int): int { if a <= b then a else b }

  // ---------------------------------------------------------------------------
  // WriteRaw
  // ---------------------------------------------------------------------------

  /**
    WriteRaw. A zero length, a failed conversion and a start outside the
    string write nothing and report 0; an empty string writes only the
    terminator (unless suppressed) and reports 0. Otherwise `count` units from
    `start` are copied, followed by a terminator when there is room for it, and
    the reported count includes that terminator.
   */
  method WriteRaw(source: Option<seq<nat>>, start: int, length: int, noNullTermination: bool)
    returns (written: seq<nat>, count: int)
    ensures length == 0 || source.None? ==> written == [] && count == 0
    ensures length != 0 && source == Some([]) ==>
              count == 0 && written == (if noNullTermination then [] else [NUL])
    ensures length != 0 && source.Some? && source.value != [] && (start < 0 || start > |source.value|) ==>
              written == [] && count == 0
    ensures length > 0 ==> count <= length && |written| <= length
    ensures length != 0 && source.Some? && source.value != [] && 0 <= start <= |source.value| ==>
              var s := source.value;
              var n := Min(if length >= 0 then length else |s|, |s| - start);
              && count == |written|
              && n <= |written|
              && written[..n] == s[start..start + n]
              && (n == |s| - start || n == length)
              && (|written| == n + 1 <==> !noNullTermination && n < (if length >= 0 then length else n + 1))
              && (|written| == n + 1 ==> written[n] == NUL)
              && |written| <= n + 1
  {
    written, count := [], 0;
    if length == 0 {
      return;
    }
    if source.None? {
      return;
    }
    var s := source.value;
    if |s| == 0 {
      if !noNullTermination {
        written := [NUL];
      }
      return;
    }
    if start < 0 || start > |s| {
      return;
    }
    count := if length >= 0 then length else |s|;
    count := Min(count, |s| - start);
    var capacity := if length < 0 then count + 1 else length;
    written := CopyRaw(s[start..], count);
    if count < capacity && !noNullTermination {
      written := written + [NUL];
      count := count + 1;
    }
  }

  /** StringConvert::CopyRaw: the first `count` units of `src`, one at a time. */
  method CopyRaw(src: seq<nat>, count: int) returns (dst: seq<nat>)
    requires 0 <= count <= |src|
    ensures dst == src[..count]
  {
    dst := [];
    var i := 0;
    while i < count
      invariant 0 <= i <= count
      invariant dst == src[..i]
    {
      dst := dst + [src[i]];
      i := i + 1;
    }
  }

  /** The text of a terminated buffer: the units before its first NUL. */
  function CString(buf: seq<nat>): (t: seq<nat>)
    ensures NUL !in t
    ensures |t| <= |buf|
    ensures t == buf[..|t|]
    ensures |t| < |buf| ==> buf[|t|] == NUL
  {
    if buf == [] || buf[0] == NUL then [] else [buf[0]] + CString(buf[1..])
  }

  lemma {:induction false} CStringOfTerminated(t: seq<nat>, rest: seq<nat>)
    requires NUL !in t
    ensures CString(t + [NUL] + rest) == t
  {
    if t != [] {
      assert (t + [NUL] + rest)[1..] == t[1..] + [NUL] + rest;
      CStringOfTerminated(t[1..], rest);
    }
  }

  /**
    A string without embedded NULs, copied whole from `start` with the length
    left to WriteRaw, reads back as that tail of the string.
   */
  method WriteRawRoundTrip(s: seq<nat>, start: int) returns (text: seq<nat>)
    requires NUL !in s && 0 <= start <= |s| && s != []
    ensures text == s[start..]
  {
    var written, count := WriteRaw(Some(s), start, -1, false);
    assert written[..|s| - start] == s[start..];
    assert written == s[start..] + [NUL];
    assert NUL !in s[start..] by {
      forall i | 0 <= i < |s| - start ensures s[start..][i] != NUL {
        assert s[start..][i] == s[start + i];
      }
    }
    CStringOfTerminated(s[start..], []);
    assert s[start..] + [NUL] + [] == written;
    text := CString(written);
  }

  // ---------------------------------------------------------------------------
  // WriteUtf8
  // ---------------------------------------------------------------------------

  /** One character of a UTF-8 string, as its one to four bytes. */
  type Utf8Char = s: seq<byte> | 1 <= |s| <= 4 witness [0]

  /** The bytes of a sequence of characters. */
  function Bytes(cs: seq<Utf8Char>): seq<byte>
  {
    if cs == [] then [] else cs[0] + Bytes(cs[1..])
  }

  lemma {:induction false} BytesPrefix(cs: seq<Utf8Char>, k: nat)
    requires k <= |cs|
    ensures |Bytes(cs[..k])| <= |Bytes(cs)|
    ensures Bytes(cs[..k]) == Bytes(cs)[..|Bytes(cs[..k])|]
  {
    if k > 0 {
      assert cs[..k][1..] == cs[1..][..k - 1];
      BytesPrefix(cs[1..], k - 1);
    } else {
      assert cs[..k] == [];
    }
  }

  /**
    The number of whole characters whose bytes fit in `limit` bytes: the
    character index of byte `limit`, rounded down to a character boundary.
   */
  function FitChars(cs: seq<Utf8Char>, limit: int): (k: nat)
    ensures k <= |cs|
    ensures |Bytes(cs[..k])| <= limit || (k == 0 && limit < 0)
    ensures k < |cs| ==> |Bytes(cs[..k + 1])| > limit
  {
    if cs == [] || |cs[0]| > limit then
      assert cs != [] ==> cs[..1][1..] == [];
      0
    else
      var k := FitChars(cs[1..], limit - |cs[0]|);
      assert cs[..k + 1][1..] == cs[1..][..k];
      assert k + 1 < |cs| ==> cs[..k + 2][1..] == cs[1..][..k + 1];
      k + 1
  }

  /** The whole string fits exactly when no character has to be cut off. */
  lemma FitsWhole(cs: seq<Utf8Char>, limit: int)
    requires limit >= 0
    ensures FitChars(cs, limit) == |cs| <==> |Bytes(cs)| <= limit
  {
    var k := FitChars(cs, limit);
    if k < |cs| {
      BytesPrefix(cs, k + 1);
    } else {
      assert cs[..k] == cs;
    }
  }

  /** What WriteUtf8 reports: the bytes written, the return value, and nchars_ref if given. */
  datatype Utf8Write = Utf8Write(written: seq<byte>, count: int, nchars: Option<int>)

  /**
    String::WriteUtf8. nchars_ref is zeroed first; a negative length stands
    for the string's byte length plus one; when the string does not fit, only
    the longest whole-character prefix that fits is copied. A terminator
    follows when there is room, and both the return value and nchars_ref are
    the number of bytes written, terminator included.
   */
  method WriteUtf8(source: Option<seq<Utf8Char>>, length: int, noNullTermination: bool, ncharsPresent: bool)
    returns (r: Utf8Write)
    ensures ncharsPresent <==> r.nchars.Some?
    ensures r.nchars.Some? ==> r.nchars.value == r.count
    ensures r.count == |r.written|
    ensures length == 0 || source.None? ==> r.written == []
    ensures length > 0 ==> r.count <= length
    ensures length != 0 && source.Some? ==>
              var cs := source.value;
              var limit := if length < 0 then |Bytes(cs)| + 1 else length;
              var k := FitChars(cs, limit);
              && |Bytes(cs[..k])| <= |r.written|
              && r.written[..|Bytes(cs[..k])|] == Bytes(cs[..k])
              && (k == |cs| <==> |Bytes(cs)| <= limit)
              && (|r.written| == |Bytes(cs[..k])| + 1 <==> !noNullTermination && |Bytes(cs[..k])| < limit)
              && |r.written| <= |Bytes(cs[..k])| + 1
  {
    var nchars: Option<int> := if ncharsPresent then Some(0) else None;
    if length == 0 || source.None? {
      return Utf8Write([], 0, nchars);
    }
    var cs := source.value;
    var str := Bytes(cs);
    var limit := if length < 0 then |str| + 1 else length;
    var count := |str|;
    FitsWhole(cs, limit);
    if count > limit {
      var k := FitChars(cs, limit);
      BytesPrefix(cs, k);
      count := |Bytes(cs[..k])|;
    } else {
      assert cs[..|cs|] == cs;
    }
    var written: seq<byte> := str[..count];
    if count < limit && !noNullTermination {
      written := written + [NUL];
      count := count + 1;
    }
    if ncharsPresent {
      nchars := Some(count);
    }
    r := Utf8Write(written, count, nchars);
  }

  // ---------------------------------------------------------------------------
  // NewString, NewFromOneByte
  // ---------------------------------------------------------------------------

  /** strlen: the index of the first NUL byte. */
  function Strlen(data: seq<byte>): (n: nat)
    requires NUL in data
    ensures n < |data| && data[n] == NUL
    ensures NUL !in data[..n]
  {
    if data[0] == NUL then 0
    else
      var n := 1 + Strlen(data[1..]);
      assert data[..n] == [data[0]] + data[1..][..n - 1];
      n
  }

  /**
    Utils::NewString: the bytes handed to the engine's UTF-8 conversion. A
    negative length means the data is a NUL-terminated C string.
   */
  function NewStringBytes(data: seq<byte>, length: int): (r: seq<byte>)
    requires length >= 0 ==> length <= |data|
    requires length < 0 ==> NUL in data
    ensures length >= 0 ==> r == data[..length]
    ensures length < 0 ==> NUL !in r && |r| < |data| && data[..|r| + 1] == r + [NUL]
  {
    var n := if length < 0 then Strlen(data) else length;
    assert length < 0 ==> data[..n + 1] == data[..n] + [data[n]];
    data[..n]
  }

  /**
    NewFromOneByte: the one-byte data (NUL-terminated when the length is
    negative) widened unit by unit into the two-byte buffer handed to
    NewFromTwoByte.
   */
  method NewFromOneByte(data: seq<byte>, length: int) returns (wdata: seq<uint16>)
    requires length >= 0 ==> length <= |data|
    requires length < 0 ==> NUL in data
    ensures |wdata| == |NewStringBytes(data, length)|
    ensures forall i :: 0 <= i < |wdata| ==> wdata[i] == data[i]
  {
    var n := if length < 0 then Strlen(data) else length;
    wdata := [];
    var i := 0;
    while i < n
      invariant 0 <= i <= n
      invariant |wdata| == i
      invariant forall j :: 0 <= j < i ==> wdata[j] == data[j]
    {
      wdata := wdata + [data[i] as uint16];
      i := i + 1;
    }
  }

  /** Narrowing the widened buffer back gives the original bytes. */
  method NarrowWidened(data: seq<byte>, length: int) returns (back: seq<byte>)
    requires length >= 0 ==> length <= |data|
    requires length < 0 ==> NUL in data
    ensures back == NewStringBytes(data, length)
  {
    var wdata := NewFromOneByte(data, length);
    back := seq(|wdata|, i requires 0 <= i < |wdata| => wdata[i] as byte);
  }
}

=== FILE: wasm_env.dfy ===
/**
  The environment of an instantiated WebAssembly module
  (WebAssemblyEnvironment.cpp): one zeroed array of pointer-sized slots
  holding the memory, imported functions, functions, table and globals
  regions, with bounds-checked typed access.

  Addresses are byte offsets from the start of the array. Object slots hold
  references (None is null); global cells are addressed by byte offset and
  read as 0 until written. That both live in the same array is not modelled:
  the constructor's release check only bounds the globals region by the end
  of the array; it does not keep it apart from the other regions. An InternalError (or
  an out-of-memory error in the constructor) is an Err; so is a debug build's
  set-once assertion, which a release build does not check.
 */
module WasmEnv {
  import opened Wrappers

  datatype EnvFault = InternalError | OutOfMemory | OverwriteAsserted

  /** The classes of object a slot may reference. */
  datatype VarClass = WasmScriptFunction | AsmJsFunction | OtherFunction | Table | Memory | OtherObject

  /** The element types the environment stores, each with its T::Is test. */
  datatype ElemType = AsmJsScriptFunctionT | JavascriptFunctionT | WebAssemblyTableT | WebAssemblyMemoryT

  predicate Is(v: VarClass, t: ElemType)
  {
    match t
    case AsmJsScriptFunctionT => v == WasmScriptFunction || v == AsmJsFunction
    case JavascriptFunctionT => v == WasmScriptFunction || v == AsmJsFunction || v == OtherFunction
    case WebAssemblyTableT => v == Table
    case WebAssemblyMemoryT => v == Memory
  }

  /**
    `size` slots of `ptrSize` bytes each; the region fields are slot offsets.
   */
  datatype Env = Env(
    size: nat, ptrSize: nat,
    memory: nat, imports: nat, functions: nat, table: nat, globals: nat,
    slots: seq<Option<VarClass>>,
    cells: map<int, int>)

  ghost predicate Inv(e: Env)
  {
    e.ptrSize > 0 && |e.slots| == e.size
  }

  function EndAddress(e: Env): int { e.size * e.ptrSize }

  /**
    The constructor: a zeroed array of `size` slots, with the globals region
    of `globalsSize` slots required to lie within it. An empty array is
    accepted as a release build accepts it.
   */
  function Construct(size: nat, ptrSize: nat, memory: nat, imports: nat, functions: nat, table: nat,
                     globals: nat, globalsSize: nat): (r: Result<Env, EnvFault>)
    requires ptrSize > 0
    ensures r.Ok? <==> globals + globalsSize <= size
    ensures r.Err? ==> r.error == OutOfMemory
    ensures r.Ok? ==> Inv(r.value) && r.value.globals == globals && r.value.size == size
                      && r.value.ptrSize == ptrSize
                      && r.value.memory == memory && r.value.imports == imports
                      && r.value.functions == functions && r.value.table == table
                      && r.value.cells == map[]
                      && forall i :: 0 <= i < size ==> r.value.slots[i].None?
  {
    if globals + globalsSize > size then Err(OutOfMemory)
    else Ok(Env(size, ptrSize, memory, imports, functions, table, globals, seq(size, _ => None), map[]))
  }

  /** CheckPtrIsValid<T>: an object of `typeSize` bytes at byte address `ptr` lies within the array. */
  predicate PtrIsValid(e: Env, ptr: int, typeSize: nat)
  {
    0 <= ptr && ptr + typeSize <= EndAddress(e)
  }

  /** For a pointer-sized element in slot `s`, the byte check is exactly a slot bound check. */
  lemma {:induction false} SlotPtrIsValid(e: Env, s: int)
    requires Inv(e)
    ensures PtrIsValid(e, s * e.ptrSize, e.ptrSize) <==> 0 <= s < e.size
  {
    if 0 <= s < e.size {
      assert s * e.ptrSize + e.ptrSize == (s + 1) * e.ptrSize;
      MulMonotone(s + 1, e.size, e.ptrSize);
    } else if s < 0 {
      assert s * e.ptrSize < 0 by { MulNegative(s, e.ptrSize); }
    } else {
      assert s * e.ptrSize + e.ptrSize == (s + 1) * e.ptrSize;
      MulMonotone(e.size + 1, s + 1, e.ptrSize);
      assert (e.size + 1) * e.ptrSize == e.size * e.ptrSize + e.ptrSize;
    }
  }

  lemma MulMonotone(a: int, b: int, c: nat)
    requires a <= b
    ensures a * c <= b * c
  {
  }

  lemma MulNegative(a: int, c: nat)
    requires a < 0 && c > 0
    ensures a * c < 0
  {
  }

  // ---------------------------------------------------------------------------
  // Object slots
  // ---------------------------------------------------------------------------

  /**
    GetVarElement<T>: slot `index` of the region at `region`, bounded by
    `maxCount`. An empty slot reads as null; a slot holding something that is
    not a T is an InternalError.
   */
  function GetVarElement(e: Env, region: nat, index: nat, maxCount: nat, t: ElemType): (r: Result<Option<VarClass>, EnvFault>)
    requires Inv(e)
    ensures r.Err? ==> r.error == InternalError
    ensures r.Ok? <==> index < maxCount && region + index < e.size
                       && (e.slots[region + index].Some? ==> Is(e.slots[region + index].value, t))
    ensures r.Ok? ==> r.value == e.slots[region + index]
  {
    if index >= maxCount then Err(InternalError)
    else
      var s := region + index;
      SlotPtrIsValid(e, s);
      if !PtrIsValid(e, s * e.ptrSize, e.ptrSize) then Err(InternalError)
      else match e.slots[s]
        case None => Ok(None)
        case Some(v) => if !Is(v, t) then Err(InternalError) else Ok(Some(v))
  }

  /**
    SetVarElement<T>: stores `val` in slot `index` of the region. The bound and
    the type are checked; a debug build also asserts the slot is still empty.
    Nothing else changes.
   */
  function SetVarElement(e: Env, region: nat, val: VarClass, index: nat, maxCount: nat, t: ElemType,
                         debugBuild: bool): (r: Result<Env, EnvFault>)
    requires Inv(e)
    ensures r.Err? ==> r.error == InternalError || (debugBuild && r.error == OverwriteAsserted)
    ensures r.Ok? <==> index < maxCount && Is(val, t) && region + index < e.size
                       && (debugBuild ==> e.slots[region + index].None?)
    ensures r.Ok? ==> Inv(r.value) && r.value == e.(slots := e.slots[region + index := Some(val)])
  {
    if index >= maxCount || !Is(val, t) then Err(InternalError)
    else
      var s := region + index;
      SlotPtrIsValid(e, s);
      if !PtrIsValid(e, s * e.ptrSize, e.ptrSize) then Err(InternalError)
      else if debugBuild && e.slots[s].Some? then Err(OverwriteAsserted)
      else Ok(e.(slots := e.slots[s := Some(val)]))
  }

  /** A stored element reads back; in a debug build it can never be stored again. */
  lemma SetThenGet(e: Env, region: nat, val: VarClass, index: nat, maxCount: nat, t: ElemType, debugBuild: bool)
    requires Inv(e)
    requires SetVarElement(e, region, val, index, maxCount, t, debugBuild).Ok?
    ensures var e' := SetVarElement(e, region, val, index, maxCount, t, debugBuild).value;
            && GetVarElement(e', region, index, maxCount, t) == Ok(Some(val))
            && forall v :: SetVarElement(e', region, v, index, maxCount, t, true).Err?
  {
  }

  // ---------------------------------------------------------------------------
  // Functions, table, memory
  // ---------------------------------------------------------------------------

  /** How the module classifies a function index. */
  datatype FunctionIndexType = FunctionIndex | ImportThunkIndex | ImportIndex | InvalidIndex

  predicate HoldsWasmFunction(k: FunctionIndexType)
  {
    k == FunctionIndex || k == ImportThunkIndex
  }

  /** GetWasmFunction: only a Function or ImportThunk index is read, bounded by the function count. */
  function GetWasmFunction(e: Env, indexType: FunctionIndexType, index: nat, functionCount: nat): (r: Result<Option<VarClass>, EnvFault>)
    requires Inv(e)
    ensures !HoldsWasmFunction(indexType) ==> r == Err(InternalError)
    ensures r.Ok? <==> HoldsWasmFunction(indexType) && index < functionCount && e.functions + index < e.size
                       && (e.slots[e.functions + index].Some? ==> Is(e.slots[e.functions + index].value, AsmJsScriptFunctionT))
    ensures r.Ok? ==> r.value == e.slots[e.functions + index]
  {
    if !HoldsWasmFunction(indexType) then Err(InternalError)
    else GetVarElement(e, e.functions, index, functionCount, AsmJsScriptFunctionT)
  }

  /** SetWasmFunction: additionally, the function must be a wasm script function. */
  function SetWasmFunction(e: Env, indexType: FunctionIndexType, index: nat, func: VarClass,
                           functionCount: nat, debugBuild: bool): (r: Result<Env, EnvFault>)
    requires Inv(e)
    ensures !HoldsWasmFunction(indexType) || func != WasmScriptFunction ==> r == Err(InternalError)
    ensures r.Ok? <==> HoldsWasmFunction(indexType) && func == WasmScriptFunction
                       && index < functionCount && e.functions + index < e.size
                       && (debugBuild ==> e.slots[e.functions + index].None?)
    ensures r.Ok? ==> Inv(r.value) && r.value == e.(slots := e.slots[e.functions + index := Some(func)])
  {
    if !HoldsWasmFunction(indexType) || func != WasmScriptFunction then Err(InternalError)
    else SetVarElement(e, e.functions, func, index, functionCount, AsmJsScriptFunctionT, debugBuild)
  }

  /** SetImportedFunction: any function, bounded (as written) by the wasm function count. */
  function SetImportedFunction(e: Env, index: nat, func: VarClass, functionCount: nat, debugBuild: bool): (r: Result<Env, EnvFault>)
    requires Inv(e)
    ensures r.Ok? <==> index < functionCount && Is(func, JavascriptFunctionT) && e.imports + index < e.size
                       && (debugBuild ==> e.slots[e.imports + index].None?)
    ensures r.Ok? ==> Inv(r.value) && r.value == e.(slots := e.slots[e.imports + index := Some(func)])
  {
    SetVarElement(e, e.imports, func, index, functionCount, JavascriptFunctionT, debugBuild)
  }

  function GetTable(e: Env, index: nat): (r: Result<Option<VarClass>, EnvFault>)
    requires Inv(e)
    ensures r.Ok? <==> index == 0 && e.table < e.size && e.slots[e.table] in {None, Some(Table)}
    ensures r.Ok? ==> r.value == e.slots[e.table]
  {
    GetVarElement(e, e.table, index, 1, WebAssemblyTableT)
  }

  function SetTable(e: Env, index: nat, t: VarClass, debugBuild: bool): (r: Result<Env, EnvFault>)
    requires Inv(e)
    ensures r.Ok? <==> index == 0 && t == Table && e.table < e.size && (debugBuild ==> e.slots[e.table].None?)
    ensures r.Ok? ==> Inv(r.value) && r.value == e.(slots := e.slots[e.table := Some(Table)])
  {
    SetVarElement(e, e.table, t, index, 1, WebAssemblyTableT, debugBuild)
  }

  function GetMemory(e: Env, index: nat): (r: Result<Option<VarClass>, EnvFault>)
    requires Inv(e)
    ensures r.Ok? <==> index == 0 && e.memory < e.size && e.slots[e.memory] in {None, Some(Memory)}
    ensures r.Ok? ==> r.value == e.slots[e.memory]
  {
    GetVarElement(e, e.memory, index, 1, WebAssemblyMemoryT)
  }

  function SetMemory(e: Env, index: nat, m: VarClass, debugBuild: bool): (r: Result<Env, EnvFault>)
    requires Inv(e)
    ensures r.Ok? <==> index == 0 && m == Memory && e.memory < e.size && (debugBuild ==> e.slots[e.memory].None?)
    ensures r.Ok? ==> Inv(r.value) && r.value == e.(slots := e.slots[e.memory := Some(Memory)])
  {
    SetVarElement(e, e.memory, m, index, 1, WebAssemblyMemoryT, debugBuild)
  }

  /** The table and memory regions hold exactly one slot: index 0 is the only one that can succeed. */
  lemma TableAndMemoryHaveOneSlot(e: Env, index: nat, debugBuild: bool)
    requires Inv(e) && index > 0
    ensures GetTable(e, index) == Err(InternalError) && GetMemory(e, index) == Err(InternalError)
    ensures SetTable(e, index, Table, debugBuild) == Err(InternalError)
    ensures SetMemory(e, index, Memory, debugBuild) == Err(InternalError)
  {
  }

  // ---------------------------------------------------------------------------
  // Globals
  // ---------------------------------------------------------------------------

  datatype WasmType = I32 | I64 | F32 | F64 | OtherWasmType

  /** A global: its type and the offset the module assigns it, in units of its own size. */
  datatype WasmGlobal = WasmGlobal(ty: WasmType, offset: nat)

  /** sizeof of the C type a global of each type is stored as; 0 for no storage type. */
  function TypeSize(t: WasmType): nat
  {
    match t
    case I32 | F32 => 4
    case I64 | F64 => 8
    case OtherWasmType => 0
  }

  /**
    The byte address of a global: the offset counts elements of the global's
    own type from the start of the array.
   */
  function GlobalAddress(g: WasmGlobal): int
  {
    g.offset * TypeSize(g.ty)
  }

  /**
    GetGlobalValue: a null global or an unknown type is an InternalError, as
    is a cell outside the array; a cell never written reads as 0. Floating
    values are their stored bit patterns.
   */
  function GetGlobalValue(e: Env, global: Option<WasmGlobal>): (r: Result<int, EnvFault>)
    ensures r.Ok? <==> global.Some? && global.value.ty != OtherWasmType
                       && PtrIsValid(e, GlobalAddress(global.value), TypeSize(global.value.ty))
    ensures r.Err? ==> r.error == InternalError
    ensures r.Ok? ==> var a := GlobalAddress(global.value);
                      r.value == if a in e.cells then e.cells[a] else 0
  {
    match global
    case None => Err(InternalError)
    case Some(g) =>
      if g.ty == OtherWasmType then Err(InternalError)
      else
        var a := GlobalAddress(g);
        if !PtrIsValid(e, a, TypeSize(g.ty)) then Err(InternalError)
        else Ok(if a in e.cells then e.cells[a] else 0)
  }

  /**
    SetGlobalValue: as GetGlobalValue, then the cell is written; a debug build
    asserts it still held 0.
   */
  function SetGlobalValue(e: Env, global: Option<WasmGlobal>, value: int, debugBuild: bool): (r: Result<Env, EnvFault>)
    ensures r.Ok? ==> GetGlobalValue(e, global).Ok?
    ensures r.Ok? ==> r.value == e.(cells := e.cells[GlobalAddress(global.value) := value])
    ensures GetGlobalValue(e, global).Ok? && (debugBuild ==> GetGlobalValue(e, global).value == 0) ==> r.Ok?
  {
    match GetGlobalValue(e, global)
    case Err(f) => Err(f)
    case Ok(current) =>
      if debugBuild && current != 0 then Err(OverwriteAsserted)
      else Ok(e.(cells := e.cells[GlobalAddress(global.value) := value]))
  }

  /** A written global reads back, and a debug build refuses to write it again with a nonzero value there. */
  lemma SetGlobalThenGet(e: Env, g: WasmGlobal, value: int, debugBuild: bool)
    requires SetGlobalValue(e, Some(g), value, debugBuild).Ok?
    ensures var e' := SetGlobalValue(e, Some(g), value, debugBuild).value;
            && GetGlobalValue(e', Some(g)) == Ok(value)
            && (value != 0 ==> forall v :: SetGlobalValue(e', Some(g), v, true) == Err(OverwriteAsserted))
  {
  }
}

=== FILE: wrappers.dfy ===
/** Failure-carrying result types shared by every module of the model. */
module Wrappers {

  /** A value that may be absent: the model's stand-in for a null pointer. */
  datatype Option<+T> = None | Some(value: T)

  /** Either a value or the error that prevented computing it. */
  datatype Result<+R, +E> = Ok(value: R) | Err(error: E)
  {
    predicate IsFailure() { Err? }
  }
}

=== FILE: wscript.dfy ===
/**
  The host's error-code-to-message table (WScriptJsrt.h): the text printed
  for a JSRT error that escapes a script run.
 */
module WScript {
  import opened Wrappers
  import opened Jsrt

  /** The eight codes the table has a message for. */
  predicate Handled(code: JsErrorCode)
  {
    code in {JsErrorInvalidArgument, JsErrorNullArgument, JsErrorArgumentNotObject, JsErrorOutOfMemory,
             JsErrorScriptException, JsErrorScriptCompile, JsErrorFatal, JsErrorInExceptionState}
  }

  /** The argument errors, whose messages are reported as a TypeError. */
  predicate IsArgumentError(code: JsErrorCode)
  {
    code in {JsErrorInvalidArgument, JsErrorNullArgument, JsErrorArgumentNotObject}
  }

  const TypeErrorPrefix: string := "TypeError: "

  /** Which code a message names: the table read from right to left. */
  function CodeOfMessage(message: string): Option<JsErrorCode>
  {
    if message == "TypeError: InvalidArgument" then Some(JsErrorInvalidArgument)
    else if message == "TypeError: NullArgument" then Some(JsErrorNullArgument)
    else if message == "TypeError: ArgumentNotAnObject" then Some(JsErrorArgumentNotObject)
    else if message == "OutOfMemory" then Some(JsErrorOutOfMemory)
    else if message == "ScriptError" then Some(JsErrorScriptException)
    else if message == "SyntaxError" then Some(JsErrorScriptCompile)
    else if message == "FatalError" then Some(JsErrorFatal)
    else if message == "ErrorInExceptionState" then Some(JsErrorInExceptionState)
    else None
  }

  /**
    ConvertErrorCodeToMessage: a non-empty message for each of the eight
    handled codes, null (None) for every other code. The message names its
    code, and only argument errors are reported as a TypeError.
   */
  function ConvertErrorCodeToMessage(code: JsErrorCode): (m: Option<string>)
    ensures m.Some? <==> Handled(code)
    ensures m.Some? ==> |m.value| > 0 && CodeOfMessage(m.value) == Some(code)
    ensures m.Some? ==> (IsArgumentError(code) <==> TypeErrorPrefix <= m.value)
  {
    match code
    case JsErrorInvalidArgument => Some("TypeError: InvalidArgument")
    case JsErrorNullArgument => Some("TypeError: NullArgument")
    case JsErrorArgumentNotObject => Some("TypeError: ArgumentNotAnObject")
    case JsErrorOutOfMemory => Some("OutOfMemory")
    case JsErrorScriptException => Some("ScriptError")
    case JsErrorScriptCompile => Some("SyntaxError")
    case JsErrorFatal => Some("FatalError")
    case JsErrorInExceptionState =>
      assert "ErrorInExceptionState"[0] != TypeErrorPrefix[0];
      Some("ErrorInExceptionState")
    case _ => None
  }

  /** No two handled codes share a message. */
  lemma MessagesDistinct(a: JsErrorCode, b: JsErrorCode)
    requires Handled(a) && Handled(b) && a != b
    ensures ConvertErrorCodeToMessage(a) != ConvertErrorCodeToMessage(b)
  {
    assert CodeOfMessage(ConvertErrorCodeToMessage(a).value) == Some(a);
  }

  /** Every message the table knows is the message of the code it names. */
  lemma MessageNamesItsCode(message: string)
    requires CodeOfMessage(message).Some?
    ensures ConvertErrorCodeToMessage(CodeOfMessage(message).value) == Some(message)
  {
  }
}
